=== FILE: README.md ===
# Sliding-puzzle searchers, modelled in Dafny

This project models the search core of an 8-puzzle solver. A puzzle state is a
tuple of tiles laid out row by row on a square board, with the largest value
(`9` on a 3x3 board, `size * size` in general) standing for the blank. A state
is a `seq<int>` here.

The `*_ANDOR.py` searchers share one move model. A *single* move slides the
blank one cell up, down, left or right and costs 1. A *double* move makes two
such slides, where the second slide does not return the blank to where it
started, and costs 2. The shared heuristic is the Manhattan distance of every
non-blank tile to its goal cell. It is infinite (`float('inf')`, `None` here)
in three cases: the board is not square, the goal has another length, or a
tile is missing from the goal.

The modules follow the source files:

- `Grid`: the integer square root (`int(len(state) ** 0.5)`), `divmod`
  positions, `index`, and the blank swap.
- `Moves`: the neighbour generators.
  - The list-with-costs generator of A* and uniform-cost search: single moves,
    then double moves. The uniform-cost copy also drops repeated states.
  - The set-based generator of the other searchers.
  - The 3x3 single-slide generator of `beam_search.py`.
  - `Step(s, t)`: one single or double move, the relation the searchers' paths
    follow.
- `Heuristic`: `manhattan_distance` (infinite cases included) and the 3x3
  heuristic of `beam_search.py`.
- `Paths`: `reconstruct_path` over a parent map, plus the predicates about
  search trees that the searchers keep.
- `StateSpace`: the finite set of rearrangements of the start state. Every
  searcher's termination measure counts against it.
- `Order`: Python's tuple and list ordering, sorting, and `heapq.nsmallest`.
- `AStar`, `UniformCost`, `BreadthFirst`, `DepthFirst`, `Greedy` and
  `BeamAndOr`: the systematic searchers.
  - A heap becomes a multiset, and a pop takes an entry of least priority.
  - Each searcher keeps the book-keeping invariants of its loop and proves
    that a returned path runs from start to goal through successive
    neighbours without repeats.
- `Beam`: `beam_search.py`, on 3x3 boards with single slides only and no depth
  limit.
- `Solvability`: the inversion counting and the parity test `is_solvable`
  shared by the hill-climbing files.
- `HillClimbing`, `SteepestHill`, `StochasticHill` and `Annealing`: the local
  searches with restarts. Their randomness is modelled as follows.
  - `random.choice` is a nondeterministic pick (`:|`).
  - The restart coin, the temperature schedule and the Boltzmann draw are
    oracle parameters of type `nat -> bool`.
- `Blind`: from `blind.py`:
  - `get_inversions`, `is_solvable` and `apply_move`;
  - `TARGET_GOAL_STATES`;
  - `find_common_path`, the breadth-first search over sorted belief states for
    one move list that drives every puzzle of the belief into the goal set.

## Model

| member | source | states |
|---|---|---|
| Grid.ISqrt | algorithms/a_star_ANDOR.py:14 | the board size is the integer square root: r*r <= n < (r+1)*(r+1) |
| Grid.ISqrtOfSquare | algorithms/a_star_ANDOR.py:14-16 | the size of a square board of s*s cells is s |
| Grid.IndexOf | algorithms/a_star_ANDOR.py:53 | `list.index`: absent exactly when x is not in s, otherwise the first position holding x |
| Grid.LastIndexOf | algorithms/a_star_ANDOR.py:23 | the position the goal map keeps for a tile: absent exactly when x is missing, otherwise its last position |
| Grid.Swap | algorithms/a_star_ANDOR.py:69 | exchanging two cells changes those two cells only and permutes the tiles |
| Grid.SwapBack | blind.py:63 | swapping the same two cells again restores the state |
| Grid.Target | algorithms/a_star_ANDOR.py:63-66 | the cell one step in a direction is on the board, and its row and column differ by that direction's deltas |
| Grid.TargetIsAdjacent | algorithms/a_star_ANDOR.py:63-66 | every move target is an orthogonally adjacent cell |
| Grid.AdjacentIsTarget | algorithms/a_star_ANDOR.py:58-66 | every adjacent cell is the target of one of the four directions |
| Grid.AdjacentSymmetric | algorithms/a_star_ANDOR.py:58-66 | adjacency is symmetric |
| Grid.Opposite | blind.py:55-58 | the opposite direction negates both deltas |
| Heuristic.ManhattanInfinite | algorithms/a_star_ANDOR.py:13-34 | the distance is infinite exactly for a non-square board, a goal of another length, or a non-blank tile missing from goal |
| Heuristic.GoalMap | algorithms/a_star_ANDOR.py:23 | the goal map holds every goal tile at its last position in goal |
| Heuristic.ManhattanDistance | algorithms/a_star_ANDOR.py:7-38 | the loop over the tiles computes the Manhattan sum, infinite cases included |
| Heuristic.ManhattanSelf | algorithms/a_star_ANDOR.py:7-38 | a square state is at distance 0 from itself |
| Heuristic.ManhattanZeroIff | algorithms/a_star_ANDOR.py:7-38 | for a rearrangement of a goal with distinct tiles, a distance of 0 holds exactly when state equals goal |
| Heuristic.SumZero | algorithms/a_star_ANDOR.py:25-37 | a zero partial sum puts every remaining non-blank tile at its goal cell |
| Heuristic.Heuristic3 | algorithms/beam_search.py:35-44 | the loop of `heuristic` computes the 3x3 Manhattan sum |
| Heuristic.Heuristic3IsManhattan | algorithms/beam_search.py:35-44 | on 3x3 boards with every tile in goal, the beam-search heuristic equals the shared Manhattan distance |
| Moves.BlankIndex | algorithms/a_star_ANDOR.py:48-56 | the blank is found exactly when the board is square and holds the value size*size, at its first position |
| Moves.NeighborsWithCosts | algorithms/a_star_ANDOR.py:48-56 | no neighbours for a non-square board or one without a blank |
| Moves.NeighborsSound | algorithms/a_star_ANDOR.py:58-94 | every generated pair is a single move of cost 1 or a double move of cost 2, and a rearrangement of the same length |
| Moves.AllNeighborsSound | algorithms/a_star_ANDOR.py:58-94 | the same fact for all generated pairs at once |
| Moves.SingleComplete | algorithms/a_star_ANDOR.py:63-72 | every single move is generated with cost 1 |
| Moves.DoubleComplete | algorithms/a_star_ANDOR.py:76-94 | every double move is generated with cost 2 |
| Moves.NoSelfNeighbor | algorithms/a_star_ANDOR.py:84-85 | because the second slide never returns to the blank's cell, no state is its own neighbour |
| Moves.SinglesCount | algorithms/a_star_ANDOR.py:63-72 | a board with a blank has between two and four single moves |
| Moves.StepPermutes | algorithms/a_star_ANDOR.py:58-94 | every move permutes the tiles |
| Moves.DedupSound | algorithms/ucs_ANDOR.py:23-36 | the `added_states` filter keeps only unseen states, each once, each with the cost of its first occurrence |
| Moves.DedupComplete | algorithms/ucs_ANDOR.py:23-36 | the filter drops no unseen state |
| Moves.Dedup | algorithms/ucs_ANDOR.py:8-36 | the loop computes the filter |
| Moves.DedupNeighbors | algorithms/ucs_ANDOR.py:7-37 | the deduplicated list holds each neighbour exactly once, with its first cost |
| Moves.DedupNeighborsWithCosts | algorithms/ucs_ANDOR.py:7-37 | the generator's result is the filtered list, and each entry is a move of cost 1 or 2 |
| Moves.NeighborSet | algorithms/bfs_ANDOR.py:7-56 | the set of neighbours holds rearrangements of the state |
| Moves.NeighborSetIsStep | algorithms/bfs_ANDOR.py:7-56 | a state is in the neighbour set exactly when it is one single or double move away |
| Moves.NeighborList | algorithms/beam_search_ANDOR.py:35-85 | the list without deduplication has one entry per generated pair, and holds exactly the neighbour set |
| Moves.NeighborListIsStep | algorithms/beam_search_ANDOR.py:35-85 | a state is listed exactly when it is one move away |
| Moves.NeighborStates | algorithms/bfs_ANDOR.py:56 | `list(neighbors)` holds exactly the states one move away, each once |
| Moves.StatesIn | algorithms/beam_search_ANDOR.py:56-81 | a state is listed exactly when some generated pair carries it |
| Moves.Neighbors3AreSingles | algorithms/beam_search.py:19-33 | a state is in the 3x3 neighbour list exactly when it is a single move away, and there are two to four of them |
| Moves.Slides3IsFirstLegs | algorithms/beam_search.py:25-32 | the 3x3 generator produces the same slides as the shared generator's first legs |
| Order.SeqOrder | algorithms/beam_search_ANDOR.py:143-147 | Python's lexicographic tuple order is a total order |
| Order.EntryOrder | algorithms/beam_search_ANDOR.py:143-147 | the order on (h, state, path) entries is a total order |
| Order.SortBy | blind.py:186 | sorting permutes its input |
| Order.SortBySorted | blind.py:186 | sorting yields a sorted list |
| Order.SmallestKeepsLeast | algorithms/beam_search_ANDOR.py:147 | the k kept entries come from the input, are sorted, and none exceeds a dropped one |
| Order.NSmallest | algorithms/beam_search_ANDOR.py:147 | `heapq.nsmallest(n, xs)` keeps min(n, len) entries of xs, sorted, none above a dropped entry |
| Order.MinBy | algorithms/a_star_ANDOR.py:148 | a non-empty heap has an entry of least priority, and a pop may take it |
| Order.ListOf | algorithms/bfs_ANDOR.py:56 | a set listed holds the same elements, each once |
| Paths.ReconstructPath | algorithms/a_star_ANDOR.py:98-108 | the path ends at the state, starts at a root of the parent map, follows parent links and repeats no state |
| Paths.PathInTree | algorithms/a_star_ANDOR.py:98-108 | in a search tree rooted at start, such a path starts at start and links successive neighbours |
| Paths.TracePath | algorithms/a_star_ANDOR.py:157-160 | the reconstructed path to a reached goal runs from start to goal without repeats |
| Paths.Graft | algorithms/a_star_ANDOR.py:172-174 | recording a neighbour's parent keeps the parent map a search tree rooted at start |
| Paths.Cap | algorithms/hill_climbing_ANDOR.py:109-112 | the cap on trail length is at least 1 and at least max_iterations + 1 |
| StateSpace.PermutationInUniverse | algorithms/a_star_ANDOR.py:58-94 | every rearrangement of start lies in the finite universe every search stays inside |
| AStar.Push | algorithms/a_star_ANDOR.py:175-181 | a neighbour with infinite heuristic is not queued; otherwise it is queued with f = g + h |
| AStar.RelaxOne | algorithms/a_star_ANDOR.py:163-181 | a neighbour that is open and whose new g is strictly below its recorded g gets g = new g and the current state as parent, and (g + h, g, next) is pushed exactly when h is finite; a closed neighbour or one without improvement leaves g, parents and the heap as they were; the tree and heap invariants hold |
| AStar.Relax | algorithms/a_star_ANDOR.py:162-181 | after all neighbours, every open neighbour's g is at most g_current + its move cost; every state whose g changed got g_current + the cost of one of the neighbour entries, and its (g + h, g, state) entry is in the heap when h is finite; the heap only grows |
| AStar.RelaxedStep | algorithms/a_star_ANDOR.py:162-181 | the exact effect of relaxing one more neighbour extends the per-neighbour bound and the record of lowered costs to the longer prefix of the neighbour list |
| AStar.Iterate | algorithms/a_star_ANDOR.py:146-181 | the entry popped has the least f in the heap; an entry whose state is closed is dropped and nothing else changes; otherwise its state is closed, found holds exactly when it is the goal (heap otherwise minus that entry), and else its neighbours are relaxed as in Relax; the invariants hold |
| AStar.Settle | algorithms/a_star_ANDOR.py:151-181 | closing a popped open state: closed grows by it, found exactly when it is the goal, which is then in the tree; otherwise every neighbour is relaxed with the bound and lowered-cost record of Relax, and the unclosed states of the reachable universe strictly shrink |
| AStar.Solve | algorithms/a_star_ANDOR.py:110-184 | None for a non-square board, boards of unequal length, or an infinite start heuristic; a found path runs from start to goal through neighbours without repeats |
| UniformCost.PopKeeps | algorithms/ucs_ANDOR.py:78-83 | a popped entry above the recorded cost is stale and dropped; otherwise its state is settled and never expanded again |
| UniformCost.RelaxOne | algorithms/ucs_ANDOR.py:95-103 | a neighbour whose new cost is strictly below its recorded cost (or that has none) gets the new cost and the current state as parent and (cost, next) is pushed; otherwise costs, parents and the heap stay as they were; the invariants hold |
| UniformCost.Relax | algorithms/ucs_ANDOR.py:93-103 | after all neighbours, every neighbour's cost is at most current cost + its move cost; every state whose cost changed got current cost + the cost of one neighbour entry and has (cost, state) in the heap; the heap only grows |
| UniformCost.RelaxedStep | algorithms/ucs_ANDOR.py:93-103 | the exact effect of relaxing one more neighbour extends the per-neighbour bound and the record of lowered costs to the longer prefix of the neighbour list |
| UniformCost.Iterate | algorithms/ucs_ANDOR.py:76-103 | the entry popped has the least cost in the heap; a stale entry (cost above the recorded one) is dropped and nothing else changes; otherwise found holds exactly when its state is the goal, and else the state is expanded and its neighbours relaxed as in Relax; the invariants hold |
| UniformCost.Settle | algorithms/ucs_ANDOR.py:85-103 | a non-stale popped state: found exactly when it is the goal, which is then in the tree; otherwise it is expanded once, its neighbours relaxed with the bound and lowered-cost record of Relax, and the unexpanded states of the reachable universe strictly shrink |
| UniformCost.Solve | algorithms/ucs_ANDOR.py:50-106 | a found path runs from start to goal through neighbours without repeats |
| BreadthFirst.EnqueueKeeps | algorithms/bfs_ANDOR.py:97-100 | marking and enqueuing a new neighbour keeps the FIFO queue and the search tree |
| BreadthFirst.DequeueKeeps | algorithms/bfs_ANDOR.py:93 | `popleft` keeps the queue invariant, and the state taken is visited |
| BreadthFirst.Visit | algorithms/bfs_ANDOR.py:97-100 | an unvisited neighbour is marked visited, gets the current state as parent and is appended to the queue; a visited one changes nothing; the queue keeps its front and the new entries are exactly the newly visited states |
| BreadthFirst.Expand | algorithms/bfs_ANDOR.py:96-104 | the queue becomes the old queue followed by exactly the newly visited states, each a neighbour, each once and with the current state as parent; earlier enqueued states and parents are kept; it reports found exactly when the goal is among the newly visited neighbours; without it every neighbour ends visited |
| BreadthFirst.Iterate | algorithms/bfs_ANDOR.py:92-104 | one dequeue: the new queue is the rest of the old one followed by the newly enqueued states, the enqueued list only grows at its end and repeats nothing, every newly visited state is a neighbour of the dequeued state with it as parent; found exactly when the goal is newly visited; it visits a new state or shortens the queue |
| BreadthFirst.Solve | algorithms/bfs_ANDOR.py:70-107 | returns [start] when start equals goal; a found path runs from start to goal without repeats |
| DepthFirst.PushKeeps | algorithms/dfs_ANDOR.py:115-120 | pushing a new neighbour keeps the search tree and records its depth one above its parent's |
| DepthFirst.PopKeeps | algorithms/dfs_ANDOR.py:99 | `pop` keeps the stack invariant, and the state taken is visited |
| DepthFirst.Visit | algorithms/dfs_ANDOR.py:115-120 | an unvisited neighbour is marked visited, gets the current state as parent and depth one more, and is pushed on top; a visited one changes nothing |
| DepthFirst.Expand | algorithms/dfs_ANDOR.py:111-120 | the old stack stays below; the states pushed on top are exactly the newly visited ones, which are exactly the unvisited neighbours, each with the current state as parent and depth one more; other parents and depths are kept |
| DepthFirst.Iterate | algorithms/dfs_ANDOR.py:98-120 | one pop reports found exactly when the popped top of the stack is the goal; otherwise the rest of the stack stays below and exactly the new neighbours are pushed above it (none below the depth limit is missed); it keeps the invariants and visits a new state or shortens the stack |
| DepthFirst.DepthAlong | algorithms/dfs_ANDOR.py:96-119 | the recorded depth of a state is the length of its tree path less one |
| DepthFirst.TraceShallowPath | algorithms/dfs_ANDOR.py:102-103 | the reconstructed path has depth[goal] + 1 <= MAX_DEPTH + 1 states |
| DepthFirst.Solve | algorithms/dfs_ANDOR.py:71-123 | [start] when start equals goal; a found path runs from start to goal without repeats and has at most 51 states |
| Greedy.RecordKeeps | algorithms/greedy_ANDOR.py:152-154 | recording a parent and queuing (h, next) keeps the invariants |
| Greedy.RelaxOne | algorithms/greedy_ANDOR.py:145-154 | a closed neighbour or one of infinite heuristic changes nothing; otherwise its parent is overwritten and (h, next) queued |
| Greedy.Relax | algorithms/greedy_ANDOR.py:143-154 | after all neighbours, every unclosed neighbour of finite h has the current state as parent and (h, neighbour) in the heap; a parent changes only for an unclosed neighbour, and then to the current state; the heap only grows |
| Greedy.RelaxedStep | algorithms/greedy_ANDOR.py:143-154 | the effect of one more neighbour extends the parent and heap facts of Relax to the longer prefix of the neighbour list |
| Greedy.CloseKeeps | algorithms/greedy_ANDOR.py:134-136 | closing a popped state keeps the invariants |
| Greedy.Settle | algorithms/greedy_ANDOR.py:134-154 | the popped unclosed state is closed, found exactly when it is the goal (then parents are kept and the heap loses just that entry); otherwise every unclosed neighbour of finite h gets it as parent and is queued with its h, a parent changes only for an unclosed neighbour, and the unclosed states strictly shrink |
| Greedy.Iterate | algorithms/greedy_ANDOR.py:128-154 | the entry popped has the least h in the heap; a closed state is dropped and nothing else changes; otherwise it is closed, found exactly when it is the goal, and else its neighbours are queued as in Settle; the invariants hold |
| Greedy.Solve | algorithms/greedy_ANDOR.py:98-157 | None when the start heuristic is infinite; a found path runs from start to goal without repeats |
| BeamAndOr.Extend | algorithms/beam_search_ANDOR.py:137-143 | appending a new finite-score neighbour to an entry's path gives a sound entry one level deeper |
| BeamAndOr.ExpandEntry | algorithms/beam_search_ANDOR.py:135-143 | every listed neighbour ends visited; earlier candidates stay in front; the candidates gained are exactly the newly visited neighbours of finite score, with sound paths one level deeper |
| BeamAndOr.Expand | algorithms/beam_search_ANDOR.py:133-143 | the newly visited states are exactly the unvisited neighbours of the entry; earlier candidates stay in front and the candidates gained are exactly those of finite score, sound one level deeper |
| BeamAndOr.Advance | algorithms/beam_search_ANDOR.py:126-143 | an entry at the goal returns its path, which has one state per level; otherwise no entry is the goal, the newly visited states are exactly the unvisited neighbours of the beam's states, and the candidates carry exactly those of finite score, with sound paths |
| BeamAndOr.Solve | algorithms/beam_search_ANDOR.py:87-154 | None for an infinite start heuristic; a found path runs from start to goal without repeats and has at most 100 states, the loop keeping at most `beam_width` entries in the beam after the first level |
| Beam.Board3Permutation | algorithms/beam_search.py:19-44 | every rearrangement of a handled 3x3 board is handled |
| Beam.Extend | algorithms/beam_search.py:58-63 | appending a new slide to an entry's path gives a sound entry with its heuristic |
| Beam.ExpandEntry | algorithms/beam_search.py:57-63 | every listed neighbour ends visited; earlier candidates stay in front; the candidates gained are exactly the newly visited neighbours, with sound paths and their heuristic |
| Beam.Visit | algorithms/beam_search.py:58-63 | one pass of the neighbour loop marks the neighbour visited and, when it was new, appends it as a sound candidate; the candidates gained so far stay exactly the newly visited states |
| Beam.Expand | algorithms/beam_search.py:57-63 | the newly visited states are exactly the unvisited single slides of the entry; earlier candidates stay in front and the candidates gained are exactly those states, with sound paths |
| Beam.Advance | algorithms/beam_search.py:53-63 | an entry at the goal returns its path; otherwise no entry is the goal, the newly visited states are exactly the unvisited slides of the beam's states, and the candidates carry exactly those states, with sound paths |
| Beam.Take | algorithms/beam_search.py:53-63 | entry i returns its path when it is the goal; otherwise its expansion extends the level's books (sound candidates, exactly the unvisited slides of the entries so far) to the first i + 1 entries |
| Beam.Shrinks | algorithms/beam_search.py:51-68 | a level that generates candidates strictly shrinks the set of unvisited states |
| Beam.Iterate | algorithms/beam_search.py:51-68 | one level keeps the beam sound; the candidates are exactly the newly visited states, which are exactly the unvisited slides of the beam's states; the next beam is the `beam_width` smallest candidates; the unvisited states strictly shrink or the beam empties |
| Beam.Solve | algorithms/beam_search.py:46-71 | a found path runs from start to goal by single slides without repeats; its loop keeps at most `max(beam_width, 1)` entries in the beam |
| Solvability.Without9 | algorithms/hill_climbing_ANDOR.py:57-58 | dropping the 9s keeps every other tile, with its multiplicity |
| Solvability.CountInversions | algorithms/hill_climbing_ANDOR.py:61-65 | the double loop counts the pairs i < j with a[i] > a[j] |
| Solvability.InversionsZeroIff | algorithms/hill_climbing_ANDOR.py:61-65 | no inversions exactly when the list is sorted |
| Solvability.IsSolvablePair | algorithms/hill_climbing_ANDOR.py:53-79 | true exactly when both lists have eight non-blank tiles and inversion counts of equal parity |
| HillClimbing.Unvisited | algorithms/hill_climbing_ANDOR.py:139 | the unvisited neighbours are exactly the neighbours not visited |
| HillClimbing.Least | algorithms/hill_climbing_ANDOR.py:129-130 | the stable sort's head is the first candidate of least score |
| HillClimbing.LeastIsBest | algorithms/hill_climbing_ANDOR.py:119-130 | no unvisited neighbour scores below the chosen candidate |
| HillClimbing.Escape | algorithms/hill_climbing_ANDOR.py:139-145 | the random escape takes an unvisited neighbour, or there is none |
| HillClimbing.ChooseMove | algorithms/hill_climbing_ANDOR.py:115-145 | a best strictly better unvisited neighbour resets the stuck count; without one the count grows, and the attempt stops at 5 |
| HillClimbing.ClimbingExtend | algorithms/hill_climbing_ANDOR.py:115-153 | a move chosen by the hill-climbing rule keeps the whole trail following the rule |
| HillClimbing.TrackedExtend | algorithms/hill_climbing_ANDOR.py:155-158 | replacing the best state when the new state scores strictly lower keeps it the old best or a trail state, with no trail state below it |
| HillClimbing.Attempt | algorithms/hill_climbing_ANDOR.py:105-164 | the trail starts at its origin, links neighbours without repeats and has at most max_iterations + 1 states; each move goes to a strictly better unvisited neighbour of least score when one exists; the best state ends as the old one or a trail state with its score, and no trail state scores below it |
| HillClimbing.Round | algorithms/hill_climbing_ANDOR.py:93-169 | the attempt begins at the best state exactly when this is not the first restart, the coin succeeds and the best score is below start's, and at start otherwise; a trail ending at the goal is returned; otherwise `overall_path` becomes the trail when the trail ends off the goal and `overall_path` is empty or ends on a higher score, and is unchanged otherwise |
| HillClimbing.Solve | algorithms/hill_climbing_ANDOR.py:81-185 | None for an unsolvable pair; [start] when start is the goal; any other result is a trail ending at goal from a state reachable from start |
| SteepestHill.DescentBound | algorithms/steepest_hill_ANDOR.py:107-122 | a trail of strictly falling scores from score h has at most h + 1 states |
| SteepestHill.Bounded | algorithms/steepest_hill_ANDOR.py:99-128 | a trail of strictly falling scores from a state scoring h has at most h + 1 states |
| SteepestHill.SteepestExtend | algorithms/steepest_hill_ANDOR.py:116-128 | moving to a least-scoring strictly better neighbour keeps the trail steepest |
| SteepestHill.SteepestMove | algorithms/steepest_hill_ANDOR.py:105-122 | the move goes to a strictly better unvisited neighbour that no other unvisited neighbour beats, or none is better |
| SteepestHill.Climb | algorithms/steepest_hill_ANDOR.py:94-138 | the trail is steepest, has no repeats, is capped at max_iterations + 1 and at h + 1 states for a start scoring h; stopping early means no unvisited neighbour scores lower; the best state ends as the old one or a trail state with its score, and no trail state scores below it |
| SteepestHill.Round | algorithms/steepest_hill_ANDOR.py:85-143 | the restart rule and the `overall_path` update of hill climbing's round, with a steepest attempt, so the kept trail stays steepest |
| SteepestHill.Solve | algorithms/steepest_hill_ANDOR.py:69-153 | None for an unsolvable pair; [start] when start is the goal; any other result is a steepest trail ending at goal |
| StochasticHill.StochasticMove | algorithms/stochastic_hill_ANDOR.py:105-133 | some strictly better unvisited neighbour resets the stuck count; otherwise the count grows, above 10 the attempt stops, else a random unvisited neighbour is taken |
| StochasticHill.WanderingExtend | algorithms/stochastic_hill_ANDOR.py:105-139 | a move chosen by the stochastic rule keeps the whole trail following the rule |
| StochasticHill.Wander | algorithms/stochastic_hill_ANDOR.py:96-149 | the trail starts at its origin, has no repeats and is capped; each move goes to a strictly better state unless no unvisited neighbour is strictly better; the best state ends as the old one or a trail state with its score, and no trail state scores below it |
| StochasticHill.Round | algorithms/stochastic_hill_ANDOR.py:86-154 | the restart rule and the `overall_path` update of hill climbing's round, with a stochastic attempt |
| StochasticHill.Solve | algorithms/stochastic_hill_ANDOR.py:70-164 | None for an unsolvable pair; [start] when start is the goal; any other result is a trail ending at goal |
| Annealing.Propose | algorithms/simulated_annealing_ANDOR.py:99-116 | no draw exactly when there is no neighbour; an infinite-score draw is never accepted; one scoring no higher always is, since for a tie the bound `exp(0)` is 1, above any `random.random()`; a worse one is accepted by the Boltzmann oracle |
| Annealing.Accept | algorithms/simulated_annealing_ANDOR.py:117-124 | moving to an accepted neighbour keeps the path and the best state, taking the neighbour as best when strictly lower |
| Annealing.Anneal | algorithms/simulated_annealing_ANDOR.py:82-128 | the path runs from start to the current state through finite scores and is capped; the best state is on it and scores no more than any state on it |
| Annealing.Solve | algorithms/simulated_annealing_ANDOR.py:54-145 | None for an infinite start score; [start] at score 0; a found path runs from start to goal through neighbours of finite score |
| Blind.GetInversions | blind.py:36-43 | the count is the number of inversions of the state without its 9s |
| Blind.IsSolvable | blind.py:45-47 | true exactly when the state has nine cells, holds a 9, and has an even inversion count |
| Blind.TargetGoalsParity | blind.py:24-26 | of the three target states only (1,...,9) passes `is_solvable` |
| Blind.ParseMove | blind.py:55-59 | a name is understood exactly when it is Up, Down, Left or Right |
| Blind.MoveName | blind.py:175 | a direction's name parses back to it |
| Blind.MoveTarget | blind.py:53-62 | the blank's new cell is on the 3x3 board |
| Blind.ApplyMove | blind.py:49-66 | None exactly for a missing blank, an unknown name or a move off the grid; otherwise a rearrangement with the blank at the target, a single slide on nine cells |
| Blind.ApplyMoveInverse | blind.py:49-66 | on a nine-cell board with one blank, a move followed by its opposite restores the state |
| Blind.Keep | blind.py:184-185 | a move applied to one puzzle of a belief leaves it unchanged when undefined |
| Blind.Canonical | blind.py:186 | `tuple(sorted(...))` permutes the belief into sorted order |
| Blind.StepBelief | blind.py:182-186 | the next belief is sorted, has the same multiset of puzzles as the moved belief (an undefined move keeping its puzzle), and so holds exactly the moved puzzles |
| Blind.TracksStep | blind.py:181-191 | replaying one more move on every initial puzzle lands in the next belief |
| Blind.ExpandBelief | blind.py:181-191 | moves are tried in order; a new successor wholly in the goal set returns the moves plus that move, which drive every initial puzzle into the goal set; the queue and the enqueued list keep their old entries in front, and the beliefs newly enqueued are exactly the newly visited ones, each a successor not wholly in the goal set, each once; with nothing found every successor ends visited |
| Blind.TryMove | blind.py:182-191 | one move: a new successor wholly in the goal set returns the moves plus this move; otherwise this successor ends visited, the old queue and enqueued list stay in front, and every belief enqueued since the expansion began is a successor of a move tried so far, not wholly in the goal set, enqueued once |
| Blind.Round | blind.py:178-191 | one pass of the main loop dequeues the front belief and expands it; the enqueued list only grows at its end and the queue stays its unexpanded part, without repeats |
| Blind.FindCommonPath | blind.py:169-192 | None for an empty belief; [] when every puzzle is already a goal; a returned move list drives every initial puzzle into the goal set; the beliefs enqueued over the whole run start with the sorted initial belief and none is enqueued twice |

## Left out

- Random draws (`random.choice`, `random.random()`): modelled as nondeterministic picks and as oracle parameters. The 0.7 and 0.6 restart probabilities and the distributions are not modelled.
- Annealing.Anneal: the floating-point temperature, `math.exp` and the cooling factor are replaced by two oracles: `warm` (the temperature is still above its minimum) and `accept` (the Boltzmann draw).
- `float('inf')` is `None`, and `Below` orders scores with `None` above every number, as Python's comparisons with infinity do.
- `int(len(state) ** 0.5)` is the exact integer square root. Rounding of the floating-point root is not modelled.
- The order in which `heappop` breaks ties and the iteration order of Python sets are not modelled. A pop takes any entry of least priority, and a set is listed in some order.
- Optimality of the breadth-first, uniform-cost and A* paths is not proved. Their contracts state that a returned path is valid and has no repeats.
- Completeness of the searchers is not stated (None may be returned for a reachable goal in the model).
- Beam.Solve: requires a nine-cell start holding a 9 whose other tiles all occur in goal. Boards of other lengths are outside the 8-puzzle this searcher is written for. A shorter or blank-less start, or a tile missing from goal, makes `state.index(9)` or `goal.index` raise, and exceptions are not modelled. A longer start whose 9 lies in the first nine cells, with those nine tiles all in goal, runs without raising; the model does not cover it.
- Blind.ApplyMove: requires that the swap stays inside the list. Only a list shorter than nine cells can make `apply_move` raise `IndexError`.
- Blind.ApplyMoveInverse: stated for nine-cell boards with exactly one blank. With several 9s the second move may pick another blank.
- HillClimbing.Solve: the source's final branch that returns `overall_path` when its last state is the goal can never be taken, because `overall_path` only holds trails that end elsewhere. The model keeps the branch and proves no more about it.
- The `print` calls, the timers of `find_common_path`, the pygame interface of `blind.py` (drawing, animation, buttons), `generate_specific_solvable_states`, and `fill.py` are not part of this model.
- Blind.TargetGoalsParity: two of the three `TARGET_GOAL_STATES` fail `is_solvable`, with 9 and 7 inversions respectively. The model records this and changes nothing.

=== FILE: annealing.dfy ===
/** Simulated annealing over single and double moves
    (`simulated_annealing_ANDOR.py`). Each iteration draws a random
    neighbour; a neighbour with infinite score is skipped without cooling,
    a better or equal one is always accepted (for an equal one the Boltzmann
    bound is exp(0) = 1, which `random.random()` never reaches), and a worse
    one is accepted when the Boltzmann draw says so. The temperature schedule and
    the Boltzmann draw are oracle parameters: `warm(c)` says whether the
    temperature is still above its minimum after c coolings, and `accept(k)`
    is the draw of iteration k. */
module Annealing {
  import opened Grid
  import opened Moves
  import opened Heuristic
  import opened Paths

  /** The default `max_iterations`. */
  const DefaultMaxIterations: int := 50000

  /** One draw: no neighbour at all, or a random neighbour with its score and
      whether it is accepted. */
  datatype Draw = NoNeighbors | Drawn(next: State, h: Option<nat>, accepted: bool)

  /** `random.choice(neighbors)` and the acceptance test of iteration k. A
      neighbour with finite score is accepted whenever it scores no higher
      than the current state, and otherwise when the draw says so; one with
      infinite score never is. */
  method Propose(goal: State, current: State, currentH: nat, k: nat, accept: nat -> bool)
    returns (d: Draw)
    ensures d.NoNeighbors? <==> forall t :: !Step(current, t)
    ensures d.Drawn? ==>
      Step(current, d.next) && d.h == Manhattan(d.next, goal) &&
      (d.accepted <==> d.h.Some? && (d.h.value <= currentH || accept(k)))
  {
    var ns := NeighborStates(current);
    if |ns| == 0 {
      return NoNeighbors;
    }
    assert ns[0] in ns;
    var i :| 0 <= i < |ns|;
    assert ns[i] in ns;
    var h := ManhattanDistance(ns[i], goal);
    if h.None? {
      return Drawn(ns[i], h, false);
    }
    var accepted := h.value <= currentH || accept(k);
    d := Drawn(ns[i], h, accepted);
  }

  /** The annealing loop's state: the path runs from start to the current
      state through states of finite score, and the best state is on it with
      a score no other state on it beats. */
  ghost predicate Annealed(start: State, goal: State, path: seq<State>, current: State, currentH: nat,
                           bestState: State, bestH: nat)
  {
    PathFromTo(path, start, current) &&
    (forall k :: 0 <= k < |path| ==> Manhattan(path[k], goal).Some?) &&
    Manhattan(current, goal) == Some(currentH) && Manhattan(bestState, goal) == Some(bestH) &&
    bestState in path && forall k :: 0 <= k < |path| ==> bestH <= Manhattan(path[k], goal).value
  }

  /** Moving to an accepted neighbour of finite score keeps the loop's state,
      with the neighbour as the new best when it scores strictly lower. */
  lemma Accept(start: State, goal: State, path: seq<State>, current: State, currentH: nat,
               bestState: State, bestH: nat, next: State, h: nat)
    requires Annealed(start, goal, path, current, currentH, bestState, bestH)
    requires Step(current, next) && Manhattan(next, goal) == Some(h)
    ensures h < bestH ==> Annealed(start, goal, path + [next], next, h, next, h)
    ensures h >= bestH ==> Annealed(start, goal, path + [next], next, h, bestState, bestH)
  {
    ExtendPath(path, start, current, next);
    var q := path + [next];
    assert forall k :: 0 <= k < |path| ==> q[k] == path[k];
    assert q[|path|] == next;
  }

  /** The annealing loop, from a start of finite score. The path runs from
      start to the current state through accepted neighbours, each of finite
      score, and holds at most one state per iteration besides start. The
      best state is on the path and scores no more than any state on it, so
      no more than the current state or start. `found` means the loop saw the
      goal as its current state. */
  method Anneal(start: State, goal: State, startH: nat, maxIterations: int, warm: nat -> bool,
                accept: nat -> bool)
    returns (found: bool, path: seq<State>, current: State, currentH: nat, bestState: State, bestH: nat)
    requires Manhattan(start, goal) == Some(startH)
    ensures PathFromTo(path, start, current) && |path| <= Cap(maxIterations)
    ensures forall k :: 0 <= k < |path| ==> Manhattan(path[k], goal).Some?
    ensures Manhattan(current, goal) == Some(currentH) && Manhattan(bestState, goal) == Some(bestH)
    ensures bestState in path && forall k :: 0 <= k < |path| ==> bestH <= Manhattan(path[k], goal).value
    ensures bestH <= currentH && bestH <= startH
    ensures found ==> current == goal
  {
    current, currentH := start, startH;
    bestState, bestH := start, startH;
    path := [start];
    found := false;
    var iterations := 0;
    var cooled: nat := 0;
    while warm(cooled) && iterations < maxIterations
      invariant Annealed(start, goal, path, current, currentH, bestState, bestH)
      invariant 0 <= iterations && |path| <= iterations + 1
      invariant iterations <= (if maxIterations < 0 then 0 else maxIterations)
      decreases maxIterations - iterations
    {
      iterations := iterations + 1;
      if current == goal {
        found := true;
        return;
      }
      var d := Propose(goal, current, currentH, iterations, accept);
      if d.NoNeighbors? {
        break;
      }
      if d.h.None? {
        continue;
      }
      if d.accepted {
        Accept(start, goal, path, current, currentH, bestState, bestH, d.next, d.h.value);
        current, currentH := d.next, d.h.value;
        path := path + [current];
        if currentH < bestH {
          bestState, bestH := current, currentH;
        }
      }
      cooled := cooled + 1;
    }
    assert path[0] == start && path[|path| - 1] == current;
  }

  /** `solve(start_state, goal_state, ..., max_iterations)`: None when start
      has infinite score, `[start]` when it scores zero; otherwise a result
      runs from start to goal through neighbours of finite score, with at
      most `max_iterations + 1` states. */
  method Solve(start: State, goal: State, maxIterations: int, warm: nat -> bool, accept: nat -> bool)
    returns (result: Option<seq<State>>)
    ensures Manhattan(start, goal).None? ==> result.None?
    ensures Manhattan(start, goal) == Some(0) ==> result == Some([start])
    ensures result.Some? && Manhattan(start, goal) != Some(0) ==>
      PathFromTo(result.value, start, goal) && |result.value| <= Cap(maxIterations) &&
      forall k :: 0 <= k < |result.value| ==> Manhattan(result.value[k], goal).Some?
  {
    var h := ManhattanDistance(start, goal);
    if h.None? {
      return None;
    }
    if h.value == 0 {
      return Some([start]);
    }
    var found, path, current, currentH, bestState, bestH := Anneal(start, goal, h.value, maxIterations, warm, accept);
    if found {
      return Some(path);
    }
    if bestState == goal && current == goal {
      return Some(path);
    }
    return None;
  }
}

=== FILE: astar.dfy ===
/** A* over single and double moves (`a_star_ANDOR.py`). The heap becomes a
    multiset of (f, g, state) entries and a pop takes any entry of least f,
    which includes the one `heappop` returns. */
module AStar {
  import opened Grid
  import opened Order
  import opened Moves
  import opened Heuristic
  import opened StateSpace
  import opened Paths

  /** A heap entry (f, g, state). */
  type Item = (nat, nat, State)

  /** Every queued state has a parent entry, and its priority is its g plus
      its Manhattan distance to goal. */
  ghost predicate Queued(goal: State, pq: multiset<Item>, parent: map<State, Option<State>>) {
    forall e :: e in pq ==> e.2 in parent && e.1 <= e.0 && Manhattan(e.2, goal) == Some(e.0 - e.1)
  }

  /** The bookkeeping of `solve` between iterations. */
  ghost predicate Books(start: State, goal: State, parent: map<State, Option<State>>, g: map<State, nat>,
                        closed: set<State>, pq: multiset<Item>, rank: map<State, nat>, clock: nat)
  {
    SearchTree(start, parent, closed, rank, clock) && Costed(start, parent, g) && Queued(goal, pq, parent)
  }

  lemma QueuedWiden(goal: State, pq: multiset<Item>, parent: map<State, Option<State>>,
                    parent': map<State, Option<State>>)
    requires Queued(goal, pq, parent) && parent.Keys <= parent'.Keys
    ensures Queued(goal, pq, parent')
  {
  }

  lemma QueuedPush(goal: State, pq: multiset<Item>, parent: map<State, Option<State>>, e: Item)
    requires Queued(goal, pq, parent)
    requires e.2 in parent && e.1 <= e.0 && Manhattan(e.2, goal) == Some(e.0 - e.1)
    ensures Queued(goal, pq + multiset{e}, parent)
  {
  }

  /** `h_value = manhattan_distance(next_state, goal_state)`; an infinite
      value skips the push, a finite one pushes (newG + h, newG, next). */
  method Push(goal: State, pq: multiset<Item>, parent: map<State, Option<State>>, next: State, newG: nat)
    returns (pq': multiset<Item>)
    requires Queued(goal, pq, parent) && next in parent
    ensures Queued(goal, pq', parent)
    ensures Manhattan(next, goal).None? ==> pq' == pq
    ensures Manhattan(next, goal).Some? ==>
      pq' == pq + multiset{(newG + Manhattan(next, goal).value, newG, next)}
  {
    pq' := pq;
    var h := ManhattanDistance(next, goal);
    if h.Some? {
      QueuedPush(goal, pq, parent, (newG + h.value, newG, next));
      pq' := pq + multiset{(newG + h.value, newG, next)};
    }
  }

  /** What the push adds for a state reached at cost newG: the entry
      (newG + h, newG, next) when its heuristic h is finite, nothing
      otherwise. */
  ghost function Offer(goal: State, next: State, newG: nat): multiset<Item> {
    match Manhattan(next, goal)
    case None => multiset{}
    case Some(h) => multiset{(newG + h, newG, next)}
  }

  /** `g_costs[next] = new_g; parent[next] = current`, then the push. */
  method Record(start: State, goal: State, current: State, next: State, newG: nat,
                parent: map<State, Option<State>>, g: map<State, nat>, closed: set<State>,
                pq: multiset<Item>, ghost rank: map<State, nat>, ghost clock: nat)
    returns (pq': multiset<Item>)
    requires Books(start, goal, parent, g, closed, pq, rank, clock)
    requires current in closed && Step(current, next) && next !in closed && next != start
    ensures Books(start, goal, parent[next := Some(current)], g[next := newG], closed, pq',
                  rank[next := clock], clock + 1)
    ensures pq' == pq + Offer(goal, next, newG)
  {
    Graft(start, parent, closed, rank, clock, current, next);
    QueuedWiden(goal, pq, parent, parent[next := Some(current)]);
    pq' := Push(goal, pq, parent[next := Some(current)], next, newG);
  }

  /** One pass of the neighbour loop, for a neighbour next reached at cost
      newG = gCurrent + moveCost: a closed neighbour is skipped; otherwise a
      cost below the recorded one (or a first cost) rewrites its cost and
      parent and offers it to the heap. */
  method RelaxOne(start: State, goal: State, current: State, next: State, newG: nat,
                  parent: map<State, Option<State>>, g: map<State, nat>, closed: set<State>,
                  pq: multiset<Item>, ghost rank: map<State, nat>, ghost clock: nat)
    returns (parent': map<State, Option<State>>, g': map<State, nat>, pq': multiset<Item>,
             ghost rank': map<State, nat>, ghost clock': nat)
    requires Books(start, goal, parent, g, closed, pq, rank, clock)
    requires current in closed && Step(current, next)
    ensures Books(start, goal, parent', g', closed, pq', rank', clock') && pq <= pq'
    ensures Lowered(g, parent, g', parent', closed, current)
    ensures next !in closed && (next !in g || newG < g[next]) ==>
      g' == g[next := newG] && parent' == parent[next := Some(current)] && pq' == pq + Offer(goal, next, newG)
    ensures next in closed || (next in g && g[next] <= newG) ==> g' == g && parent' == parent && pq' == pq
  {
    if next !in closed && (next !in g || newG < g[next]) {
      LoweredByRecord(g, parent, closed, current, next, newG);
      pq' := Record(start, goal, current, next, newG, parent, g, closed, pq, rank, clock);
      g', parent' := g[next := newG], parent[next := Some(current)];
      rank', clock' := rank[next := clock], clock + 1;
    } else {
      parent', g', pq', rank', clock' := parent, g, pq, rank, clock;
      LoweredRefl(g, parent, closed, current);
    }
  }

  /** The neighbour loop of `solve`: a closed neighbour is skipped; a cheaper
      route to any other rewrites its cost and parent together and, when its
      heuristic is finite, pushes it. Nothing leaves the heap. */
  method Relax(start: State, goal: State, current: State, gCurrent: nat, ns: seq<(State, nat)>,
               parent: map<State, Option<State>>, g: map<State, nat>, closed: set<State>,
               pq: multiset<Item>, ghost rank: map<State, nat>, ghost clock: nat)
    returns (parent': map<State, Option<State>>, g': map<State, nat>, pq': multiset<Item>,
             ghost rank': map<State, nat>, ghost clock': nat)
    requires Books(start, goal, parent, g, closed, pq, rank, clock) && current in closed
    requires forall p :: p in ns ==> 1 <= p.1 && Step(current, p.0)
    ensures Books(start, goal, parent', g', closed, pq', rank', clock') && pq <= pq'
    ensures Lowered(g, parent, g', parent', closed, current)
    ensures Relaxed(goal, gCurrent, ns, closed, g, g', pq')
  {
    parent', g', pq', rank', clock' := parent, g, pq, rank, clock;
    LoweredRefl(g, parent, closed, current);
    for i := 0 to |ns|
      invariant Books(start, goal, parent', g', closed, pq', rank', clock') && pq <= pq'
      invariant Lowered(g, parent, g', parent', closed, current)
      invariant Relaxed(goal, gCurrent, ns[..i], closed, g, g', pq')
    {
      assert ns[i] in ns;
      ghost var g0, p0, pq0 := g', parent', pq';
      var newG := gCurrent + ns[i].1;
      parent', g', pq', rank', clock' :=
        RelaxOne(start, goal, current, ns[i].0, newG, parent', g', closed, pq', rank', clock');
      LoweredTrans(g, parent, g0, p0, g', parent', closed, current);
      RelaxedNext(goal, gCurrent, ns, i, closed, g, g0, pq0, newG, g', pq');
    }
    assert ns[..|ns|] == ns;
  }

  /** After relaxing the pairs `done` from a state of cost gCurrent: every
      open neighbour among them costs at most the route through that state,
      and every state whose cost dropped below its old one (or got a first
      cost) was reached by one of those pairs at exactly that cost and is
      queued with it when its heuristic is finite. */
  ghost predicate Relaxed(goal: State, gCurrent: nat, done: seq<(State, nat)>, closed: set<State>,
                          g: map<State, nat>, g': map<State, nat>, pq': multiset<Item>)
  {
    (forall p :: p in done && p.0 !in closed ==> p.0 in g' && g'[p.0] <= gCurrent + p.1) &&
    (forall t :: t in g' && (t !in g || g'[t] < g[t]) ==>
       (exists p :: p in done && p.0 == t && g'[t] == gCurrent + p.1) && Offer(goal, t, g'[t]) <= pq')
  }

  /** Relaxing one more pair keeps `Relaxed`. */
  lemma RelaxedStep(goal: State, gCurrent: nat, done: seq<(State, nat)>, closed: set<State>,
                    g: map<State, nat>, g0: map<State, nat>, pq0: multiset<Item>, p: (State, nat),
                    newG: nat, g1: map<State, nat>, pq1: multiset<Item>)
    requires Relaxed(goal, gCurrent, done, closed, g, g0, pq0) && newG == gCurrent + p.1
    requires p.0 !in closed && (p.0 !in g0 || newG < g0[p.0]) ==>
      g1 == g0[p.0 := newG] && pq1 == pq0 + Offer(goal, p.0, newG)
    requires p.0 in closed || (p.0 in g0 && g0[p.0] <= newG) ==> g1 == g0 && pq1 == pq0
    ensures Relaxed(goal, gCurrent, done + [p], closed, g, g1, pq1)
  {
    forall q | q in done + [p] && q.0 !in closed ensures q.0 in g1 && g1[q.0] <= gCurrent + q.1 {
      if q != p {
        assert q in done;
      }
    }
    forall t | t in g1 && (t !in g || g1[t] < g[t])
      ensures (exists q :: q in done + [p] && q.0 == t && g1[t] == gCurrent + q.1) && Offer(goal, t, g1[t]) <= pq1
    {
      if p.0 !in closed && (p.0 !in g0 || newG < g0[p.0]) && t == p.0 {
        assert p in done + [p];
      } else {
        var q :| q in done && q.0 == t && g0[t] == gCurrent + q.1;
        assert q in done + [p];
      }
    }
  }

  /** `RelaxedStep` for the pass over ns[i]. */
  lemma RelaxedNext(goal: State, gCurrent: nat, ns: seq<(State, nat)>, i: nat, closed: set<State>,
                    g: map<State, nat>, g0: map<State, nat>, pq0: multiset<Item>,
                    newG: nat, g1: map<State, nat>, pq1: multiset<Item>)
    requires i < |ns| && Relaxed(goal, gCurrent, ns[..i], closed, g, g0, pq0) && newG == gCurrent + ns[i].1
    requires ns[i].0 !in closed && (ns[i].0 !in g0 || newG < g0[ns[i].0]) ==>
      g1 == g0[ns[i].0 := newG] && pq1 == pq0 + Offer(goal, ns[i].0, newG)
    requires ns[i].0 in closed || (ns[i].0 in g0 && g0[ns[i].0] <= newG) ==> g1 == g0 && pq1 == pq0
    ensures Relaxed(goal, gCurrent, ns[..i + 1], closed, g, g1, pq1)
  {
    assert ns[..i + 1] == ns[..i] + [ns[i]];
    RelaxedStep(goal, gCurrent, ns[..i], closed, g, g0, pq0, ns[i], newG, g1, pq1);
  }


  /** One iteration of the main loop: pop an entry of least f; skip it if
      its state is closed; otherwise close it and, unless it is the goal,
      relax its neighbours. Each iteration either closes a new state or
      shrinks the heap. */
  method Iterate(start: State, goal: State, parent: map<State, Option<State>>, g: map<State, nat>,
                 closed: set<State>, pq: multiset<Item>, ghost rank: map<State, nat>, ghost clock: nat)
    returns (found: bool, entry: Item, parent': map<State, Option<State>>, g': map<State, nat>,
             closed': set<State>, pq': multiset<Item>, ghost rank': map<State, nat>, ghost clock': nat)
    requires Books(start, goal, parent, g, closed, pq, rank, clock) && |pq| > 0
    requires closed <= Universe(start)
    ensures Books(start, goal, parent', g', closed', pq', rank', clock')
    ensures entry in pq && forall x :: x in pq ==> entry.0 <= x.0
    ensures entry.2 in closed ==>
      !found && closed' == closed && parent' == parent && g' == g && pq' == pq - multiset{entry}
    ensures entry.2 !in closed ==> Popped(goal, entry, parent, g, closed, pq, found, parent', g', closed', pq')
    ensures found ==> goal in parent'
    ensures found <==> goal in closed' - closed
    ensures closed' <= Universe(start)
    ensures |Universe(start) - closed'| < |Universe(start) - closed| ||
            (closed' == closed && |pq'| < |pq|)
  {
    ghost var least := MinBy(pq, (x: Item) => x.0);
    entry :| entry in pq && forall x :: x in pq ==> entry.0 <= x.0;
    found, parent', g', closed', pq', rank', clock' :=
      false, parent, g, closed, pq - multiset{entry}, rank, clock;
    if entry.2 in closed {
      return;
    }
    found, parent', g', closed', pq', rank', clock' := Settle(start, goal, parent, g, closed, pq, rank, clock, entry);
  }

  /** The effect of popping an entry whose state was not closed: the state is
      closed; when it is the goal the search stops with nothing else changed;
      otherwise its neighbours are relaxed from the entry's g, and nothing
      leaves the heap but the popped entry. */
  ghost predicate Popped(goal: State, entry: Item, parent: map<State, Option<State>>, g: map<State, nat>,
                         closed: set<State>, pq: multiset<Item>, found: bool,
                         parent': map<State, Option<State>>, g': map<State, nat>, closed': set<State>,
                         pq': multiset<Item>)
  {
    g.Keys == parent.Keys && g'.Keys == parent'.Keys &&
    closed' == closed + {entry.2} && (found <==> entry.2 == goal) &&
    (found ==> parent' == parent && g' == g && pq' == pq - multiset{entry}) &&
    (!found ==>
       pq - multiset{entry} <= pq' && Lowered(g, parent, g', parent', closed', entry.2) &&
       Relaxed(goal, entry.1, NeighborsWithCosts(entry.2), closed', g, g', pq'))
  }

  /** The rest of an iteration once the popped state is not closed. */
  method Settle(start: State, goal: State, parent: map<State, Option<State>>, g: map<State, nat>,
                closed: set<State>, pq: multiset<Item>, ghost rank: map<State, nat>, ghost clock: nat,
                entry: Item)
    returns (found: bool, parent': map<State, Option<State>>, g': map<State, nat>,
             closed': set<State>, pq': multiset<Item>, ghost rank': map<State, nat>, ghost clock': nat)
    requires Books(start, goal, parent, g, closed, pq, rank, clock) && entry in pq && entry.2 !in closed
    requires closed <= Universe(start)
    ensures Books(start, goal, parent', g', closed', pq', rank', clock')
    ensures Popped(goal, entry, parent, g, closed, pq, found, parent', g', closed', pq')
    ensures found ==> goal in parent'
    ensures found <==> goal in closed' - closed
    ensures closed' <= Universe(start) && |Universe(start) - closed'| < |Universe(start) - closed|
  {
    var gCurrent, current := entry.1, entry.2;
    PermutationInUniverse(start, current);
    Fewer(Universe(start), closed, closed + {current});
    Close(start, parent, closed, rank, clock, current);
    found, parent', g', closed', pq', rank', clock' :=
      false, parent, g, closed + {current}, pq - multiset{entry}, rank, clock;
    if current == goal {
      found := true;
      return;
    }
    var ns := NeighborsWithCosts(current);
    AllNeighborsSound(current);
    parent', g', pq', rank', clock' := Relax(start, goal, current, gCurrent, ns, parent, g, closed', pq', rank, clock);
  }

  /** `solve(start_state, goal_state)`: None for boards that are not square or
      differ in length, or a start without finite heuristic; otherwise a found
      path runs from start to goal through successive neighbours. The goal is
      tested when popped. */
  method Solve(start: State, goal: State) returns (result: Option<seq<State>>)
    ensures !SquareLen(|start|) || |goal| != |start| || Manhattan(start, goal).None? ==> result.None?
    ensures result.Some? ==> PathFromTo(result.value, start, goal) && NoRepeats(result.value)
  {
    var n := |start|;
    var size := ISqrt(n);
    if size * size != n || |goal| != n {
      return None;
    }
    var initialH := ManhattanDistance(start, goal);
    if initialH.None? {
      return None;
    }
    var pq: multiset<Item> := multiset{(initialH.value, 0, start)};
    var parent: map<State, Option<State>> := map[start := None];
    var g: map<State, nat> := map[start := 0];
    var closed: set<State> := {};
    ghost var rank: map<State, nat> := map[start := 0];
    ghost var clock: nat := 1;
    while |pq| > 0
      invariant Books(start, goal, parent, g, closed, pq, rank, clock)
      invariant closed <= Universe(start)
      decreases |Universe(start) - closed|, |pq|
    {
      var found, entry;
      found, entry, parent, g, closed, pq, rank, clock := Iterate(start, goal, parent, g, closed, pq, rank, clock);
      if found {
        var path := TracePath(start, goal, parent, closed, rank, clock);
        return Some(path);
      }
    }
    return None;
  }
}

=== FILE: beam.dfy ===
/** Beam search on the 3x3 board with single slides only (`beam_search.py`).
    Each level expands every entry of the beam and keeps the `beam_width`
    smallest (h, state, path) tuples among the newly generated neighbours. A
    state is marked visited when generated; there is no depth limit, and the
    search ends when a level generates nothing new. */
module Beam {
  import opened Grid
  import opened Order
  import opened Moves
  import opened Heuristic
  import opened StateSpace
  import opened Paths

  /** The default `beam_width`. */
  const DefaultWidth: int := 5

  /** Boards the 3x3 search handles: nine cells holding the blank 9, and
      every other tile present in goal (otherwise `index` raises). */
  predicate Board3(s: State, goal: State) {
    |s| == 9 && 9 in s && Heuristic3Defined(s, goal)
  }

  /** Every rearrangement of a handled board is handled. */
  lemma Board3Permutation(start: State, goal: State, t: State)
    requires Board3(start, goal) && multiset(t) == multiset(start)
    ensures Board3(t, goal)
  {
    assert |t| == |multiset(t)| == |multiset(start)| == 9;
    assert 9 in multiset(start);
    forall j | 0 <= j < 9 && t[j] != 9 ensures t[j] in goal {
      assert t[j] in multiset(start);
      var k :| 0 <= k < 9 && start[k] == t[j];
    }
  }

  /** Successive states differ by one slide. */
  ghost predicate Slid(p: seq<State>) {
    forall i :: 0 <= i < |p| - 1 ==> SingleMove(p[i], p[i + 1])
  }

  /** A beam entry (h, state, path): the path runs by single slides from start
      to the state without repeats through visited states, and h is the
      state's heuristic. */
  ghost predicate Sound(start: State, goal: State, e: Entry, visited: set<State>) {
    |e.2| > 0 && e.2[0] == start && e.2[|e.2| - 1] == e.1 && Slid(e.2) && NoRepeats(e.2) &&
    (forall k :: 0 <= k < |e.2| ==> e.2[k] in visited) &&
    Board3(e.1, goal) && e.0 == Heuristic3From(e.1, goal, 0)
  }

  ghost predicate AllSound(start: State, goal: State, es: seq<Entry>, visited: set<State>) {
    forall e :: e in es ==> Sound(start, goal, e, visited)
  }

  /** Every visited state is a rearrangement of start. */
  ghost predicate Rearranged(start: State, visited: set<State>) {
    forall s :: s in visited ==> multiset(s) == multiset(start)
  }

  lemma AllSoundWiden(start: State, goal: State, es: seq<Entry>, visited: set<State>, visited': set<State>)
    requires AllSound(start, goal, es, visited) && visited <= visited'
    ensures AllSound(start, goal, es, visited')
  {
  }

  lemma Extend(start: State, goal: State, e: Entry, visited: set<State>, next: State, h: nat)
    requires Sound(start, goal, e, visited) && SingleMove(e.1, next) && next !in visited
    requires Board3(next, goal) && h == Heuristic3From(next, goal, 0)
    ensures Sound(start, goal, (h, next, e.2 + [next]), visited + {next})
  {
    var p := e.2 + [next];
    assert p[|p| - 2] == e.1;
    forall i | 0 <= i < |p| - 1 ensures SingleMove(p[i], p[i + 1]) {
      if i < |p| - 2 {
        assert p[i] == e.2[i] && p[i + 1] == e.2[i + 1];
      }
    }
  }

  /** A neighbour of a handled board is a handled rearrangement of start. */
  lemma NeighborHandled(start: State, goal: State, s: State, t: State)
    requires Board3(start, goal) && multiset(s) == multiset(start) && SingleMove(s, t)
    ensures multiset(t) == multiset(start) && Board3(t, goal)
  {
    StepPermutes(s, t);
    Board3Permutation(start, goal, t);
  }

  /** The neighbour loop for one beam entry: every unvisited neighbour is
      marked visited and appended as a candidate with its heuristic; earlier
      candidates stay in front. */
  method ExpandEntry(start: State, goal: State, e: Entry, ns: seq<State>, visited: set<State>,
                     candidates: seq<Entry>)
    returns (visited': set<State>, candidates': seq<Entry>)
    requires Board3(start, goal) && Sound(start, goal, e, visited) && multiset(e.1) == multiset(start)
    requires forall t :: t in ns ==> SingleMove(e.1, t)
    requires AllSound(start, goal, candidates, visited) && Rearranged(start, visited)
    ensures AllSound(start, goal, candidates', visited') && Rearranged(start, visited')
    ensures visited' == visited + Elems(ns)
    ensures |candidates| <= |candidates'| && candidates'[..|candidates|] == candidates
    ensures EntryStates(candidates') == EntryStates(candidates) + (visited' - visited)
    ensures forall c :: c in candidates' ==> c in candidates || (c.1 in visited' && c.1 !in visited)
  {
    visited', candidates' := visited, candidates;
    for i := 0 to |ns|
      invariant AllSound(start, goal, candidates', visited') && Rearranged(start, visited')
      invariant Sound(start, goal, e, visited') && visited <= visited'
      invariant Marked(ns, i, visited, visited')
      invariant |candidates| <= |candidates'| && candidates'[..|candidates|] == candidates
      invariant EntryStates(candidates') == EntryStates(candidates) + (visited' - visited)
      invariant forall c :: c in candidates' ==> c in candidates || (c.1 in visited' && c.1 !in visited)
    {
      MarkedStep(ns, i, visited, visited');
      visited', candidates' := Visit(start, goal, e, ns[i], visited, candidates, visited', candidates');
    }
    MarkedAll(ns, visited, visited');
  }

  /** One neighbour of the loop: when unvisited, it is marked visited and
      appended as a candidate with its heuristic. */
  method Visit(start: State, goal: State, e: Entry, next: State, ghost visited: set<State>,
               ghost candidates: seq<Entry>, visited': set<State>, candidates': seq<Entry>)
    returns (visited'': set<State>, candidates'': seq<Entry>)
    requires Board3(start, goal) && multiset(e.1) == multiset(start) && SingleMove(e.1, next)
    requires AllSound(start, goal, candidates', visited') && Rearranged(start, visited')
    requires Sound(start, goal, e, visited') && visited <= visited'
    requires |candidates| <= |candidates'| && candidates'[..|candidates|] == candidates
    requires EntryStates(candidates') == EntryStates(candidates) + (visited' - visited)
    requires forall c :: c in candidates' ==> c in candidates || (c.1 in visited' && c.1 !in visited)
    ensures AllSound(start, goal, candidates'', visited'') && Rearranged(start, visited'')
    ensures Sound(start, goal, e, visited'') && visited'' == visited' + {next}
    ensures |candidates| <= |candidates''| && candidates''[..|candidates|] == candidates
    ensures EntryStates(candidates'') == EntryStates(candidates) + (visited'' - visited)
    ensures forall c :: c in candidates'' ==> c in candidates || (c.1 in visited'' && c.1 !in visited)
  {
    visited'', candidates'' := visited', candidates';
    if next !in visited' {
      NeighborHandled(start, goal, e.1, next);
      var h := Heuristic3(next, goal);
      AddKeeps(start, goal, e, visited, candidates, visited', candidates', next, h);
      EntryStatesSnoc(candidates', (h, next, e.2 + [next]));
      assert (candidates' + [(h, next, e.2 + [next])])[..|candidates|] == candidates'[..|candidates|];
      candidates'' := candidates' + [(h, next, e.2 + [next])];
      visited'' := visited' + {next};
    }
  }

  /** Marking an unvisited neighbour visited and adding it as a candidate
      keeps the neighbour loop's invariant. */
  lemma AddKeeps(start: State, goal: State, e: Entry, visited0: set<State>, candidates0: seq<Entry>,
                 visited: set<State>, candidates: seq<Entry>, next: State, h: nat)
    requires Board3(start, goal) && SingleMove(e.1, next) && next !in visited
    requires multiset(next) == multiset(start) && Board3(next, goal) && h == Heuristic3From(next, goal, 0)
    requires AllSound(start, goal, candidates, visited) && Rearranged(start, visited)
    requires Sound(start, goal, e, visited) && visited0 <= visited
    requires forall c :: c in candidates ==> c in candidates0 || (c.1 in visited && c.1 !in visited0)
    ensures AllSound(start, goal, candidates + [(h, next, e.2 + [next])], visited + {next})
    ensures Rearranged(start, visited + {next})
    ensures Sound(start, goal, e, visited + {next}) && visited0 <= visited + {next}
    ensures forall c :: c in candidates + [(h, next, e.2 + [next])] ==>
      c in candidates0 || (c.1 in visited + {next} && c.1 !in visited0)
  {
    AddSound(start, goal, e, visited, candidates, next, h);
    AddOrigin(visited0, candidates0, visited, candidates, (h, next, e.2 + [next]));
  }

  /** The new candidate is sound, and so are the earlier ones once the
      neighbour is visited. */
  lemma AddSound(start: State, goal: State, e: Entry, visited: set<State>, candidates: seq<Entry>,
                 next: State, h: nat)
    requires SingleMove(e.1, next) && next !in visited && Board3(next, goal) && h == Heuristic3From(next, goal, 0)
    requires AllSound(start, goal, candidates, visited) && Sound(start, goal, e, visited)
    ensures AllSound(start, goal, candidates + [(h, next, e.2 + [next])], visited + {next})
  {
    Extend(start, goal, e, visited, next, h);
    AllSoundWiden(start, goal, candidates, visited, visited + {next});
  }

  /** A candidate for a state visited now is new to the loop. */
  lemma AddOrigin(visited0: set<State>, candidates0: seq<Entry>, visited: set<State>, candidates: seq<Entry>,
                  c: Entry)
    requires visited0 <= visited && c.1 !in visited
    requires forall x :: x in candidates ==> x in candidates0 || (x.1 in visited && x.1 !in visited0)
    ensures forall x :: x in candidates + [c] ==> x in candidates0 || (x.1 in visited + {c.1} && x.1 !in visited0)
  {
  }

  /** `get_neighbors(state)`, then the neighbour loop. */
  method Expand(start: State, goal: State, e: Entry, visited: set<State>, candidates: seq<Entry>)
    returns (visited': set<State>, candidates': seq<Entry>)
    requires Board3(start, goal) && Sound(start, goal, e, visited) && Rearranged(start, visited)
    requires AllSound(start, goal, candidates, visited)
    ensures AllSound(start, goal, candidates', visited') && Rearranged(start, visited')
    ensures visited <= visited'
    ensures forall t :: SingleMove(e.1, t) ==> t in visited'
    ensures forall t :: t in visited' && t !in visited ==> SingleMove(e.1, t)
    ensures |candidates| <= |candidates'| && candidates'[..|candidates|] == candidates
    ensures EntryStates(candidates') == EntryStates(candidates) + (visited' - visited)
    ensures forall c :: c in candidates' ==> c in candidates || (c.1 in visited' && c.1 !in visited)
  {
    var ns := Neighbors3(e.1);
    forall t ensures t in ns <==> SingleMove(e.1, t) {
      Neighbors3AreSingles(e.1, t);
    }
    assert e.2[|e.2| - 1] in visited;
    visited', candidates' := ExpandEntry(start, goal, e, ns, visited, candidates);
  }

  /** One level: the entries are taken in beam order; the first whose state
      is the goal ends the search with its path, and every entry before it is
      expanded. The candidates carry exactly the states first visited on this
      level, which are exactly the unvisited slides of the beam's states. */
  method Advance(start: State, goal: State, beam: seq<Entry>, visited: set<State>)
    returns (found: Option<seq<State>>, candidates: seq<Entry>, visited': set<State>)
    requires Board3(start, goal) && AllSound(start, goal, beam, visited) && Rearranged(start, visited)
    ensures found.Some? ==>
      |found.value| > 0 && found.value[0] == start && found.value[|found.value| - 1] == goal &&
      Slid(found.value) && NoRepeats(found.value)
    ensures found.None? ==> forall e :: e in beam ==> e.1 != goal
    ensures found.None? ==>
      AllSound(start, goal, candidates, visited') && Rearranged(start, visited') && visited <= visited'
    ensures found.None? ==> forall c :: c in candidates ==> c.1 in visited' && c.1 !in visited
    ensures found.None? ==> EntryStates(candidates) == visited' - visited
    ensures found.None? ==> forall e, t :: e in beam && SingleMove(e.1, t) ==> t in visited'
    ensures found.None? ==>
      forall t :: t in visited' && t !in visited ==> exists e :: e in beam && SingleMove(e.1, t)
  {
    candidates, visited' := [], visited;
    for i := 0 to |beam|
      invariant Covered(start, goal, beam, i, visited, candidates, visited')
    {
      found, candidates, visited' := Take(start, goal, beam, i, visited, candidates, visited');
      if found.Some? {
        return;
      }
    }
    found := None;
    CoverAll(beam, visited, visited');
    New(candidates, visited, visited');
  }

  /** The books of a level after its first `i` entries were expanded: the
      candidates are sound and carry exactly the newly visited states, which
      are exactly the unvisited slides of those entries, none of them the
      goal. */
  ghost predicate Covered(start: State, goal: State, beam: seq<Entry>, i: nat, visited: set<State>,
                          candidates: seq<Entry>, visited': set<State>)
  {
    Board3(start, goal) && AllSound(start, goal, beam, visited) && i <= |beam| &&
    AllSound(start, goal, candidates, visited') && Rearranged(start, visited') && visited <= visited' &&
    (forall j :: 0 <= j < i ==> beam[j].1 != goal) &&
    EntryStates(candidates) == visited' - visited &&
    (forall j, t :: 0 <= j < i && SingleMove(beam[j].1, t) ==> t in visited') &&
    (forall t :: t in visited' && t !in visited ==> exists j :: 0 <= j < i && SingleMove(beam[j].1, t))
  }

  /** Entry `i` of a level: its path is the answer when its state is the
      goal; otherwise its neighbours are expanded. */
  method Take(start: State, goal: State, beam: seq<Entry>, i: nat, ghost visited: set<State>,
              candidates: seq<Entry>, visited': set<State>)
    returns (found: Option<seq<State>>, candidates': seq<Entry>, visited'': set<State>)
    requires i < |beam| && Covered(start, goal, beam, i, visited, candidates, visited')
    ensures found.Some? ==> found.value == beam[i].2 && beam[i].1 == goal
    ensures found.Some? ==>
      |found.value| > 0 && found.value[0] == start && found.value[|found.value| - 1] == goal &&
      Slid(found.value) && NoRepeats(found.value)
    ensures found.None? ==> Covered(start, goal, beam, i + 1, visited, candidates', visited'')
  {
    var e := beam[i];
    assert Sound(start, goal, e, visited') by {
      assert e in beam;
      AllSoundWiden(start, goal, beam, visited, visited');
    }
    if e.1 == goal {
      return Some(e.2), candidates, visited';
    }
    visited'', candidates' := Expand(start, goal, e, visited', candidates);
    CoverNext(start, goal, beam, i, visited, candidates, visited', candidates', visited'');
    found := None;
  }

  /** Expanding entry `i`, which is not the goal, extends the level's books
      to the first `i + 1` entries. */
  lemma CoverNext(start: State, goal: State, beam: seq<Entry>, i: nat, visited: set<State>,
                  candidates: seq<Entry>, visited': set<State>, candidates': seq<Entry>, visited'': set<State>)
    requires i < |beam| && Covered(start, goal, beam, i, visited, candidates, visited') && beam[i].1 != goal
    requires AllSound(start, goal, candidates', visited'') && Rearranged(start, visited'') && visited' <= visited''
    requires forall t :: SingleMove(beam[i].1, t) ==> t in visited''
    requires forall t :: t in visited'' && t !in visited' ==> SingleMove(beam[i].1, t)
    requires EntryStates(candidates') == EntryStates(candidates) + (visited'' - visited')
    ensures Covered(start, goal, beam, i + 1, visited, candidates', visited'')
  {
    CoverStep(beam, i, visited, visited', visited'');
  }

  /** Every candidate's state is newly visited. */
  lemma New(candidates: seq<Entry>, visited: set<State>, visited': set<State>)
    requires EntryStates(candidates) == visited' - visited
    ensures forall c :: c in candidates ==> c.1 in visited' && c.1 !in visited
  {
    forall c | c in candidates ensures c.1 in visited' - visited {
      assert c.1 in EntryStates(candidates);
    }
  }

  /** After entry `passed` is expanded, the states newly visited on the level
      are exactly the unvisited slides of the entries up to it. */
  lemma CoverStep(beam: seq<Entry>, passed: nat, visited: set<State>, before: set<State>, visited': set<State>)
    requires passed < |beam| && visited <= before <= visited'
    requires forall j, t :: 0 <= j < passed && SingleMove(beam[j].1, t) ==> t in before
    requires forall t :: t in before && t !in visited ==> exists j :: 0 <= j < passed && SingleMove(beam[j].1, t)
    requires forall t :: SingleMove(beam[passed].1, t) ==> t in visited'
    requires forall t :: t in visited' && t !in before ==> SingleMove(beam[passed].1, t)
    ensures forall j, t :: 0 <= j < passed + 1 && SingleMove(beam[j].1, t) ==> t in visited'
    ensures forall t :: t in visited' && t !in visited ==> exists j :: 0 <= j < passed + 1 && SingleMove(beam[j].1, t)
  {
    forall j, t | 0 <= j <= passed && SingleMove(beam[j].1, t) ensures t in visited' {
      if j < passed {
        assert t in before;
      }
    }
    forall t | t in visited' && t !in visited
      ensures exists j :: 0 <= j <= passed && SingleMove(beam[j].1, t)
    {
      if t in before {
        var j :| 0 <= j < passed && SingleMove(beam[j].1, t);
      } else {
        assert SingleMove(beam[passed].1, t);
      }
    }
  }

  /** The level's coverage restated over the beam's entries. */
  lemma CoverAll(beam: seq<Entry>, visited: set<State>, visited': set<State>)
    requires forall j, t :: 0 <= j < |beam| && SingleMove(beam[j].1, t) ==> t in visited'
    requires forall t :: t in visited' && t !in visited ==> exists j :: 0 <= j < |beam| && SingleMove(beam[j].1, t)
    ensures forall e, t :: e in beam && SingleMove(e.1, t) ==> t in visited'
    ensures forall t :: t in visited' && t !in visited ==> exists e :: e in beam && SingleMove(e.1, t)
  {
    forall e, t | e in beam && SingleMove(e.1, t) ensures t in visited' {
      var j :| 0 <= j < |beam| && beam[j] == e;
    }
    forall t | t in visited' && t !in visited ensures exists e :: e in beam && SingleMove(e.1, t) {
      var j :| 0 <= j < |beam| && SingleMove(beam[j].1, t);
      assert beam[j] in beam;
    }
  }

  /** One iteration of the main loop: the next beam is the `beam_width`
      smallest of the level's candidates. Each iteration either ends the
      search, visits new states, or leaves an empty beam. */
  method Iterate(start: State, goal: State, width: int, beam: seq<Entry>, visited: set<State>)
    returns (found: Option<seq<State>>, candidates: seq<Entry>, beam': seq<Entry>, visited': set<State>)
    requires Board3(start, goal) && AllSound(start, goal, beam, visited) && Rearranged(start, visited)
    requires visited <= Universe(start)
    ensures found.Some? ==>
      |found.value| > 0 && found.value[0] == start && found.value[|found.value| - 1] == goal &&
      Slid(found.value) && NoRepeats(found.value)
    ensures found.None? ==>
      AllSound(start, goal, beam', visited') && Rearranged(start, visited') && visited' <= Universe(start)
    ensures found.None? ==>
      |Universe(start) - visited'| < |Universe(start) - visited| ||
      (|Universe(start) - visited'| <= |Universe(start) - visited| && beam' == [])
    ensures found.None? ==>
      beam' == NSmallest(width, candidates) && |beam'| <= (if width < 0 then 0 else width) &&
      forall c :: c in candidates ==> c.1 in visited' && c.1 !in visited
    ensures found.None? ==> EntryStates(candidates) == visited' - visited
    ensures found.None? ==> forall e, t :: e in beam && SingleMove(e.1, t) ==> t in visited'
    ensures found.None? ==>
      forall t :: t in visited' && t !in visited ==> exists e :: e in beam && SingleMove(e.1, t)
  {
    found, candidates, visited' := Advance(start, goal, beam, visited);
    if found.Some? {
      beam' := [];
      return;
    }
    beam' := NSmallest(width, candidates);
    Shrinks(start, visited, visited', candidates);
  }

  /** The visited set stays among the rearrangements of start and does not
      shrink; it grows whenever there are candidates. */
  lemma Shrinks(start: State, visited: set<State>, visited': set<State>, candidates: seq<Entry>)
    requires Rearranged(start, visited') && visited <= visited'
    requires forall c :: c in candidates ==> c.1 in visited' && c.1 !in visited
    ensures visited' <= Universe(start)
    ensures |Universe(start) - visited'| <= |Universe(start) - visited|
    ensures candidates != [] ==> |Universe(start) - visited'| < |Universe(start) - visited|
  {
    NoMore(Universe(start), visited, visited');
    forall s | s in visited' ensures s in Universe(start) {
      PermutationInUniverse(start, s);
    }
    if candidates != [] {
      assert candidates[0].1 in visited' - visited;
      Fewer(Universe(start), visited, visited');
    }
  }

  /** `solve(start, goal, beam_width)`: a found path runs from start to goal by
      single slides without repeats. */
  method Solve(start: State, goal: State, width: int) returns (result: Option<seq<State>>)
    requires Board3(start, goal)
    ensures result.Some? ==>
      |result.value| > 0 && result.value[0] == start && result.value[|result.value| - 1] == goal &&
      Slid(result.value) && NoRepeats(result.value)
  {
    var h := Heuristic3(start, goal);
    var beam: seq<Entry> := [(h, start, [start])];
    var visited: set<State> := {start};
    PermutationInUniverse(start, start);
    while |beam| > 0
      invariant AllSound(start, goal, beam, visited) && Rearranged(start, visited)
      invariant visited <= Universe(start)
      invariant |beam| <= if width < 1 then 1 else width
      decreases |Universe(start) - visited|, |beam|
    {
      var found, candidates;
      found, candidates, beam, visited := Iterate(start, goal, width, beam, visited);
      if found.Some? {
        return found;
      }
    }
    return None;
  }
}

=== FILE: beam_andor.dfy ===
/** Beam search over single and double moves (`beam_search_ANDOR.py`). Each
    level expands every entry of the beam, collects the unvisited neighbours
    with finite heuristic as candidates, and keeps the `beam_width` smallest
    (h, state, path) tuples. A state is marked visited when generated, and the
    search gives up after 100 levels. */
module BeamAndOr {
  import opened Grid
  import opened Order
  import opened Moves
  import opened Heuristic
  import opened Paths

  /** `max_depth`: the number of levels expanded at most. */
  const MaxDepth: nat := 100

  /** The default `beam_width`. */
  const DefaultWidth: int := 10

  /** A beam entry (h, state, path) of level `len - 1`: the path has `len`
      states, runs from start to the state without repeats through visited
      states, and h is the state's Manhattan distance to goal. */
  ghost predicate Sound(start: State, goal: State, e: Entry, visited: set<State>, len: nat) {
    PathFromTo(e.2, start, e.1) && NoRepeats(e.2) && |e.2| == len &&
    (forall k :: 0 <= k < |e.2| ==> e.2[k] in visited) &&
    Manhattan(e.1, goal).Some? && Manhattan(e.1, goal).value == e.0
  }

  ghost predicate AllSound(start: State, goal: State, es: seq<Entry>, visited: set<State>, len: nat) {
    forall e :: e in es ==> Sound(start, goal, e, visited, len)
  }

  lemma AllSoundWiden(start: State, goal: State, es: seq<Entry>, visited: set<State>,
                      visited': set<State>, len: nat)
    requires AllSound(start, goal, es, visited, len) && visited <= visited'
    ensures AllSound(start, goal, es, visited', len)
  {
  }

  /** Extending a sound entry's path by an unvisited neighbour with finite
      heuristic gives a sound entry one level deeper. */
  lemma Extend(start: State, goal: State, e: Entry, visited: set<State>, len: nat, next: State, h: nat)
    requires Sound(start, goal, e, visited, len) && Step(e.1, next) && next !in visited
    requires Manhattan(next, goal) == Some(h)
    ensures Sound(start, goal, (h, next, e.2 + [next]), visited + {next}, len + 1)
  {
    var p := e.2 + [next];
    assert p[|p| - 2] == e.1;
    forall i | 0 <= i < |p| - 1 ensures Step(p[i], p[i + 1]) {
      if i < |p| - 2 {
        assert p[i] == e.2[i] && p[i + 1] == e.2[i + 1];
      }
    }
  }

  /** The states of a set whose heuristic is finite. */
  ghost function Finite(goal: State, states: set<State>): set<State> {
    set t | t in states && Manhattan(t, goal).Some?
  }

  /** Splitting the states visited on a level at an intermediate point. */
  lemma FiniteSplit(goal: State, visited: set<State>, middle: set<State>, visited': set<State>)
    requires visited <= middle <= visited'
    ensures Finite(goal, visited' - visited) == Finite(goal, middle - visited) + Finite(goal, visited' - middle)
  {
  }

  /** The neighbour loop for one beam entry: every unvisited neighbour is
      marked visited, and is appended as a candidate when its heuristic is
      finite; earlier candidates stay in front. */
  method ExpandEntry(start: State, goal: State, e: Entry, ns: seq<State>, visited: set<State>,
                     candidates: seq<Entry>, ghost len: nat)
    returns (visited': set<State>, candidates': seq<Entry>)
    requires Sound(start, goal, e, visited, len) && forall t :: t in ns ==> Step(e.1, t)
    requires AllSound(start, goal, candidates, visited, len + 1)
    ensures AllSound(start, goal, candidates', visited', len + 1)
    ensures visited' == visited + Elems(ns)
    ensures |candidates| <= |candidates'| && candidates'[..|candidates|] == candidates
    ensures EntryStates(candidates') == EntryStates(candidates) + Finite(goal, visited' - visited)
    ensures forall c :: c in candidates' ==> c in candidates || (c.1 in ns && c.1 !in visited)
  {
    visited', candidates' := visited, candidates;
    for i := 0 to |ns|
      invariant AllSound(start, goal, candidates', visited', len + 1)
      invariant Sound(start, goal, e, visited', len)
      invariant Marked(ns, i, visited, visited')
      invariant |candidates| <= |candidates'| && candidates'[..|candidates|] == candidates
      invariant EntryStates(candidates') == EntryStates(candidates) + Finite(goal, visited' - visited)
      invariant forall c :: c in candidates' ==> c in candidates || (c.1 in ns && c.1 !in visited)
    {
      var next := ns[i];
      MarkedStep(ns, i, visited, visited');
      if next !in visited' {
        var h := ManhattanDistance(next, goal);
        FiniteSplit(goal, visited, visited', visited' + {next});
        if h.Some? {
          Extend(start, goal, e, visited', len, next, h.value);
          AllSoundWiden(start, goal, candidates', visited', visited' + {next}, len + 1);
          EntryStatesSnoc(candidates', (h.value, next, e.2 + [next]));
          assert (candidates' + [(h.value, next, e.2 + [next])])[..|candidates|] == candidates'[..|candidates|];
          assert Finite(goal, visited' + {next} - visited') == {next};
          candidates' := candidates' + [(h.value, next, e.2 + [next])];
        } else {
          AllSoundWiden(start, goal, candidates', visited', visited' + {next}, len + 1);
          assert Finite(goal, visited' + {next} - visited') == {};
        }
        visited' := visited' + {next};
      }
    }
    MarkedAll(ns, visited, visited');
  }

  /** `get_neighbors_with_double_moves(current_state)`, then the neighbour
      loop: exactly the unvisited neighbours are newly visited, and exactly
      those of finite heuristic are appended as candidates. */
  method Expand(start: State, goal: State, e: Entry, visited: set<State>, candidates: seq<Entry>,
                ghost len: nat)
    returns (visited': set<State>, candidates': seq<Entry>)
    requires Sound(start, goal, e, visited, len)
    requires AllSound(start, goal, candidates, visited, len + 1)
    ensures AllSound(start, goal, candidates', visited', len + 1) && visited <= visited'
    ensures forall t :: Step(e.1, t) ==> t in visited'
    ensures forall t :: t in visited' && t !in visited ==> Step(e.1, t)
    ensures |candidates| <= |candidates'| && candidates'[..|candidates|] == candidates
    ensures EntryStates(candidates') == EntryStates(candidates) + Finite(goal, visited' - visited)
  {
    var ns := NeighborList(e.1);
    NeighborListIsStep(e.1);
    visited', candidates' := ExpandEntry(start, goal, e, ns, visited, candidates, len);
  }

  /** One level: the entries are taken in beam order; the first whose state
      is the goal ends the search with its path, and every entry before it is
      expanded. The newly visited states are exactly the unvisited neighbours
      of the beam's states, and the candidates carry exactly those of finite
      heuristic. */
  method Advance(start: State, goal: State, beam: seq<Entry>, visited: set<State>, ghost len: nat)
    returns (found: Option<seq<State>>, candidates: seq<Entry>, visited': set<State>)
    requires AllSound(start, goal, beam, visited, len)
    ensures found.Some? ==>
      PathFromTo(found.value, start, goal) && NoRepeats(found.value) && |found.value| == len
    ensures found.None? ==> forall e :: e in beam ==> e.1 != goal
    ensures found.None? ==> AllSound(start, goal, candidates, visited', len + 1) && visited <= visited'
    ensures found.None? ==> EntryStates(candidates) == Finite(goal, visited' - visited)
    ensures found.None? ==> forall e, t :: e in beam && Step(e.1, t) ==> t in visited'
    ensures found.None? ==>
      forall t :: t in visited' && t !in visited ==> exists e :: e in beam && Step(e.1, t)
  {
    candidates, visited' := [], visited;
    for i := 0 to |beam|
      invariant AllSound(start, goal, beam, visited', len)
      invariant AllSound(start, goal, candidates, visited', len + 1) && visited <= visited'
      invariant forall j :: 0 <= j < i ==> beam[j].1 != goal
      invariant EntryStates(candidates) == Finite(goal, visited' - visited)
      invariant forall j, t :: 0 <= j < i && Step(beam[j].1, t) ==> t in visited'
      invariant forall t :: t in visited' && t !in visited ==> exists j :: 0 <= j < i && Step(beam[j].1, t)
    {
      ghost var passed := i;
      var e := beam[i];
      assert Sound(start, goal, e, visited', len) by {
        assert e in beam;
      }
      if e.1 == goal {
        return Some(e.2), candidates, visited';
      }
      ghost var before := visited';
      visited', candidates := Expand(start, goal, e, visited', candidates, len);
      AllSoundWiden(start, goal, beam, before, visited', len);
      FiniteSplit(goal, visited, before, visited');
      assert forall j :: 0 <= j <= passed ==> beam[j].1 != goal;
      forall j, t | 0 <= j <= passed && Step(beam[j].1, t) ensures t in visited' {
        if j < passed {
          assert t in before;
        }
      }
      forall t | t in visited' && t !in visited
        ensures exists j :: 0 <= j <= passed && Step(beam[j].1, t)
      {
        if t in before {
          var j :| 0 <= j < passed && Step(beam[j].1, t);
        } else {
          assert Step(beam[passed].1, t);
        }
      }
    }
    found := None;
    forall e, t | e in beam && Step(e.1, t) ensures t in visited' {
      var j :| 0 <= j < |beam| && beam[j] == e;
    }
    forall t | t in visited' && t !in visited ensures exists e :: e in beam && Step(e.1, t) {
      var j :| 0 <= j < |beam| && Step(beam[j].1, t);
      assert beam[j] in beam;
    }
  }

  /** `solve(start_state, goal_state, beam_width)`: None when start has no
      finite heuristic; otherwise a found path runs from start to goal
      through successive neighbours, without repeats, with at most
      `max_depth` states. */
  method Solve(start: State, goal: State, width: int) returns (result: Option<seq<State>>)
    ensures Manhattan(start, goal).None? ==> result.None?
    ensures result.Some? ==>
      PathFromTo(result.value, start, goal) && NoRepeats(result.value) && |result.value| <= MaxDepth
  {
    var startH := ManhattanDistance(start, goal);
    if startH.None? {
      return None;
    }
    var beam: seq<Entry> := [(startH.value, start, [start])];
    var visited: set<State> := {start};
    var depth: nat := 0;
    while |beam| > 0 && depth < MaxDepth
      invariant depth <= MaxDepth && AllSound(start, goal, beam, visited, depth + 1)
      invariant |beam| <= if width < 1 then 1 else width
      decreases MaxDepth - depth
    {
      depth := depth + 1;
      var found, candidates;
      found, candidates, visited := Advance(start, goal, beam, visited, depth);
      if found.Some? {
        return found;
      }
      beam := NSmallest(width, candidates);
      if |beam| == 0 {
        break;
      }
    }
    return None;
  }
}

=== FILE: bfs.dfy ===
/** Breadth-first search over single and double moves (`bfs_ANDOR.py`). A
    state is marked visited when it is enqueued and the goal is tested when it
    is generated. A ghost list records every state ever enqueued. */
module BreadthFirst {
  import opened Grid
  import opened Moves
  import opened StateSpace
  import opened Paths

  /** The queue is what remains of the enqueued states after the first `head`
      were dequeued; no state was enqueued twice, and the enqueued states are
      exactly the visited ones, which are exactly those with a parent entry. */
  ghost predicate Fifo(queue: seq<State>, enqueued: seq<State>, head: nat, visited: set<State>,
                       parent: map<State, Option<State>>)
  {
    head <= |enqueued| && queue == enqueued[head..] && NoRepeats(enqueued) &&
    (forall s :: s in enqueued <==> s in visited) && visited == parent.Keys
  }

  ghost predicate Books(start: State, queue: seq<State>, enqueued: seq<State>, head: nat,
                        visited: set<State>, parent: map<State, Option<State>>,
                        rank: map<State, nat>, clock: nat)
  {
    SearchTree(start, parent, visited, rank, clock) && Fifo(queue, enqueued, head, visited, parent)
  }

  /** Enqueueing an unvisited state keeps the bookkeeping. */
  lemma EnqueueKeeps(start: State, queue: seq<State>, enqueued: seq<State>, head: nat,
                     visited: set<State>, parent: map<State, Option<State>>,
                     rank: map<State, nat>, clock: nat, current: State, next: State)
    requires Books(start, queue, enqueued, head, visited, parent, rank, clock)
    requires current in visited && Step(current, next) && next !in visited
    ensures Books(start, queue + [next], enqueued + [next], head, visited + {next},
                  parent[next := Some(current)], rank[next := clock], clock + 1)
  {
    Graft(start, parent, visited, rank, clock, current, next);
    FifoPush(queue, enqueued, head, visited, parent, next, Some(current));
    Close(start, parent[next := Some(current)], visited, rank[next := clock], clock + 1, next);
  }

  /** Appending an unvisited state to the queue and the enqueued list keeps
      them in step. */
  lemma FifoPush(queue: seq<State>, enqueued: seq<State>, head: nat, visited: set<State>,
                 parent: map<State, Option<State>>, next: State, p: Option<State>)
    requires Fifo(queue, enqueued, head, visited, parent) && next !in visited
    ensures Fifo(queue + [next], enqueued + [next], head, visited + {next}, parent[next := p])
  {
    assert (enqueued + [next])[head..] == enqueued[head..] + [next];
  }

  /** Dequeueing the front state keeps the bookkeeping; that state is
      visited. */
  lemma DequeueKeeps(start: State, queue: seq<State>, enqueued: seq<State>, head: nat,
                     visited: set<State>, parent: map<State, Option<State>>,
                     rank: map<State, nat>, clock: nat)
    requires Books(start, queue, enqueued, head, visited, parent, rank, clock) && |queue| > 0
    ensures Books(start, queue[1..], enqueued, head + 1, visited, parent, rank, clock)
    ensures queue[0] in visited
  {
    assert queue[0] == enqueued[head];
    assert enqueued[head + 1..] == queue[1..];
  }

  /** How an expansion changes the frontier: earlier enqueued states stay in
      front, the queue gains exactly the newly enqueued states at its back,
      those are exactly the newly visited states, old parent entries are
      kept, and every new state has `current` as parent. */
  ghost predicate Grown(current: State, queue: seq<State>, enqueued: seq<State>, visited: set<State>,
                        parent: map<State, Option<State>>, queue': seq<State>, enqueued': seq<State>,
                        visited': set<State>, parent': map<State, Option<State>>)
  {
    visited <= visited' && |enqueued| <= |enqueued'| && enqueued'[..|enqueued|] == enqueued &&
    queue' == queue + enqueued'[|enqueued|..] && Elems(enqueued'[|enqueued|..]) == visited' - visited &&
    (forall t :: t in visited && t in parent ==> t in parent' && parent'[t] == parent[t]) &&
    (forall t :: t in visited' && t !in visited ==> t in parent' && parent'[t] == Some(current))
  }

  lemma GrownRefl(current: State, queue: seq<State>, enqueued: seq<State>, visited: set<State>,
                  parent: map<State, Option<State>>)
    ensures Grown(current, queue, enqueued, visited, parent, queue, enqueued, visited, parent)
  {
    assert enqueued[|enqueued|..] == [];
  }

  /** Enqueueing one more unvisited state keeps the expansion's shape. */
  lemma GrownPush(current: State, queue: seq<State>, enqueued: seq<State>, visited: set<State>,
                  parent: map<State, Option<State>>, queue': seq<State>, enqueued': seq<State>,
                  visited': set<State>, parent': map<State, Option<State>>, next: State)
    requires Grown(current, queue, enqueued, visited, parent, queue', enqueued', visited', parent')
    requires next !in visited'
    ensures Grown(current, queue, enqueued, visited, parent, queue' + [next], enqueued' + [next],
                  visited' + {next}, parent'[next := Some(current)])
  {
    ElemsSnoc(enqueued'[|enqueued|..], next);
    assert (enqueued' + [next])[|enqueued|..] == enqueued'[|enqueued|..] + [next];
    assert (enqueued' + [next])[..|enqueued|] == enqueued'[..|enqueued|];
  }

  /** The first i neighbours are visited, every newly visited state is a
      neighbour, and the goal is not among them. */
  ghost predicate Swept(goal: State, ns: seq<State>, i: nat, visited: set<State>, visited': set<State>) {
    (forall j :: 0 <= j < i && j < |ns| ==> ns[j] in visited') &&
    (forall t :: t in visited' && t !in visited ==> t in ns) && goal !in visited' - visited
  }

  lemma SweptStep(goal: State, ns: seq<State>, i: nat, visited: set<State>, visited': set<State>)
    requires i < |ns| && Swept(goal, ns, i, visited, visited')
    ensures ns[i] in visited' ==> Swept(goal, ns, i + 1, visited, visited')
    ensures ns[i] != goal ==> Swept(goal, ns, i + 1, visited, visited' + {ns[i]})
  {
  }

  /** An expansion that visits nothing leaves the queue as it was. */
  lemma GrownNothing(current: State, queue: seq<State>, enqueued: seq<State>, visited: set<State>,
                     parent: map<State, Option<State>>, queue': seq<State>, enqueued': seq<State>,
                     visited': set<State>, parent': map<State, Option<State>>)
    requires Grown(current, queue, enqueued, visited, parent, queue', enqueued', visited', parent')
    ensures visited' == visited ==> queue' == queue
  {
    var suffix := enqueued'[|enqueued|..];
    assert |suffix| > 0 ==> suffix[0] in Elems(suffix);
  }

  /** One pass of the neighbour loop: an unvisited neighbour is marked
      visited, given `current` as parent and enqueued; a visited one changes
      nothing. */
  method Visit(start: State, current: State, next: State, queue: seq<State>, visited: set<State>,
               parent: map<State, Option<State>>, ghost enqueued: seq<State>, ghost head: nat,
               ghost rank: map<State, nat>, ghost clock: nat)
    returns (queue': seq<State>, visited': set<State>, parent': map<State, Option<State>>,
             ghost enqueued': seq<State>, ghost rank': map<State, nat>, ghost clock': nat)
    requires Books(start, queue, enqueued, head, visited, parent, rank, clock)
    requires current in visited && Step(current, next)
    ensures Books(start, queue', enqueued', head, visited', parent', rank', clock')
    ensures visited' == visited + {next}
    ensures Grown(current, queue, enqueued, visited, parent, queue', enqueued', visited', parent')
  {
    queue', visited', parent', enqueued', rank', clock' := queue, visited, parent, enqueued, rank, clock;
    GrownRefl(current, queue, enqueued, visited, parent);
    if next !in visited {
      EnqueueKeeps(start, queue, enqueued, head, visited, parent, rank, clock, current, next);
      GrownPush(current, queue, enqueued, visited, parent, queue, enqueued, visited, parent, next);
      visited' := visited + {next};
      parent' := parent[next := Some(current)];
      queue' := queue + [next];
      enqueued' := enqueued + [next];
      rank', clock' := rank[next := clock], clock + 1;
    }
  }

  /** Two expansion steps from the same state make one. */
  lemma GrownTrans(current: State, queue: seq<State>, enqueued: seq<State>, visited: set<State>,
                   parent: map<State, Option<State>>, queue1: seq<State>, enqueued1: seq<State>,
                   visited1: set<State>, parent1: map<State, Option<State>>, queue2: seq<State>,
                   enqueued2: seq<State>, visited2: set<State>, parent2: map<State, Option<State>>)
    requires Grown(current, queue, enqueued, visited, parent, queue1, enqueued1, visited1, parent1)
    requires Grown(current, queue1, enqueued1, visited1, parent1, queue2, enqueued2, visited2, parent2)
    ensures Grown(current, queue, enqueued, visited, parent, queue2, enqueued2, visited2, parent2)
  {
    var a, b := enqueued1[|enqueued|..], enqueued2[|enqueued1|..];
    assert enqueued2[|enqueued|..] == a + b;
    assert enqueued2[..|enqueued|] == enqueued1[..|enqueued|];
    ElemsAppend(a, b);
  }

  /** The neighbour loop of `solve`: every unvisited neighbour is marked
      visited, given `current` as parent and enqueued, and the search stops as
      soon as one of them is the goal. Earlier entries of the queue and of the
      parent map are kept. */
  method Expand(start: State, goal: State, current: State, ns: seq<State>,
                queue: seq<State>, visited: set<State>, parent: map<State, Option<State>>,
                ghost enqueued: seq<State>, ghost head: nat, ghost rank: map<State, nat>, ghost clock: nat)
    returns (found: bool, queue': seq<State>, visited': set<State>, parent': map<State, Option<State>>,
             ghost enqueued': seq<State>, ghost rank': map<State, nat>, ghost clock': nat)
    requires Books(start, queue, enqueued, head, visited, parent, rank, clock) && current in visited
    requires forall t :: t in ns ==> Step(current, t)
    ensures Books(start, queue', enqueued', head, visited', parent', rank', clock')
    ensures found ==> goal in parent'
    ensures found <==> goal in visited' - visited
    ensures visited <= visited'
    ensures visited' == visited ==> queue' == queue
    ensures Grown(current, queue, enqueued, visited, parent, queue', enqueued', visited', parent')
    ensures forall t :: t in visited' && t !in visited ==> t in ns
    ensures !found ==> forall t :: t in ns ==> t in visited'
  {
    found, queue', visited', parent', enqueued', rank', clock' :=
      false, queue, visited, parent, enqueued, rank, clock;
    GrownRefl(current, queue, enqueued, visited, parent);
    for i := 0 to |ns|
      invariant Books(start, queue', enqueued', head, visited', parent', rank', clock')
      invariant current in visited'
      invariant Grown(current, queue, enqueued, visited, parent, queue', enqueued', visited', parent')
      invariant Swept(goal, ns, i, visited, visited')
    {
      var next := ns[i];
      SweptStep(goal, ns, i, visited, visited');
      var seen := next in visited';
      ghost var q0, e0, v0, p0 := queue', enqueued', visited', parent';
      queue', visited', parent', enqueued', rank', clock' :=
        Visit(start, current, next, queue', visited', parent', enqueued', head, rank', clock');
      GrownTrans(current, queue, enqueued, visited, parent, q0, e0, v0, p0, queue', enqueued', visited', parent');
      if !seen && next == goal {
        found := true;
        GrownNothing(current, queue, enqueued, visited, parent, queue', enqueued', visited', parent');
        return;
      }
    }
    GrownNothing(current, queue, enqueued, visited, parent, queue', enqueued', visited', parent');
  }

  /** One iteration of the main loop: dequeue a state and expand it. Each
      iteration either visits new states or shrinks the queue. The states
      newly enqueued go behind the rest of the queue, and are exactly the
      unvisited neighbours of the dequeued state, up to the goal if it is
      among them. */
  method Iterate(start: State, goal: State, queue: seq<State>, visited: set<State>,
                 parent: map<State, Option<State>>, ghost enqueued: seq<State>, ghost head: nat,
                 ghost rank: map<State, nat>, ghost clock: nat)
    returns (found: bool, queue': seq<State>, visited': set<State>, parent': map<State, Option<State>>,
             ghost enqueued': seq<State>, ghost head': nat, ghost rank': map<State, nat>, ghost clock': nat)
    requires Books(start, queue, enqueued, head, visited, parent, rank, clock) && |queue| > 0
    requires visited <= Universe(start)
    ensures Books(start, queue', enqueued', head', visited', parent', rank', clock')
    ensures found ==> goal in parent'
    ensures found <==> goal in visited' - visited
    ensures visited' <= Universe(start)
    ensures |Universe(start) - visited'| < |Universe(start) - visited| ||
            (visited' == visited && |queue'| < |queue|)
    ensures head' == head + 1 && |enqueued| <= |enqueued'| && enqueued'[..|enqueued|] == enqueued
    ensures queue' == queue[1..] + enqueued'[|enqueued|..]
    ensures forall t :: t in visited' && t !in visited ==> Step(queue[0], t) && parent'[t] == Some(queue[0])
    ensures !found ==> forall t :: Step(queue[0], t) ==> t in visited'
  {
    var current := queue[0];
    DequeueKeeps(start, queue, enqueued, head, visited, parent, rank, clock);
    head' := head + 1;
    var ns := NeighborStates(current);
    found, queue', visited', parent', enqueued', rank', clock' :=
      Expand(start, goal, current, ns, queue[1..], visited, parent, enqueued, head', rank, clock);
    VisitedInUniverse(start, queue', enqueued', head', visited', parent', rank', clock');
    Progress(start, visited, visited', |queue|, |queue'|);
  }

  /** Every visited state is a rearrangement of start. */
  lemma VisitedInUniverse(start: State, queue: seq<State>, enqueued: seq<State>, head: nat,
                          visited: set<State>, parent: map<State, Option<State>>,
                          rank: map<State, nat>, clock: nat)
    requires Books(start, queue, enqueued, head, visited, parent, rank, clock)
    ensures visited <= Universe(start)
  {
    TreeInUniverse(start, parent);
  }

  /** An iteration that visits nothing new shrinks the queue. */
  lemma Progress(start: State, visited: set<State>, visited': set<State>, n: nat, n': nat)
    requires visited <= visited' <= Universe(start) && (visited' == visited ==> n' < n)
    ensures |Universe(start) - visited'| < |Universe(start) - visited| || (visited' == visited && n' < n)
  {
    if visited' != visited {
      Fewer(Universe(start), visited, visited');
    }
  }

  /** `solve(start_state, goal_state)`: `[start]` when start is the goal;
      otherwise a found path runs from start to goal through successive
      neighbours. */
  method Solve(start: State, goal: State) returns (result: Option<seq<State>>)
    ensures start == goal ==> result == Some([start])
    ensures result.Some? ==> PathFromTo(result.value, start, goal) && NoRepeats(result.value)
  {
    if start == goal {
      return Some([start]);
    }
    var queue: seq<State> := [start];
    var visited: set<State> := {start};
    var parent: map<State, Option<State>> := map[start := None];
    ghost var enqueued: seq<State> := [start];
    ghost var head: nat := 0;
    ghost var rank: map<State, nat> := map[start := 0];
    ghost var clock: nat := 1;
    PermutationInUniverse(start, start);
    while |queue| > 0
      invariant Books(start, queue, enqueued, head, visited, parent, rank, clock)
      invariant visited <= Universe(start)
      decreases |Universe(start) - visited|, |queue|
    {
      var found;
      found, queue, visited, parent, enqueued, head, rank, clock :=
        Iterate(start, goal, queue, visited, parent, enqueued, head, rank, clock);
      if found {
        var path := TracePath(start, goal, parent, visited, rank, clock);
        return Some(path);
      }
    }
    return None;
  }
}

=== FILE: blind.dfy ===
/** The belief-state search of `blind.py`: one list of moves, named
    "Up", "Down", "Left" and "Right", that drives every 3x3 puzzle of a belief
    into the goal set at once. A move that would leave the board leaves that
    puzzle unchanged. Beliefs are kept sorted (Python's tuple order), and a
    breadth-first search over them gives up after 300000 iterations. */
module Blind {
  import opened Grid
  import opened Order
  import opened Moves
  import opened Solvability
  import opened Paths

  /** `TARGET_GOAL_STATES`. */
  const TargetGoals: set<State> := {[1, 2, 3, 4, 5, 6, 7, 8, 9], [1, 4, 7, 2, 5, 8, 3, 6, 9], [1, 2, 3, 8, 9, 4, 7, 6, 5]}

  /** `move_directions`, in the order the search tries them. */
  const MoveNames: seq<string> := ["Up", "Down", "Left", "Right"]

  /** `max_iterations` of `find_common_path`. */
  const MaxIterations: nat := 300000

  /** `get_inversions(state)`: the inversions of the state without its 9s. */
  method GetInversions(state: State) returns (inversions: nat)
    ensures inversions == Inversions(Without9(state))
  {
    inversions := CountInversions(Without9(state));
  }

  /** `is_solvable(state)` of this file: nine cells holding a 9, and an even
      number of inversions. */
  predicate Solvable(state: State) {
    9 in state && |state| == 9 && Inversions(Without9(state)) % 2 == 0
  }

  method IsSolvable(state: State) returns (b: bool)
    ensures b <==> Solvable(state)
  {
    if 9 !in state || |state| != 9 {
      return false;
    }
    var inversions := GetInversions(state);
    b := inversions % 2 == 0;
  }

  /** Of the three target states only the first passes this file's
      `is_solvable`: the second has 9 inversions and the third 7. */
  lemma TargetGoalsParity()
    ensures Solvable([1, 2, 3, 4, 5, 6, 7, 8, 9])
    ensures !Solvable([1, 4, 7, 2, 5, 8, 3, 6, 9])
    ensures !Solvable([1, 2, 3, 8, 9, 4, 7, 6, 5])
  {
    SolvableStandard([1, 2, 3, 4, 5, 6, 7, 8, 9]);
    UnsolvableTransposed([1, 4, 7, 2, 5, 8, 3, 6, 9]);
    UnsolvableSpiral([1, 2, 3, 8, 9, 4, 7, 6, 5]);
  }

  /** Solvability of a nine-cell board read off its inversion count. */
  lemma ParityOf(s: State, a: seq<int>, n: nat)
    requires 9 in s && |s| == 9 && Without9(s) == a && Inversions(a) == n
    ensures Solvable(s) <==> n % 2 == 0
  {
  }

  lemma CountStandard(a: seq<int>)
    requires a == [1, 2, 3, 4, 5, 6, 7, 8]
    ensures Inversions(a) == 0
  {
    var b: seq<int> := [1, 2, 3, 4, 5, 6, 7, 8];
    assert Later(b, 0, 8) == 0;
    assert InvUpTo(b, 1) == 0;
    assert Later(b, 1, 8) == 0;
    assert InvUpTo(b, 2) == 0;
    assert Later(b, 2, 8) == 0;
    assert InvUpTo(b, 3) == 0;
    assert Later(b, 3, 8) == 0;
    assert InvUpTo(b, 4) == 0;
    assert Later(b, 4, 8) == 0;
    assert InvUpTo(b, 5) == 0;
    assert Later(b, 5, 8) == 0;
    assert InvUpTo(b, 6) == 0;
    assert Later(b, 6, 8) == 0;
    assert InvUpTo(b, 7) == 0;
    assert Later(b, 7, 8) == 0;
    assert InvUpTo(b, 8) == 0;
    assert a == b;
  }

  lemma SolvableStandard(s: State)
    requires |s| == 9 && forall i :: 0 <= i < 9 ==> s[i] == [1, 2, 3, 4, 5, 6, 7, 8, 9][i]
    ensures Solvable(s)
  {
    var a: seq<int> := [1, 2, 3, 4, 5, 6, 7, 8];
    WithoutAt(s, 8);
    assert s[..8] + s[8 + 1..] == a;
    CountStandard(a);
    ParityOf(s, a, 0);
  }

  lemma CountTransposed(a: seq<int>)
    requires a == [1, 4, 7, 2, 5, 8, 3, 6]
    ensures Inversions(a) == 9
  {
    var b: seq<int> := [1, 4, 7, 2, 5, 8, 3, 6];
    assert Later(b, 0, 8) == 0;
    assert InvUpTo(b, 1) == 0;
    assert Later(b, 1, 8) == 2;
    assert InvUpTo(b, 2) == 2;
    assert Later(b, 2, 8) == 4;
    assert InvUpTo(b, 3) == 6;
    assert Later(b, 3, 8) == 0;
    assert InvUpTo(b, 4) == 6;
    assert Later(b, 4, 8) == 1;
    assert InvUpTo(b, 5) == 7;
    assert Later(b, 5, 8) == 2;
    assert InvUpTo(b, 6) == 9;
    assert Later(b, 6, 8) == 0;
    assert InvUpTo(b, 7) == 9;
    assert Later(b, 7, 8) == 0;
    assert InvUpTo(b, 8) == 9;
    assert a == b;
  }

  /** A state that agrees cell by cell with a board whose blank is at k
      reads, without the blank, as the board with cell k dropped. */
  lemma Without9Of(s: State, full: seq<int>, k: nat, a: seq<int>)
    requires |s| == |full| && forall i :: 0 <= i < |full| ==> s[i] == full[i]
    requires k < |full| && full[k] == 9 && a == full[..k] + full[k + 1..] && 9 !in a
    ensures Without9(s) == a
  {
    assert s == full;
    assert full[..k] == a[..k] && full[k + 1..] == a[k..];
    WithoutAt(s, k);
  }

  lemma UnsolvableTransposed(s: State)
    requires |s| == 9 && forall i :: 0 <= i < 9 ==> s[i] == [1, 4, 7, 2, 5, 8, 3, 6, 9][i]
    ensures !Solvable(s)
  {
    var a: seq<int> := [1, 4, 7, 2, 5, 8, 3, 6];
    Without9Of(s, [1, 4, 7, 2, 5, 8, 3, 6, 9], 8, a);
    CountTransposed(a);
    ParityOf(s, a, 9);
  }

  lemma CountSpiral(a: seq<int>)
    requires a == [1, 2, 3, 8, 4, 7, 6, 5]
    ensures Inversions(a) == 7
  {
    var b: seq<int> := [1, 2, 3, 8, 4, 7, 6, 5];
    assert Later(b, 0, 8) == 0;
    assert InvUpTo(b, 1) == 0;
    assert Later(b, 1, 8) == 0;
    assert InvUpTo(b, 2) == 0;
    assert Later(b, 2, 8) == 0;
    assert InvUpTo(b, 3) == 0;
    assert Later(b, 3, 8) == 4;
    assert InvUpTo(b, 4) == 4;
    assert Later(b, 4, 8) == 0;
    assert InvUpTo(b, 5) == 4;
    assert Later(b, 5, 8) == 2;
    assert InvUpTo(b, 6) == 6;
    assert Later(b, 6, 8) == 1;
    assert InvUpTo(b, 7) == 7;
    assert Later(b, 7, 8) == 0;
    assert InvUpTo(b, 8) == 7;
    assert a == b;
  }

  lemma UnsolvableSpiral(s: State)
    requires |s| == 9 && forall i :: 0 <= i < 9 ==> s[i] == [1, 2, 3, 8, 9, 4, 7, 6, 5][i]
    ensures !Solvable(s)
  {
    var a: seq<int> := [1, 2, 3, 8, 4, 7, 6, 5];
    Without9Of(s, [1, 2, 3, 8, 9, 4, 7, 6, 5], 4, a);
    CountSpiral(a);
    ParityOf(s, a, 7);
  }

  /** The direction a move name stands for; None for any other name (the
      `else: return None` branch). */
  function ParseMove(name: string): (r: Option<Dir>)
    ensures r.Some? <==> name in MoveNames
  {
    if name == "Up" then Some(Up)
    else if name == "Down" then Some(Down)
    else if name == "Left" then Some(Left)
    else if name == "Right" then Some(Right)
    else None
  }

  /** The name of a direction. */
  function MoveName(d: Dir): (r: string)
    ensures ParseMove(r) == Some(d)
  {
    match d
    case Up => "Up"
    case Down => "Down"
    case Left => "Left"
    case Right => "Right"
  }

  /** The cell the blank moves to: its position on the 3x3 grid by
      `divmod(blank_index, 3)`, shifted one cell; None when the state has no 9,
      the name is unknown, or the shift leaves the grid. */
  function MoveTarget(state: State, name: string): (r: Option<nat>)
    ensures r.Some? ==> r.value < 9
  {
    match IndexOf(state, 9)
    case None => None
    case Some(blank) =>
      match ParseMove(name)
      case None => None
      case Some(d) => Target(3, blank, d)
  }

  /** The swap stays inside the list: `apply_move` raises otherwise, which
      only a list shorter than nine cells can make it do. */
  predicate InRange(state: State, name: string) {
    MoveTarget(state, name).None? || MoveTarget(state, name).value < |state|
  }

  /** A board of at least nine cells, or one without a blank, never makes
      `apply_move` raise. */
  predicate Board(state: State) {
    |state| >= 9 || 9 !in state
  }

  lemma BoardInRange(state: State, name: string)
    requires Board(state)
    ensures InRange(state, name)
  {
  }

  /** `apply_move(state, move_direction)`: None for an unknown name, a state
      without 9, or a move off the grid; otherwise the state with the first 9
      exchanged with the neighbouring cell the move names, which is a
      rearrangement of it. On a nine-cell board that is a single slide of
      the shared move model. */
  function ApplyMove(state: State, name: string): (r: Option<State>)
    requires InRange(state, name)
    ensures r.None? <==> 9 !in state || name !in MoveNames || MoveTarget(state, name).None?
    ensures r.Some? ==> |r.value| == |state| && multiset(r.value) == multiset(state)
    ensures r.Some? ==> r.value[MoveTarget(state, name).value] == 9
    ensures r.Some? && |state| == 9 ==> SingleMove(state, r.value)
  {
    match MoveTarget(state, name)
    case None => None
    case Some(t) =>
      var blank := IndexOf(state, 9).value;
      var r := Swap(state, blank, t);
      if |state| == 9 then
        SlideIsSingleMove(state, blank, ParseMove(name).value);
        Some(r)
      else Some(r)
  }

  /** On a nine-cell board a slide of the first 9 is a single move. */
  lemma SlideIsSingleMove(state: State, blank: nat, d: Dir)
    requires |state| == 9 && IndexOf(state, 9) == Some(blank) && Target(3, blank, d).Some?
    ensures SingleMove(state, Swap(state, blank, Target(3, blank, d).value))
  {
    ISqrtOfSquare(3);
    var t := Target(3, blank, d).value;
    TargetIsAdjacent(3, blank, d);
    assert BlankIndex(state) == Some(blank);
    assert Adjacent(ISqrt(|state|), blank, t) && Swap(state, blank, t) == Swap(state, blank, t);
  }

  /** The blank occurs in one cell only. */
  predicate OneBlank(state: State) {
    forall i, j :: 0 <= i < |state| && 0 <= j < |state| && state[i] == 9 && state[j] == 9 ==> i == j
  }

  /** A slide on the 3x3 grid moves the blank to another cell, and the
      opposite slide brings it back. */
  lemma TargetBack(i: nat, d: Dir)
    requires i < 9 && Target(3, i, d).Some?
    ensures Target(3, i, d).value != i
    ensures Target(3, Target(3, i, d).value, Opposite(d)) == Some(i)
  {
    var t := Target(3, i, d).value;
    RowBound(3, i);
    var back := Target(3, t, Opposite(d));
    assert back.Some?;
    CellEq(3, back.value, i);
  }

  /** After the only 9 is exchanged with another cell, that cell holds the
      only 9. */
  lemma BlankMoves(state: State, blank: nat, t: nat)
    requires OneBlank(state) && blank < |state| && state[blank] == 9 && t < |state| && t != blank
    ensures IndexOf(Swap(state, blank, t), 9) == Some(t)
  {
  }

  /** Sliding back undoes a slide on a 3x3 board with one blank: Up then
      Down, Down then Up, Left then Right and Right then Left each give back
      the original state whenever the first move is defined. */
  lemma ApplyMoveInverse(state: State, d: Dir)
    requires |state| == 9 && OneBlank(state)
    requires ApplyMove(state, MoveName(d)).Some?
    ensures ApplyMove(ApplyMove(state, MoveName(d)).value, MoveName(Opposite(d))) == Some(state)
  {
    var blank := IndexOf(state, 9).value;
    var t := Target(3, blank, d).value;
    var r := Swap(state, blank, t);
    assert ApplyMove(state, MoveName(d)) == Some(r);
    TargetBack(blank, d);
    BlankMoves(state, blank, t);
    assert MoveTarget(r, MoveName(Opposite(d))) == Some(blank);
    SwapBack(state, blank, t);
  }

  /** The move applied to one puzzle of a belief: an undefined move leaves it
      as it was. */
  function Keep(state: State, name: string): (r: State)
    requires Board(state)
    ensures Board(r) && |r| == |state| && multiset(r) == multiset(state)
    ensures ApplyMove(state, name).Some? ==> r == ApplyMove(state, name).value
    ensures ApplyMove(state, name).None? ==> r == state
  {
    BoardInRange(state, name);
    match ApplyMove(state, name)
    case None => state
    case Some(next) =>
      assert 9 in state ==> |state| >= 9;
      next
  }

  /** The state a puzzle reaches under a list of moves, each applied with
      `Keep`. */
  function Replay(state: State, moves: seq<string>): (r: State)
    requires Board(state)
    ensures Board(r) && multiset(r) == multiset(state)
    decreases |moves|
  {
    if moves == [] then state
    else Keep(Replay(state, moves[..|moves| - 1]), moves[|moves| - 1])
  }

  /** Every state of a belief is in the goal set (`all(state in target_goals_set
      for state in ...)`). */
  predicate AllIn(belief: seq<State>, goals: set<State>) {
    forall s :: s in belief ==> s in goals
  }

  /** `tuple(sorted(...))` of a belief. */
  function Canonical(belief: seq<State>): (r: seq<State>)
    ensures multiset(r) == multiset(belief) && SortedBy(r, SeqLeq)
  {
    SeqOrder();
    SortBySorted(belief, SeqLeq);
    SortBy(belief, SeqLeq)
  }

  /** Every puzzle of a belief with the move applied, in order. */
  function Moved(belief: seq<State>, name: string): (r: seq<State>)
    requires forall s :: s in belief ==> Board(s)
    ensures |r| == |belief| && forall k :: 0 <= k < |belief| ==> Board(r[k])
  {
    seq(|belief|, k requires 0 <= k < |belief| => Keep(belief[k], name))
  }

  /** The belief reached from `belief` by the move: its applied puzzles,
      sorted. */
  function Successor(belief: seq<State>, name: string): (r: seq<State>)
    requires forall s :: s in belief ==> Board(s)
    ensures SortedBy(r, SeqLeq) && multiset(r) == multiset(Moved(belief, name))
  {
    Canonical(Moved(belief, name))
  }

  /** The inner loop building `next_belief_list`, then its sorting: every
      state moved with `Keep`, sorted. The result is a rearrangement of the
      applied puzzles, so it holds each of them as often as they occur. */
  method StepBelief(belief: seq<State>, name: string) returns (next: seq<State>)
    requires forall s :: s in belief ==> Board(s)
    ensures SortedBy(next, SeqLeq) && |next| == |belief|
    ensures multiset(next) == multiset(Moved(belief, name))
    ensures forall s :: s in belief ==> Keep(s, name) in next
    ensures forall t :: t in next ==> Board(t) && exists s :: s in belief && t == Keep(s, name)
    ensures next == Successor(belief, name)
  {
    var list := KeepAll(belief, name);
    assert list == Moved(belief, name);
    next := Canonical(list);
    SameMembers(belief, name, list, next);
  }

  /** The loop of the belief step: each puzzle with the move applied, in
      order. */
  method KeepAll(belief: seq<State>, name: string) returns (list: seq<State>)
    requires forall k :: 0 <= k < |belief| ==> Board(belief[k])
    ensures |list| == |belief| && forall k :: 0 <= k < |belief| ==> list[k] == Keep(belief[k], name)
  {
    list := [];
    for i := 0 to |belief|
      invariant |list| == i
      invariant forall k :: 0 <= k < i ==> list[k] == Keep(belief[k], name)
    {
      list := list + [Keep(belief[i], name)];
    }
  }

  /** A rearrangement of the applied puzzles holds the same states. */
  lemma SameMembers(belief: seq<State>, name: string, list: seq<State>, next: seq<State>)
    requires forall k :: 0 <= k < |belief| ==> Board(belief[k])
    requires |list| == |belief| && forall k :: 0 <= k < |belief| ==> list[k] == Keep(belief[k], name)
    requires multiset(next) == multiset(list)
    ensures forall s :: s in belief ==> Keep(s, name) in next
    ensures forall t :: t in next ==> Board(t) && exists s :: s in belief && t == Keep(s, name)
  {
    forall s | s in belief ensures Keep(s, name) in next {
      var k :| 0 <= k < |belief| && belief[k] == s;
      assert list[k] in multiset(next);
    }
    forall t | t in next ensures Board(t) && exists s :: s in belief && t == Keep(s, name) {
      assert t in multiset(list);
      var k :| 0 <= k < |list| && list[k] == t;
    }
  }

  /** A queue entry (belief, moves): every initial state, replayed under the
      moves, is in the belief; the moves are known names; the belief's
      states are boards. */
  ghost predicate Tracks(initial: seq<State>, belief: seq<State>, moves: seq<string>) {
    (forall x :: x in initial ==> Board(x) && Replay(x, moves) in belief) &&
    (forall s :: s in belief ==> Board(s)) &&
    (forall m :: m in moves ==> m in MoveNames)
  }

  /** The queue is the part of the enqueued beliefs not yet taken; each
      belief is enqueued once, exactly when it is marked visited. */
  ghost predicate Fifo(queue: seq<(seq<State>, seq<string>)>, enqueued: seq<seq<State>>, head: nat,
                       visited: set<seq<State>>)
  {
    head <= |enqueued| && |queue| == |enqueued| - head &&
    (forall k :: 0 <= k < |queue| ==> queue[k].0 == enqueued[head + k]) &&
    NoRepeats(enqueued) && (forall b :: b in enqueued <==> b in visited)
  }

  ghost predicate AllTrack(initial: seq<State>, queue: seq<(seq<State>, seq<string>)>) {
    forall k :: 0 <= k < |queue| ==> Tracks(initial, queue[k].0, queue[k].1)
  }

  /** Replaying one more move follows the belief step. */
  lemma TracksStep(initial: seq<State>, belief: seq<State>, moves: seq<string>, name: string,
                   next: seq<State>)
    requires Tracks(initial, belief, moves) && name in MoveNames
    requires forall s :: s in belief ==> Keep(s, name) in next
    requires forall t :: t in next ==> Board(t)
    ensures Tracks(initial, next, moves + [name])
  {
    var moves' := moves + [name];
    assert moves'[..|moves'| - 1] == moves;
    forall x | x in initial ensures Replay(x, moves') in next {
      assert Replay(x, moves') == Keep(Replay(x, moves), name);
    }
  }

  /** Enqueueing a belief not yet visited keeps the queue books. */
  lemma EnqueueKeeps(queue: seq<(seq<State>, seq<string>)>, enqueued: seq<seq<State>>, head: nat,
                     visited: set<seq<State>>, entry: (seq<State>, seq<string>))
    requires Fifo(queue, enqueued, head, visited) && entry.0 !in visited
    ensures Fifo(queue + [entry], enqueued + [entry.0], head, visited + {entry.0})
  {
  }

  /** Books kept while the four moves of one belief are tried: the queue and
      the enqueued list only grow at their ends, the newly enqueued beliefs
      are exactly the newly visited ones, and each of them is among the
      successors `made` so far and does not lie wholly in the goal set. */
  ghost predicate Grew(goals: set<State>, made: seq<seq<State>>,
                       queue: seq<(seq<State>, seq<string>)>, enqueued: seq<seq<State>>,
                       visited: set<seq<State>>, queue': seq<(seq<State>, seq<string>)>,
                       enqueued': seq<seq<State>>, visited': set<seq<State>>)
  {
    visited <= visited' &&
    |queue| <= |queue'| && queue'[..|queue|] == queue &&
    |enqueued| <= |enqueued'| && enqueued'[..|enqueued|] == enqueued &&
    Elems(enqueued'[|enqueued|..]) == visited' - visited &&
    (forall b :: b in visited' && b !in visited ==> b in made && !AllIn(b, goals))
  }

  /** Adding one new belief keeps the books. */
  lemma GrewPush(goals: set<State>, made: seq<seq<State>>,
                 queue: seq<(seq<State>, seq<string>)>, enqueued: seq<seq<State>>,
                 visited: set<seq<State>>, queue': seq<(seq<State>, seq<string>)>,
                 enqueued': seq<seq<State>>, visited': set<seq<State>>, entry: (seq<State>, seq<string>))
    requires Grew(goals, made, queue, enqueued, visited, queue', enqueued', visited')
    requires entry.0 !in visited' && !AllIn(entry.0, goals)
    ensures Grew(goals, made + [entry.0], queue, enqueued, visited,
                 queue' + [entry], enqueued' + [entry.0], visited' + {entry.0})
  {
    assert (queue' + [entry])[..|queue|] == queue'[..|queue|];
    assert (enqueued' + [entry.0])[..|enqueued|] == enqueued'[..|enqueued|];
    var tail := enqueued'[|enqueued|..];
    assert (enqueued' + [entry.0])[|enqueued|..] == tail + [entry.0];
    ElemsSnoc(tail, entry.0);
  }

  /** The successors of a belief under the four moves, in move order. */
  ghost function Successors(belief: seq<State>): (r: seq<seq<State>>)
    requires forall s :: s in belief ==> Board(s)
    ensures |r| == |MoveNames|
  {
    seq(|MoveNames|, j requires 0 <= j < |MoveNames| => Successor(belief, MoveNames[j]))
  }

  /** More successors made keep the books. */
  lemma GrewMore(goals: set<State>, made: seq<seq<State>>, made': seq<seq<State>>,
                 queue: seq<(seq<State>, seq<string>)>, enqueued: seq<seq<State>>,
                 visited: set<seq<State>>, queue': seq<(seq<State>, seq<string>)>,
                 enqueued': seq<seq<State>>, visited': set<seq<State>>)
    requires Grew(goals, made, queue, enqueued, visited, queue', enqueued', visited')
    requires |made| <= |made'| && made'[..|made|] == made
    ensures Grew(goals, made', queue, enqueued, visited, queue', enqueued', visited')
  {
    forall b | b in made ensures b in made' {
      var j :| 0 <= j < |made| && made[j] == b;
      assert made'[j] == b;
    }
  }

  /** The books of the loop over the moves after the first `i` were tried:
      the queue books and the tracking of every queued belief hold, the queue
      grew only by successors of the belief under those moves, and each of
      those successors has been visited. */
  ghost predicate Tried(initial: seq<State>, goals: set<State>, succ: seq<seq<State>>, i: nat,
                        queue: seq<(seq<State>, seq<string>)>, enqueued: seq<seq<State>>,
                        visited: set<seq<State>>, head: nat, queue': seq<(seq<State>, seq<string>)>,
                        enqueued': seq<seq<State>>, visited': set<seq<State>>)
  {
    i <= |succ| && AllTrack(initial, queue') && Fifo(queue', enqueued', head, visited') &&
    Grew(goals, succ[..i], queue, enqueued, visited, queue', enqueued', visited') &&
    (forall j :: 0 <= j < i ==> succ[j] in visited')
  }

  /** One move of the loop over the four moves: the successor belief, when
      new, either ends the search (it lies wholly in the goal set) or is
      marked visited and enqueued. */
  method TryMove(initial: seq<State>, goals: set<State>, belief: seq<State>, moves: seq<string>, i: nat,
                 ghost succ: seq<seq<State>>,
                 ghost queue: seq<(seq<State>, seq<string>)>, ghost enqueued: seq<seq<State>>,
                 ghost visited: set<seq<State>>, ghost head: nat,
                 queue': seq<(seq<State>, seq<string>)>, visited': set<seq<State>>,
                 ghost enqueued': seq<seq<State>>)
    returns (found: Option<seq<string>>, queue'': seq<(seq<State>, seq<string>)>,
             visited'': set<seq<State>>, ghost enqueued'': seq<seq<State>>)
    requires i < |MoveNames| && Tracks(initial, belief, moves) && succ == Successors(belief)
    requires Tried(initial, goals, succ, i, queue, enqueued, visited, head, queue', enqueued', visited')
    ensures found.Some? ==>
      (forall x :: x in initial ==> Board(x) && Replay(x, found.value) in goals) &&
      (forall m :: m in found.value ==> m in MoveNames)
    ensures found.Some? ==>
      found.value == moves + [MoveNames[i]] &&
      succ[i] !in visited && AllIn(succ[i], goals)
    ensures found.Some? ==>
      AllTrack(initial, queue'') && Fifo(queue'', enqueued'', head, visited'') &&
      Grew(goals, succ, queue, enqueued, visited, queue'', enqueued'', visited'')
    ensures found.None? ==>
      Tried(initial, goals, succ, i + 1, queue, enqueued, visited, head, queue'', enqueued'', visited'')
  {
    queue'', visited'', enqueued'' := queue', visited', enqueued';
    var name := MoveNames[i];
    var next := StepBelief(belief, name);
    assert next == succ[i];
    TracksStep(initial, belief, moves, name, next);
    if next !in visited' {
      if forall s :: s in next ==> s in goals {
        TriedFound(initial, goals, succ, i, queue, enqueued, visited, head, queue', enqueued', visited');
        return Some(moves + [name]), queue'', visited'', enqueued'';
      }
      TriedPush(initial, goals, succ, i, queue, enqueued, visited, head, queue', enqueued', visited',
                (next, moves + [name]));
      queue'' := queue' + [(next, moves + [name])];
      visited'' := visited' + {next};
      enqueued'' := enqueued' + [next];
    } else {
      TriedSkip(initial, goals, succ, i, queue, enqueued, visited, head, queue', enqueued', visited');
    }
    found := None;
  }

  /** A successor already visited adds nothing to the books. */
  lemma TriedSkip(initial: seq<State>, goals: set<State>, succ: seq<seq<State>>, i: nat,
                  queue: seq<(seq<State>, seq<string>)>, enqueued: seq<seq<State>>,
                  visited: set<seq<State>>, head: nat, queue': seq<(seq<State>, seq<string>)>,
                  enqueued': seq<seq<State>>, visited': set<seq<State>>)
    requires i < |succ| && succ[i] in visited'
    requires Tried(initial, goals, succ, i, queue, enqueued, visited, head, queue', enqueued', visited')
    ensures Tried(initial, goals, succ, i + 1, queue, enqueued, visited, head, queue', enqueued', visited')
  {
    var made := succ[..i];
    assert succ[..i + 1] == made + [succ[i]];
    GrewMore(goals, made, made + [succ[i]], queue, enqueued, visited, queue', enqueued', visited');
  }

  /** A new successor outside the goal set is visited and enqueued. */
  lemma TriedPush(initial: seq<State>, goals: set<State>, succ: seq<seq<State>>, i: nat,
                  queue: seq<(seq<State>, seq<string>)>, enqueued: seq<seq<State>>,
                  visited: set<seq<State>>, head: nat, queue': seq<(seq<State>, seq<string>)>,
                  enqueued': seq<seq<State>>, visited': set<seq<State>>, entry: (seq<State>, seq<string>))
    requires i < |succ| && entry.0 == succ[i]
    requires entry.0 !in visited' && !AllIn(entry.0, goals) && Tracks(initial, entry.0, entry.1)
    requires Tried(initial, goals, succ, i, queue, enqueued, visited, head, queue', enqueued', visited')
    ensures Tried(initial, goals, succ, i + 1, queue, enqueued, visited, head,
                  queue' + [entry], enqueued' + [entry.0], visited' + {entry.0})
  {
    var made := succ[..i];
    assert succ[..i + 1] == made + [entry.0];
    EnqueueKeeps(queue', enqueued', head, visited', entry);
    GrewPush(goals, made, queue, enqueued, visited, queue', enqueued', visited', entry);
  }

  /** When the search ends, the books hold for all the successors. */
  lemma TriedFound(initial: seq<State>, goals: set<State>, succ: seq<seq<State>>, i: nat,
                   queue: seq<(seq<State>, seq<string>)>, enqueued: seq<seq<State>>,
                   visited: set<seq<State>>, head: nat, queue': seq<(seq<State>, seq<string>)>,
                   enqueued': seq<seq<State>>, visited': set<seq<State>>)
    requires Tried(initial, goals, succ, i, queue, enqueued, visited, head, queue', enqueued', visited')
    ensures Grew(goals, succ, queue, enqueued, visited, queue', enqueued', visited')
  {
    GrewMore(goals, succ[..i], succ, queue, enqueued, visited, queue', enqueued', visited');
  }

  /** The loop over the four moves for one dequeued belief. A belief that is
      new and lies wholly in the goal set ends the search with its moves;
      every other new belief is marked visited and enqueued behind the
      existing queue, so the newly enqueued beliefs are exactly the newly
      visited ones, each a successor of the belief outside the goal set.
      When nothing is found, every move's successor has been visited. */
  method ExpandBelief(initial: seq<State>, goals: set<State>, belief: seq<State>, moves: seq<string>,
                      queue: seq<(seq<State>, seq<string>)>, visited: set<seq<State>>,
                      ghost enqueued: seq<seq<State>>, ghost head: nat)
    returns (found: Option<seq<string>>, queue': seq<(seq<State>, seq<string>)>,
             visited': set<seq<State>>, ghost enqueued': seq<seq<State>>, ghost succ: seq<seq<State>>)
    requires Tracks(initial, belief, moves) && AllTrack(initial, queue)
    requires Fifo(queue, enqueued, head, visited)
    ensures succ == Successors(belief)
    ensures found.Some? ==>
      (forall x :: x in initial ==> Board(x) && Replay(x, found.value) in goals) &&
      (forall m :: m in found.value ==> m in MoveNames)
    ensures found.Some? ==>
      exists j :: 0 <= j < |succ| && found.value == moves + [MoveNames[j]] &&
        succ[j] !in visited && AllIn(succ[j], goals)
    ensures AllTrack(initial, queue') && Fifo(queue', enqueued', head, visited')
    ensures Grew(goals, succ, queue, enqueued, visited, queue', enqueued', visited')
    ensures found.None? ==> forall b :: b in succ ==> b in visited'
  {
    queue', visited', enqueued' := queue, visited, enqueued;
    succ := Successors(belief);
    assert Tried(initial, goals, succ, 0, queue, enqueued, visited, head, queue', enqueued', visited');
    for i := 0 to |MoveNames|
      invariant Tried(initial, goals, succ, i, queue, enqueued, visited, head, queue', enqueued', visited')
    {
      found, queue', visited', enqueued' :=
        TryMove(initial, goals, belief, moves, i, succ, queue, enqueued, visited, head, queue', visited', enqueued');
      if found.Some? {
        return;
      }
    }
    found := None;
    assert succ[..|succ|] == succ;
  }

  /** Taking the front of the queue keeps the books. */
  lemma DequeueKeeps(initial: seq<State>, queue: seq<(seq<State>, seq<string>)>,
                     enqueued: seq<seq<State>>, head: nat, visited: set<seq<State>>)
    requires AllTrack(initial, queue) && Fifo(queue, enqueued, head, visited) && |queue| > 0
    ensures Tracks(initial, queue[0].0, queue[0].1)
    ensures AllTrack(initial, queue[1..]) && Fifo(queue[1..], enqueued, head + 1, visited)
  {
  }

  /** `find_common_path(initial_belief_states, target_goals_set)`: None for
      an empty belief, `[]` when every initial state is already a goal, and
      otherwise a list of moves that, replayed on every initial state with
      undefined moves skipped, leaves each of them in the goal set. The ghost
      `enqueued` lists the beliefs in the order they were enqueued, starting
      with the sorted initial belief, and none of them twice. */
  method FindCommonPath(initial: seq<State>, goals: set<State>)
    returns (result: Option<seq<string>>, ghost enqueued: seq<seq<State>>)
    requires forall s :: s in initial ==> Board(s)
    ensures |initial| == 0 ==> result.None?
    ensures |initial| > 0 && (forall s :: s in initial ==> s in goals) ==> result == Some([])
    ensures result.Some? ==>
      (forall x :: x in initial ==> Replay(x, result.value) in goals) &&
      (forall m :: m in result.value ==> m in MoveNames)
    ensures NoRepeats(enqueued)
    ensures |initial| > 0 && !AllIn(Canonical(initial), goals) ==>
      |enqueued| > 0 && enqueued[0] == Canonical(initial)
  {
    enqueued := [];
    if |initial| == 0 {
      return None, enqueued;
    }
    var start := Canonical(initial);
    StartTracks(initial);
    if forall s :: s in start ==> s in goals {
      return Some([]), enqueued;
    }
    var queue: seq<(seq<State>, seq<string>)> := [(start, [])];
    var visited: set<seq<State>> := {start};
    enqueued := [start];
    ghost var head: nat := 0;
    var iterations := 0;
    while |queue| > 0
      invariant AllTrack(initial, queue) && Fifo(queue, enqueued, head, visited)
      invariant |enqueued| > 0 && enqueued[0] == start
      invariant iterations <= MaxIterations
      decreases MaxIterations - iterations
    {
      iterations := iterations + 1;
      if iterations > MaxIterations {
        return None, enqueued;
      }
      var found;
      found, queue, visited, enqueued, head := Round(initial, goals, queue, visited, enqueued, head);
      if found.Some? {
        return found, enqueued;
      }
    }
    return None, enqueued;
  }

  /** The sorted initial belief holds the initial states, and tracks them
      under no moves. */
  lemma StartTracks(initial: seq<State>)
    requires forall s :: s in initial ==> Board(s)
    ensures forall s :: s in Canonical(initial) <==> s in initial
    ensures Tracks(initial, Canonical(initial), [])
  {
    var start := Canonical(initial);
    forall s ensures s in start <==> s in initial {
      assert s in start <==> s in multiset(start);
      assert s in initial <==> s in multiset(initial);
    }
  }

  /** One pass of the main loop: the front (belief, moves) is taken off the
      queue and its four moves are tried. The beliefs enqueued so far stay
      the first ones of the record. */
  method Round(initial: seq<State>, goals: set<State>, queue: seq<(seq<State>, seq<string>)>,
               visited: set<seq<State>>, ghost enqueued: seq<seq<State>>, ghost head: nat)
    returns (found: Option<seq<string>>, queue': seq<(seq<State>, seq<string>)>,
             visited': set<seq<State>>, ghost enqueued': seq<seq<State>>, ghost head': nat)
    requires AllTrack(initial, queue) && Fifo(queue, enqueued, head, visited) && |queue| > 0
    ensures found.Some? ==>
      (forall x :: x in initial ==> Board(x) && Replay(x, found.value) in goals) &&
      (forall m :: m in found.value ==> m in MoveNames)
    ensures AllTrack(initial, queue') && Fifo(queue', enqueued', head', visited')
    ensures head' == head + 1 && |enqueued| <= |enqueued'| && enqueued'[..|enqueued|] == enqueued
  {
    var belief, moves := queue[0].0, queue[0].1;
    DequeueKeeps(initial, queue, enqueued, head, visited);
    head' := head + 1;
    ghost var succ;
    found, queue', visited', enqueued', succ :=
      ExpandBelief(initial, goals, belief, moves, queue[1..], visited, enqueued, head');
  }
}

=== FILE: dfs.dfy ===
/** Depth-first search over single and double moves (`dfs_ANDOR.py`), with a
    depth limit. A state is marked visited when it is pushed, and the goal is
    tested when a state is popped. */
module DepthFirst {
  import opened Grid
  import opened Moves
  import opened StateSpace
  import opened Paths

  /** `MAX_DEPTH`: states at this depth are not expanded. */
  const MaxDepth: nat := 50

  /** The recorded depths: start is at depth 0, every other recorded state is
      one deeper than its parent, and none is deeper than the limit. */
  ghost predicate Depths(start: State, parent: map<State, Option<State>>, depth: map<State, nat>)
  {
    depth.Keys == parent.Keys && start in depth && depth[start] == 0 &&
    (forall s :: s in depth ==> depth[s] <= MaxDepth) &&
    (forall s :: s in parent && s != start && parent[s].Some? && parent[s].value in depth ==>
       depth[s] == depth[parent[s].value] + 1)
  }

  /** The stack holds visited states, each at most once, and the visited
      states are exactly those with a parent entry. */
  ghost predicate Stacked(stack: seq<State>, visited: set<State>, parent: map<State, Option<State>>) {
    NoRepeats(stack) && (forall s :: s in stack ==> s in visited) && visited == parent.Keys
  }

  ghost predicate Books(start: State, stack: seq<State>, visited: set<State>,
                        parent: map<State, Option<State>>, depth: map<State, nat>,
                        rank: map<State, nat>, clock: nat)
  {
    SearchTree(start, parent, visited, rank, clock) && Depths(start, parent, depth) &&
    Stacked(stack, visited, parent)
  }

  lemma DepthsGraft(start: State, parent: map<State, Option<State>>, depth: map<State, nat>,
                    visited: set<State>, current: State, next: State)
    requires Depths(start, parent, depth) && Hung(start, parent, visited) && visited == parent.Keys
    requires current in visited && next !in visited && depth[current] < MaxDepth
    ensures Depths(start, parent[next := Some(current)], depth[next := depth[current] + 1])
  {
  }

  lemma StackedPush(stack: seq<State>, visited: set<State>, parent: map<State, Option<State>>,
                    current: State, next: State)
    requires Stacked(stack, visited, parent) && next !in visited
    ensures Stacked(stack + [next], visited + {next}, parent[next := Some(current)])
  {
  }

  /** Pushing an unvisited neighbour of an expanded state keeps the
      bookkeeping. */
  lemma PushKeeps(start: State, stack: seq<State>, visited: set<State>,
                  parent: map<State, Option<State>>, depth: map<State, nat>,
                  rank: map<State, nat>, clock: nat, current: State, next: State)
    requires Books(start, stack, visited, parent, depth, rank, clock)
    requires current in visited && Step(current, next) && next !in visited && depth[current] < MaxDepth
    ensures Books(start, stack + [next], visited + {next}, parent[next := Some(current)],
                  depth[next := depth[current] + 1], rank[next := clock], clock + 1)
  {
    Graft(start, parent, visited, rank, clock, current, next);
    Close(start, parent[next := Some(current)], visited, rank[next := clock], clock + 1, next);
    DepthsGraft(start, parent, depth, visited, current, next);
    StackedPush(stack, visited, parent, current, next);
  }

  /** The bookkeeping right after start is pushed. */
  lemma InitKeeps(start: State)
    ensures Books(start, [start], {start}, map[start := None], map[start := 0], map[start := 0], 1)
    ensures {start} <= Universe(start)
  {
    PermutationInUniverse(start, start);
  }

  /** Popping the top of the stack keeps the bookkeeping; that state is
      visited. */
  lemma PopKeeps(start: State, stack: seq<State>, visited: set<State>,
                 parent: map<State, Option<State>>, depth: map<State, nat>,
                 rank: map<State, nat>, clock: nat)
    requires Books(start, stack, visited, parent, depth, rank, clock) && |stack| > 0
    ensures Books(start, stack[..|stack| - 1], visited, parent, depth, rank, clock)
    ensures stack[|stack| - 1] in visited
  {
  }

  /** How an expansion changes the frontier: the old stack stays below, the
      states pushed on top are exactly the newly visited ones, old parent and
      depth entries are kept, and every new state has `current` as parent
      and lies one deeper. */
  ghost predicate Pushed(current: State, stack: seq<State>, visited: set<State>,
                         parent: map<State, Option<State>>, depth: map<State, nat>, stack': seq<State>,
                         visited': set<State>, parent': map<State, Option<State>>, depth': map<State, nat>)
  {
    visited <= visited' && |stack| <= |stack'| && stack'[..|stack|] == stack &&
    Elems(stack'[|stack|..]) == visited' - visited && current in depth && current in depth' &&
    depth'[current] == depth[current] &&
    (forall t :: t in parent && t in depth ==>
       t in parent' && t in depth' && parent'[t] == parent[t] && depth'[t] == depth[t]) &&
    (forall t :: t in visited' && t !in visited ==>
       t in parent' && t in depth' && parent'[t] == Some(current) && depth'[t] == depth[current] + 1)
  }

  lemma PushedRefl(current: State, stack: seq<State>, visited: set<State>,
                   parent: map<State, Option<State>>, depth: map<State, nat>)
    requires current in depth
    ensures Pushed(current, stack, visited, parent, depth, stack, visited, parent, depth)
  {
    assert stack[|stack|..] == [];
  }

  /** Two expansion steps from the same state make one. */
  lemma PushedTrans(current: State, stack: seq<State>, visited: set<State>,
                    parent: map<State, Option<State>>, depth: map<State, nat>,
                    stack1: seq<State>, visited1: set<State>, parent1: map<State, Option<State>>,
                    depth1: map<State, nat>, stack2: seq<State>, visited2: set<State>,
                    parent2: map<State, Option<State>>, depth2: map<State, nat>)
    requires visited == parent.Keys && visited1 == parent1.Keys && depth.Keys == parent.Keys
    requires Pushed(current, stack, visited, parent, depth, stack1, visited1, parent1, depth1)
    requires Pushed(current, stack1, visited1, parent1, depth1, stack2, visited2, parent2, depth2)
    ensures Pushed(current, stack, visited, parent, depth, stack2, visited2, parent2, depth2)
  {
    var a, b := stack1[|stack|..], stack2[|stack1|..];
    assert stack2[|stack|..] == a + b;
    assert stack2[..|stack|] == stack1[..|stack|];
    ElemsAppend(a, b);
  }

  /** The first i neighbours are visited, and every newly visited state is a
      neighbour. */
  ghost predicate Swept(ns: seq<State>, i: nat, visited: set<State>, visited': set<State>) {
    (forall j :: 0 <= j < i && j < |ns| ==> ns[j] in visited') &&
    (forall t :: t in visited' && t !in visited ==> t in ns)
  }

  lemma SweptStep(ns: seq<State>, i: nat, visited: set<State>, visited': set<State>)
    requires i < |ns| && Swept(ns, i, visited, visited')
    ensures Swept(ns, i + 1, visited, visited' + {ns[i]})
  {
  }

  /** One pass of the neighbour loop: an unvisited neighbour is marked
      visited, given `current` as parent and depth one more, and pushed; a
      visited one changes nothing. */
  method Visit(start: State, current: State, next: State, stack: seq<State>, visited: set<State>,
               parent: map<State, Option<State>>, depth: map<State, nat>,
               ghost rank: map<State, nat>, ghost clock: nat)
    returns (stack': seq<State>, visited': set<State>, parent': map<State, Option<State>>,
             depth': map<State, nat>, ghost rank': map<State, nat>, ghost clock': nat)
    requires Books(start, stack, visited, parent, depth, rank, clock)
    requires current in visited && depth[current] < MaxDepth && Step(current, next)
    ensures Books(start, stack', visited', parent', depth', rank', clock')
    ensures visited' == visited + {next}
    ensures Pushed(current, stack, visited, parent, depth, stack', visited', parent', depth')
  {
    stack', visited', parent', depth', rank', clock' := stack, visited, parent, depth, rank, clock;
    PushedRefl(current, stack, visited, parent, depth);
    if next !in visited {
      PushKeeps(start, stack, visited, parent, depth, rank, clock, current, next);
      visited' := visited + {next};
      parent' := parent[next := Some(current)];
      depth' := depth[next := depth[current] + 1];
      stack' := stack + [next];
      rank', clock' := rank[next := clock], clock + 1;
      ElemsSnoc(stack[|stack|..], next);
      assert stack'[|stack|..] == stack[|stack|..] + [next];
    }
  }

  /** The neighbour loop of `solve`: every unvisited neighbour is marked
      visited, given `current` as parent and depth one more, and pushed on
      top of the stack. */
  method Expand(start: State, current: State, ns: seq<State>, stack: seq<State>, visited: set<State>,
                parent: map<State, Option<State>>, depth: map<State, nat>,
                ghost rank: map<State, nat>, ghost clock: nat)
    returns (stack': seq<State>, visited': set<State>, parent': map<State, Option<State>>,
             depth': map<State, nat>, ghost rank': map<State, nat>, ghost clock': nat)
    requires Books(start, stack, visited, parent, depth, rank, clock)
    requires current in visited && depth[current] < MaxDepth
    requires forall t :: t in ns ==> Step(current, t)
    ensures Books(start, stack', visited', parent', depth', rank', clock')
    ensures visited <= visited'
    ensures visited' == visited ==> stack' == stack
    ensures forall t :: t in ns ==> t in visited'
    ensures forall t :: t in visited' && t !in visited ==> t in ns
    ensures Pushed(current, stack, visited, parent, depth, stack', visited', parent', depth')
  {
    stack', visited', parent', depth', rank', clock' := stack, visited, parent, depth, rank, clock;
    PushedRefl(current, stack, visited, parent, depth);
    for i := 0 to |ns|
      invariant Books(start, stack', visited', parent', depth', rank', clock')
      invariant current in visited' && depth'[current] == depth[current]
      invariant Swept(ns, i, visited, visited')
      invariant Pushed(current, stack, visited, parent, depth, stack', visited', parent', depth')
    {
      var next := ns[i];
      SweptStep(ns, i, visited, visited');
      ghost var s0, v0, p0, d0 := stack', visited', parent', depth';
      stack', visited', parent', depth', rank', clock' :=
        Visit(start, current, next, stack', visited', parent', depth', rank', clock');
      PushedTrans(current, stack, visited, parent, depth, s0, v0, p0, d0, stack', visited', parent', depth');
    }
    var suffix := stack'[|stack|..];
    assert |suffix| > 0 ==> suffix[0] in Elems(suffix);
  }

  /** One iteration of the main loop: pop a state; stop if it is the goal;
      skip it at the depth limit; otherwise expand it, pushing exactly its
      unvisited neighbours on what remains of the stack. Each iteration
      either visits new states or shrinks the stack. */
  method Iterate(start: State, goal: State, stack: seq<State>, visited: set<State>,
                 parent: map<State, Option<State>>, depth: map<State, nat>,
                 ghost rank: map<State, nat>, ghost clock: nat)
    returns (found: bool, stack': seq<State>, visited': set<State>, parent': map<State, Option<State>>,
             depth': map<State, nat>, ghost rank': map<State, nat>, ghost clock': nat)
    requires Books(start, stack, visited, parent, depth, rank, clock) && |stack| > 0
    requires visited <= Universe(start)
    ensures Books(start, stack', visited', parent', depth', rank', clock')
    ensures found ==> goal in parent'
    ensures found <==> stack[|stack| - 1] == goal
    ensures Pushed(stack[|stack| - 1], stack[..|stack| - 1], visited, parent, depth, stack', visited', parent', depth')
    ensures forall t :: t in visited' && t !in visited ==> Step(stack[|stack| - 1], t)
    ensures !found && depth[stack[|stack| - 1]] < MaxDepth ==>
      forall t :: Step(stack[|stack| - 1], t) ==> t in visited'
    ensures visited' <= Universe(start)
    ensures |Universe(start) - visited'| < |Universe(start) - visited| ||
            (visited' == visited && |stack'| < |stack|)
  {
    var current := stack[|stack| - 1];
    PopKeeps(start, stack, visited, parent, depth, rank, clock);
    found, stack', visited', parent', depth', rank', clock' :=
      false, stack[..|stack| - 1], visited, parent, depth, rank, clock;
    PushedRefl(current, stack', visited, parent, depth);
    if current == goal {
      found := true;
      return;
    }
    if depth[current] >= MaxDepth {
      return;
    }
    var ns := NeighborStates(current);
    stack', visited', parent', depth', rank', clock' :=
      Expand(start, current, ns, stack', visited, parent, depth, rank, clock);
    TreeInUniverse(start, parent');
    if visited' != visited {
      Fewer(Universe(start), visited, visited');
    }
  }

  /** A path read back from the parent map ends at the depth one less than
      its length. */
  lemma {:induction false} DepthAlong(start: State, parent: map<State, Option<State>>,
                                      depth: map<State, nat>, path: seq<State>)
    requires Depths(start, parent, depth) && ParentTree(parent, start)
    requires |path| > 0 && path[0] == start && path[|path| - 1] in parent
    requires forall i :: 0 < i < |path| ==> Get(parent, path[i]) == Some(path[i - 1])
    ensures depth[path[|path| - 1]] == |path| - 1
    decreases |path|
  {
    if |path| > 1 {
      var last := path[|path| - 1];
      var init := path[..|path| - 1];
      assert parent[last] == Some(init[|init| - 1]);
      DepthAlong(start, parent, depth, init);
      if last == start {
        assert false;
      }
    }
  }

  /** `reconstruct_path(goal_state, parent)`: a solution that never exceeds
      the depth limit. */
  method TraceShallowPath(start: State, goal: State, parent: map<State, Option<State>>,
                          depth: map<State, nat>, ghost visited: set<State>,
                          ghost rank: map<State, nat>, ghost clock: nat)
    returns (path: seq<State>)
    requires SearchTree(start, parent, visited, rank, clock) && Depths(start, parent, depth)
    requires goal in parent
    ensures PathFromTo(path, start, goal) && NoRepeats(path)
    ensures |path| == depth[goal] + 1 <= MaxDepth + 1
  {
    TreeFacts(start, parent, visited, rank, clock);
    path := ReconstructPath(goal, parent, rank);
    PathInTree(parent, start, path);
    DepthAlong(start, parent, depth, path);
  }

  /** `solve(start_state, goal_state)`: `[start]` when start is the goal;
      otherwise a found path runs from start to goal through successive
      neighbours and has at most `MAX_DEPTH + 1` states. */
  method Solve(start: State, goal: State) returns (result: Option<seq<State>>)
    ensures start == goal ==> result == Some([start])
    ensures result.Some? ==>
      PathFromTo(result.value, start, goal) && NoRepeats(result.value) && |result.value| <= MaxDepth + 1
  {
    if start == goal {
      return Some([start]);
    }
    var stack: seq<State> := [start];
    var visited: set<State> := {start};
    var parent: map<State, Option<State>> := map[start := None];
    var depth: map<State, nat> := map[start := 0];
    ghost var rank: map<State, nat> := map[start := 0];
    ghost var clock: nat := 1;
    InitKeeps(start);
    while |stack| > 0
      invariant Books(start, stack, visited, parent, depth, rank, clock)
      invariant visited <= Universe(start)
      decreases |Universe(start) - visited|, |stack|
    {
      var found;
      found, stack, visited, parent, depth, rank, clock :=
        Iterate(start, goal, stack, visited, parent, depth, rank, clock);
      if found {
        var path := TraceShallowPath(start, goal, parent, depth, visited, rank, clock);
        return Some(path);
      }
    }
    return None;
  }
}

=== FILE: greedy.dfy ===
/** Greedy best-first search over single and double moves
    (`greedy_ANDOR.py`). The heap becomes a multiset of (h, state) entries
    and a pop takes any entry of least h. A state is closed when popped; a
    parent entry is overwritten by every later generation of a state that is
    not yet closed. */
module Greedy {
  import opened Grid
  import opened Order
  import opened Moves
  import opened Heuristic
  import opened StateSpace
  import opened Paths

  /** A heap entry (h, state). */
  type Item = (nat, State)

  /** Every queued state has a parent entry and is queued with its Manhattan
      distance to goal. */
  ghost predicate Queued(goal: State, pq: multiset<Item>, parent: map<State, Option<State>>) {
    forall e :: e in pq ==> e.1 in parent && Manhattan(e.1, goal) == Some(e.0)
  }

  /** Start is the first state closed; until then it is the only state
      queued. */
  ghost predicate Rooted(start: State, closed: set<State>, pq: multiset<Item>) {
    start in closed || (closed == {} && forall e :: e in pq ==> e.1 == start)
  }

  ghost predicate Books(start: State, goal: State, parent: map<State, Option<State>>, closed: set<State>,
                        pq: multiset<Item>, rank: map<State, nat>, clock: nat)
  {
    SearchTree(start, parent, closed, rank, clock) && Queued(goal, pq, parent) && Rooted(start, closed, pq)
  }

  lemma QueuedWiden(goal: State, pq: multiset<Item>, parent: map<State, Option<State>>,
                    parent': map<State, Option<State>>)
    requires Queued(goal, pq, parent) && parent.Keys <= parent'.Keys
    ensures Queued(goal, pq, parent')
  {
  }

  lemma QueuedPush(goal: State, pq: multiset<Item>, parent: map<State, Option<State>>, e: Item)
    requires Queued(goal, pq, parent) && e.1 in parent && Manhattan(e.1, goal) == Some(e.0)
    ensures Queued(goal, pq + multiset{e}, parent)
  {
  }

  /** `parent[next_state] = current_state; heappush(pq, (h_next, next_state))`
      keeps the bookkeeping. */
  lemma RecordKeeps(start: State, goal: State, parent: map<State, Option<State>>, closed: set<State>,
                    pq: multiset<Item>, rank: map<State, nat>, clock: nat,
                    current: State, next: State, h: nat)
    requires Books(start, goal, parent, closed, pq, rank, clock)
    requires current in closed && Step(current, next) && next !in closed
    requires Manhattan(next, goal) == Some(h)
    ensures Books(start, goal, parent[next := Some(current)], closed, pq + multiset{(h, next)},
                  rank[next := clock], clock + 1)
  {
    Graft(start, parent, closed, rank, clock, current, next);
    QueuedWiden(goal, pq, parent, parent[next := Some(current)]);
    QueuedPush(goal, pq, parent[next := Some(current)], (h, next));
  }

  /** One pass of the neighbour loop: a closed neighbour or one with infinite
      heuristic is skipped; any other gets `current` as parent and is pushed
      with its heuristic. */
  method RelaxOne(start: State, goal: State, current: State, next: State,
                  parent: map<State, Option<State>>, closed: set<State>,
                  pq: multiset<Item>, ghost rank: map<State, nat>, ghost clock: nat)
    returns (parent': map<State, Option<State>>, pq': multiset<Item>,
             ghost rank': map<State, nat>, ghost clock': nat)
    requires Books(start, goal, parent, closed, pq, rank, clock)
    requires current in closed && Step(current, next)
    ensures Books(start, goal, parent', closed, pq', rank', clock') && pq <= pq'
    ensures next in closed || Manhattan(next, goal).None? ==> parent' == parent && pq' == pq
    ensures next !in closed && Manhattan(next, goal).Some? ==>
      parent' == parent[next := Some(current)] && pq' == pq + multiset{(Manhattan(next, goal).value, next)}
  {
    parent', pq', rank', clock' := parent, pq, rank, clock;
    if next !in closed {
      var h := ManhattanDistance(next, goal);
      if h.Some? {
        RecordKeeps(start, goal, parent, closed, pq, rank, clock, current, next, h.value);
        parent' := parent[next := Some(current)];
        pq' := pq + multiset{(h.value, next)};
        rank', clock' := rank[next := clock], clock + 1;
      }
    }
  }

  /** The neighbour loop of `solve`. Nothing leaves the heap, and closed
      states keep their parent. */
  method Relax(start: State, goal: State, current: State, ns: seq<State>,
               parent: map<State, Option<State>>, closed: set<State>,
               pq: multiset<Item>, ghost rank: map<State, nat>, ghost clock: nat)
    returns (parent': map<State, Option<State>>, pq': multiset<Item>,
             ghost rank': map<State, nat>, ghost clock': nat)
    requires Books(start, goal, parent, closed, pq, rank, clock) && current in closed
    requires forall t :: t in ns ==> Step(current, t)
    ensures Books(start, goal, parent', closed, pq', rank', clock') && pq <= pq'
    ensures forall s :: s in closed ==> parent'[s] == parent[s]
    ensures Relaxed(goal, current, ns, closed, parent, parent', pq')
  {
    parent', pq', rank', clock' := parent, pq, rank, clock;
    for i := 0 to |ns|
      invariant Books(start, goal, parent', closed, pq', rank', clock') && pq <= pq'
      invariant forall s :: s in closed ==> parent'[s] == parent[s]
      invariant Relaxed(goal, current, ns[..i], closed, parent, parent', pq')
    {
      ghost var p0, pq0 := parent', pq';
      parent', pq', rank', clock' := RelaxOne(start, goal, current, ns[i], parent', closed, pq', rank', clock');
      RelaxedNext(goal, current, ns, i, closed, parent, p0, pq0, parent', pq');
    }
    assert ns[..|ns|] == ns;
  }

  /** After relaxing the states `done` from current: every open one with a
      finite heuristic has current as parent and is queued with its
      heuristic, and every state whose parent changed is an open one of
      them. */
  ghost predicate Relaxed(goal: State, current: State, done: seq<State>, closed: set<State>,
                          parent: map<State, Option<State>>, parent': map<State, Option<State>>,
                          pq': multiset<Item>)
  {
    (forall t :: t in done && t !in closed && Manhattan(t, goal).Some? ==>
       t in parent' && parent'[t] == Some(current) && (Manhattan(t, goal).value, t) in pq') &&
    (forall t :: t in parent' && (t !in parent || parent'[t] != parent[t]) ==>
       t in done && t !in closed && parent'[t] == Some(current))
  }

  /** Relaxing one more state keeps `Relaxed`. */
  lemma RelaxedStep(goal: State, current: State, done: seq<State>, closed: set<State>,
                    parent: map<State, Option<State>>, p0: map<State, Option<State>>, pq0: multiset<Item>,
                    next: State, p1: map<State, Option<State>>, pq1: multiset<Item>)
    requires Relaxed(goal, current, done, closed, parent, p0, pq0)
    requires next in closed || Manhattan(next, goal).None? ==> p1 == p0 && pq1 == pq0
    requires next !in closed && Manhattan(next, goal).Some? ==>
      p1 == p0[next := Some(current)] && pq1 == pq0 + multiset{(Manhattan(next, goal).value, next)}
    ensures Relaxed(goal, current, done + [next], closed, parent, p1, pq1)
  {
    forall t | t in done + [next] && t !in closed && Manhattan(t, goal).Some?
      ensures t in p1 && p1[t] == Some(current) && (Manhattan(t, goal).value, t) in pq1
    {
      if t != next {
        assert t in done;
      }
    }
  }

  /** `RelaxedStep` for the pass over ns[i]. */
  lemma RelaxedNext(goal: State, current: State, ns: seq<State>, i: nat, closed: set<State>,
                    parent: map<State, Option<State>>, p0: map<State, Option<State>>, pq0: multiset<Item>,
                    p1: map<State, Option<State>>, pq1: multiset<Item>)
    requires i < |ns| && Relaxed(goal, current, ns[..i], closed, parent, p0, pq0)
    requires ns[i] in closed || Manhattan(ns[i], goal).None? ==> p1 == p0 && pq1 == pq0
    requires ns[i] !in closed && Manhattan(ns[i], goal).Some? ==>
      p1 == p0[ns[i] := Some(current)] && pq1 == pq0 + multiset{(Manhattan(ns[i], goal).value, ns[i])}
    ensures Relaxed(goal, current, ns[..i + 1], closed, parent, p1, pq1)
  {
    assert ns[..i + 1] == ns[..i] + [ns[i]];
    RelaxedStep(goal, current, ns[..i], closed, parent, p0, pq0, ns[i], p1, pq1);
  }

  /** Expanding current: every open neighbour with a finite heuristic ends
      with current as parent and is queued with its heuristic, and only open
      neighbours change parent. */
  ghost predicate Expanded(goal: State, current: State, closed: set<State>,
                           parent: map<State, Option<State>>, parent': map<State, Option<State>>,
                           pq': multiset<Item>)
  {
    (forall t :: Step(current, t) && t !in closed && Manhattan(t, goal).Some? ==>
       t in parent' && parent'[t] == Some(current) && (Manhattan(t, goal).value, t) in pq') &&
    (forall t :: t in parent' && (t !in parent || parent'[t] != parent[t]) ==>
       Step(current, t) && t !in closed && parent'[t] == Some(current))
  }

  /** Relaxing a list of exactly the neighbours expands current. */
  lemma RelaxedExpanded(goal: State, current: State, ns: seq<State>, closed: set<State>,
                        parent: map<State, Option<State>>, parent': map<State, Option<State>>,
                        pq': multiset<Item>)
    requires forall t :: t in ns <==> Step(current, t)
    requires Relaxed(goal, current, ns, closed, parent, parent', pq')
    ensures Expanded(goal, current, closed, parent, parent', pq')
  {
  }

  /** Closing the popped state keeps the bookkeeping. */
  lemma CloseKeeps(start: State, goal: State, parent: map<State, Option<State>>, closed: set<State>,
                   pq: multiset<Item>, rank: map<State, nat>, clock: nat, entry: Item)
    requires Books(start, goal, parent, closed, pq, rank, clock) && entry in pq
    ensures entry.1 in parent
    ensures Books(start, goal, parent, closed + {entry.1}, pq - multiset{entry}, rank, clock)
  {
    Close(start, parent, closed, rank, clock, entry.1);
  }

  /** One iteration of the main loop: pop an entry of least h; skip it if its
      state is closed; otherwise close it and, unless it is the goal, relax its
      neighbours. Each iteration either closes a new state or shrinks the
      heap. */
  method Iterate(start: State, goal: State, parent: map<State, Option<State>>, closed: set<State>,
                 pq: multiset<Item>, ghost rank: map<State, nat>, ghost clock: nat)
    returns (found: bool, entry: Item, parent': map<State, Option<State>>, closed': set<State>,
             pq': multiset<Item>, ghost rank': map<State, nat>, ghost clock': nat)
    requires Books(start, goal, parent, closed, pq, rank, clock) && |pq| > 0
    requires closed <= Universe(start)
    ensures Books(start, goal, parent', closed', pq', rank', clock')
    ensures entry in pq && forall x :: x in pq ==> entry.0 <= x.0
    ensures entry.1 in closed ==> !found && closed' == closed && parent' == parent && pq' == pq - multiset{entry}
    ensures entry.1 !in closed ==> closed' == closed + {entry.1} && (found <==> entry.1 == goal)
    ensures entry.1 !in closed && entry.1 != goal ==>
      pq - multiset{entry} <= pq' && Expanded(goal, entry.1, closed', parent, parent', pq')
    ensures found ==> goal in parent'
    ensures found <==> goal in closed' - closed
    ensures closed' <= Universe(start)
    ensures |Universe(start) - closed'| < |Universe(start) - closed| ||
            (closed' == closed && |pq'| < |pq|)
  {
    ghost var least := MinBy(pq, (x: Item) => x.0);
    entry :| entry in pq && forall x :: x in pq ==> entry.0 <= x.0;
    found, parent', closed', pq', rank', clock' := false, parent, closed, pq - multiset{entry}, rank, clock;
    if entry.1 in closed {
      return;
    }
    found, parent', closed', pq', rank', clock' := Settle(start, goal, parent, closed, pq, rank, clock, entry);
  }

  /** The rest of an iteration once the popped state is not closed: close
      it, stop if it is the goal, and otherwise relax its neighbours. */
  method Settle(start: State, goal: State, parent: map<State, Option<State>>, closed: set<State>,
                pq: multiset<Item>, ghost rank: map<State, nat>, ghost clock: nat, entry: Item)
    returns (found: bool, parent': map<State, Option<State>>, closed': set<State>, pq': multiset<Item>,
             ghost rank': map<State, nat>, ghost clock': nat)
    requires Books(start, goal, parent, closed, pq, rank, clock) && entry in pq && entry.1 !in closed
    requires closed <= Universe(start)
    ensures Books(start, goal, parent', closed', pq', rank', clock')
    ensures closed' == closed + {entry.1}
    ensures found <==> entry.1 == goal
    ensures found ==> goal in parent' && parent' == parent && pq' == pq - multiset{entry}
    ensures !found ==> pq - multiset{entry} <= pq' && Expanded(goal, entry.1, closed', parent, parent', pq')
    ensures found <==> goal in closed' - closed
    ensures closed' <= Universe(start) && |Universe(start) - closed'| < |Universe(start) - closed|
  {
    var current := entry.1;
    CloseKeeps(start, goal, parent, closed, pq, rank, clock, entry);
    TreeInUniverse(start, parent);
    Fewer(Universe(start), closed, closed + {current});
    found, parent', closed', pq', rank', clock' := false, parent, closed + {current}, pq - multiset{entry}, rank, clock;
    if current == goal {
      found := true;
      return;
    }
    var ns := NeighborStates(current);
    parent', pq', rank', clock' := Relax(start, goal, current, ns, parent, closed', pq', rank, clock);
    RelaxedExpanded(goal, current, ns, closed', parent, parent', pq');
  }

  /** `solve(start_state, goal_state)`: None when start has no finite
      heuristic; otherwise a found path runs from start to goal through
      successive neighbours. The goal is tested when popped. */
  method Solve(start: State, goal: State) returns (result: Option<seq<State>>)
    ensures Manhattan(start, goal).None? ==> result.None?
    ensures result.Some? ==> PathFromTo(result.value, start, goal) && NoRepeats(result.value)
  {
    var startH := ManhattanDistance(start, goal);
    if startH.None? {
      return None;
    }
    var pq: multiset<Item> := multiset{(startH.value, start)};
    var parent: map<State, Option<State>> := map[start := None];
    var closed: set<State> := {};
    ghost var rank: map<State, nat> := map[start := 0];
    ghost var clock: nat := 1;
    while |pq| > 0
      invariant Books(start, goal, parent, closed, pq, rank, clock)
      invariant closed <= Universe(start)
      decreases |Universe(start) - closed|, |pq|
    {
      var found, entry;
      found, entry, parent, closed, pq, rank, clock := Iterate(start, goal, parent, closed, pq, rank, clock);
      if found {
        var path := TracePath(start, goal, parent, closed, rank, clock);
        return Some(path);
      }
    }
    return None;
  }
}

=== FILE: grid.dfy ===
/** Board geometry shared by every searcher: states, square boards, the blank
    convention, cell coordinates and the four slide directions. */
module Grid {

  datatype Option<T> = None | Some(value: T)

  /** A puzzle configuration: one tile value per cell, row-major. */
  type State = seq<int>

  /** Floor of the square root: the board side that `int(n ** 0.5)` yields. */
  function ISqrt(n: nat): (r: nat)
    ensures r * r <= n < (r + 1) * (r + 1)
  {
    ISqrtFrom(n, 0)
  }

  function ISqrtFrom(n: nat, k: nat): (r: nat)
    requires k * k <= n
    ensures r * r <= n < (r + 1) * (r + 1)
    decreases n - k
  {
    if (k + 1) * (k + 1) > n then k
    else
      assert k + 1 <= (k + 1) * (k + 1);
      ISqrtFrom(n, k + 1)
  }

  lemma SquareMono(a: nat, b: nat)
    ensures a <= b ==> a * a <= b * b
  {
    if a <= b {
      assert a * a <= a * b <= b * b;
    }
  }

  /** The square root of a perfect square is its side. */
  lemma ISqrtOfSquare(s: nat)
    ensures ISqrt(s * s) == s
  {
    var r := ISqrt(s * s);
    SquareMono(r + 1, s);
    SquareMono(s + 1, r);
  }

  /** n cells form a square board. */
  predicate SquareLen(n: nat) {
    ISqrt(n) * ISqrt(n) == n
  }

  /** First index of x in s, as `list.index` finds it (None where it raises). */
  function IndexOf(s: seq<int>, x: int): (r: Option<nat>)
    ensures r.None? <==> x !in s
    ensures r.Some? ==> r.value < |s| && s[r.value] == x && x !in s[..r.value]
  {
    if |s| == 0 then None
    else if s[0] == x then Some(0)
    else match IndexOf(s[1..], x)
      case None => None
      case Some(i) =>
        assert s[..i + 1] == [s[0]] + s[1..][..i];
        Some(i + 1)
  }

  /** Last index of x in s: the position a `{tile: i for i, tile in enumerate(s)}`
      dictionary keeps for x. */
  function LastIndexOf(s: seq<int>, x: int): (r: Option<nat>)
    ensures r.None? <==> x !in s
    ensures r.Some? ==> r.value < |s| && s[r.value] == x && x !in s[r.value + 1..]
  {
    if |s| == 0 then None
    else if s[|s| - 1] == x then Some(|s| - 1)
    else
      assert s == s[..|s| - 1] + [s[|s| - 1]];
      match LastIndexOf(s[..|s| - 1], x)
      case None => None
      case Some(i) =>
        assert s[i + 1..] == s[..|s| - 1][i + 1..] + [s[|s| - 1]];
        Some(i)
  }

  /** In a sequence without repeated elements the first and last positions agree. */
  lemma FirstIsLast(s: seq<int>, x: int)
    requires forall i, j :: 0 <= i < j < |s| ==> s[i] != s[j]
    ensures IndexOf(s, x) == LastIndexOf(s, x)
  {
    match IndexOf(s, x)
    case None =>
    case Some(i) =>
      var l := LastIndexOf(s, x).value;
      assert s[i] == s[l];
  }

  /** The list with cells i and j exchanged (`s[i], s[j] = s[j], s[i]`). */
  function Swap(s: State, i: nat, j: nat): (r: State)
    requires i < |s| && j < |s|
    ensures |r| == |s| && r[i] == s[j] && r[j] == s[i]
    ensures forall k :: 0 <= k < |s| && k != i && k != j ==> r[k] == s[k]
    ensures multiset(r) == multiset(s)
  {
    s[i := s[j]][j := s[i]]
  }

  /** Exchanging the same two cells again restores the list. */
  lemma SwapBack(s: State, i: nat, j: nat)
    requires i < |s| && j < |s|
    ensures Swap(Swap(s, i, j), j, i) == s
  {
    var r := Swap(Swap(s, i, j), j, i);
    forall k | 0 <= k < |s| ensures r[k] == s[k] {
    }
  }

  datatype Dir = Up | Down | Left | Right

  /** Directions in the order the double-move files try them:
      (-1, 0), (1, 0), (0, -1), (0, 1). */
  const AndOrOrder: seq<Dir> := [Up, Down, Left, Right]

  function DeltaRow(d: Dir): int {
    match d
    case Up => -1
    case Down => 1
    case _ => 0
  }

  function DeltaCol(d: Dir): int {
    match d
    case Left => -1
    case Right => 1
    case _ => 0
  }

  /** The reverse slide. */
  function Opposite(d: Dir): (r: Dir)
    ensures DeltaRow(r) == -DeltaRow(d) && DeltaCol(r) == -DeltaCol(d)
  {
    match d
    case Up => Down
    case Down => Up
    case Left => Right
    case Right => Left
  }

  /** Row and column of cell i, as `divmod(i, size)` gives them. */
  function Row(size: nat, i: nat): nat
    requires size > 0
  {
    i / size
  }

  function Col(size: nat, i: nat): nat
    requires size > 0
  {
    i % size
  }

  function Abs(x: int): nat {
    if x < 0 then -x else x
  }

  /** Grid (Manhattan) distance between two cells. */
  function CellDist(size: nat, i: nat, j: nat): nat
    requires size > 0
  {
    Abs(Row(size, i) - Row(size, j)) + Abs(Col(size, i) - Col(size, j))
  }

  /** Two cells of the board are orthogonal neighbours. */
  predicate Adjacent(size: nat, i: nat, j: nat) {
    size > 0 && i < size * size && j < size * size && CellDist(size, i, j) == 1
  }

  lemma MulAtLeast(a: int, b: int)
    ensures a >= 1 && b >= 0 ==> a * b >= b
  {
  }

  /** Row r, column c is cell r * size + c. */
  lemma CellOf(size: nat, r: nat, c: nat)
    requires c < size
    ensures (r * size + c) / size == r && (r * size + c) % size == c
  {
    var n := r * size + c;
    var q, m := n / size, n % size;
    assert q * size + m == n;
    assert (q - r) * size == c - m;
    assert (r - q) * size == m - c;
    MulAtLeast(q - r, size);
    MulAtLeast(r - q, size);
  }

  /** A cell is determined by its row and column. */
  lemma CellEq(size: nat, i: nat, j: nat)
    requires size > 0
    requires Row(size, i) == Row(size, j) && Col(size, i) == Col(size, j)
    ensures i == j
  {
  }

  /** The cells of a board of side `size` are those of row < size. */
  lemma CellBound(size: nat, r: nat, c: nat)
    requires r < size && c < size
    ensures r * size + c < size * size
  {
    assert r * size <= (size - 1) * size;
  }

  lemma RowBound(size: nat, i: nat)
    requires size > 0 && i < size * size
    ensures Row(size, i) < size
  {
    var q := i / size;
    assert q * size <= i;
    assert (q - size) * size == q * size - size * size;
    MulAtLeast(q - size + 1, size);
  }

  /** The cell one slide from cell i in direction d, or None off the board
      (the `0 <= new_row < size and 0 <= new_col < size` test). */
  function Target(size: nat, i: nat, d: Dir): (r: Option<nat>)
    requires size > 0
    ensures r.Some? ==> r.value < size * size
    ensures r.Some? ==> Row(size, r.value) == Row(size, i) + DeltaRow(d)
    ensures r.Some? ==> Col(size, r.value) == Col(size, i) + DeltaCol(d)
  {
    var nr := Row(size, i) + DeltaRow(d);
    var nc := Col(size, i) + DeltaCol(d);
    if 0 <= nr < size && 0 <= nc < size then
      CellOf(size, nr, nc);
      CellBound(size, nr, nc);
      Some(nr * size + nc)
    else None
  }

  /** Every slide target is an orthogonal neighbour, and every orthogonal
      neighbour of an on-board cell is the target of exactly the slide whose
      offset separates them. */
  lemma {:induction false} TargetIsAdjacent(size: nat, i: nat, d: Dir)
    requires size > 0 && i < size * size
    ensures Target(size, i, d).Some? ==> Adjacent(size, i, Target(size, i, d).value)
  {
  }

  lemma {:induction false} AdjacentIsTarget(size: nat, i: nat, j: nat) returns (d: Dir)
    requires Adjacent(size, i, j)
    ensures Target(size, i, d) == Some(j)
  {
    RowBound(size, i);
    RowBound(size, j);
    if Row(size, i) == Row(size, j) {
      d := if Col(size, j) < Col(size, i) then Left else Right;
    } else {
      d := if Row(size, j) < Row(size, i) then Up else Down;
    }
    var t := Target(size, i, d);
    assert t.Some?;
    CellEq(size, t.value, j);
  }

  /** Adjacency is symmetric. */
  lemma AdjacentSymmetric(size: nat, i: nat, j: nat)
    requires Adjacent(size, i, j)
    ensures Adjacent(size, j, i)
  {
  }
}

=== FILE: heuristic.dfy ===
/** The Manhattan-distance heuristic. The double-move files share one
    `manhattan_distance`, which answers `float('inf')` (here None) for a list
    that is not a square board, for lists of different lengths, and for a tile
    absent from the goal; the 3x3 beam search has its own fixed-size copy. */
module Heuristic {
  import opened Grid

  /** `a < b` between heuristic values, None being the infinite sentinel:
      nothing is below inf except a finite value, and inf is below nothing. */
  predicate Below(a: Option<nat>, b: Option<nat>) {
    a.Some? && (b.None? || a.value < b.value)
  }

  /** Adds a finite amount to a possibly infinite one. */
  function Plus(a: nat, b: Option<nat>): (r: Option<nat>)
    ensures r.None? <==> b.None?
    ensures r.Some? ==> r.value == a + b.value
  {
    match b
    case None => None
    case Some(x) => Some(a + x)
  }

  /** Distance of each non-blank tile of s at cells i.. from the cell where the
      goal list holds it, summed; None once a tile is missing from the goal.
      The goal cell of a tile is its last position in the goal, as a dictionary
      built by enumerating the goal keeps it. */
  function SumFrom(s: State, g: State, size: nat, blank: int, i: nat): (r: Option<nat>)
    requires i <= |s| && (size > 0 || i == |s|)
    decreases |s| - i
  {
    if i == |s| then Some(0)
    else if s[i] == blank then SumFrom(s, g, size, blank, i + 1)
    else match LastIndexOf(g, s[i])
      case None => None
      case Some(p) => Plus(CellDist(size, i, p), SumFrom(s, g, size, blank, i + 1))
  }

  /** The sum is infinite exactly when some non-blank tile from cell i on is
      missing from the goal. */
  lemma {:induction false} SumFromInfinite(s: State, g: State, size: nat, blank: int, i: nat)
    requires i <= |s| && (size > 0 || i == |s|)
    ensures SumFrom(s, g, size, blank, i).None? <==>
      exists j :: i <= j < |s| && s[j] != blank && s[j] !in g
    decreases |s| - i
  {
    if i < |s| {
      SumFromInfinite(s, g, size, blank, i + 1);
    }
  }

  /** `manhattan_distance(state, goal_state)`. */
  function Manhattan(s: State, g: State): Option<nat>
  {
    var size := ISqrt(|s|);
    if size * size != |s| || |g| != |s| then None
    else SumFrom(s, g, size, size * size, 0)
  }

  /** The distance is infinite exactly for a board that is not square, a goal
      of another length, or a non-blank tile the goal lacks. */
  lemma ManhattanInfinite(s: State, g: State)
    ensures Manhattan(s, g).None? <==>
      !SquareLen(|s|) || |g| != |s| || exists j :: 0 <= j < |s| && s[j] != |s| && s[j] !in g
  {
    if SquareLen(|s|) && |g| == |s| {
      SumFromInfinite(s, g, ISqrt(|s|), |s|, 0);
    }
  }

  /** `{tile: i for i, tile in enumerate(goal_state)}`: every goal tile mapped to
      its last position. */
  method GoalMap(g: State) returns (goalMap: map<int, nat>)
    ensures forall x :: x in goalMap <==> x in g
    ensures forall x :: x in goalMap ==> LastIndexOf(g, x) == Some(goalMap[x])
  {
    goalMap := map[];
    var k := 0;
    while k < |g|
      invariant 0 <= k <= |g|
      invariant forall x :: x in goalMap <==> x in g[..k]
      invariant forall x :: x in goalMap ==> LastIndexOf(g[..k], x) == Some(goalMap[x])
    {
      assert g[..k + 1][..k] == g[..k];
      goalMap := goalMap[g[k] := k];
      k := k + 1;
    }
    assert g[..k] == g;
  }

  /** The loop of `manhattan_distance`: a running total over the cells,
      returning None at the first tile that the goal dictionary lacks. */
  method ManhattanDistance(s: State, g: State) returns (r: Option<nat>)
    ensures r == Manhattan(s, g)
  {
    var size := ISqrt(|s|);
    if size * size != |s| || |g| != |s| {
      return None;
    }
    var blank := size * size;
    var goalMap := GoalMap(g);
    var total: nat := 0;
    var i := 0;
    while i < |s|
      invariant 0 <= i <= |s|
      invariant SumFrom(s, g, size, blank, 0) == Plus(total, SumFrom(s, g, size, blank, i))
    {
      var tile := s[i];
      if tile != blank {
        if tile !in goalMap {
          return None;
        }
        var goalPos := goalMap[tile];
        total := total + CellDist(size, i, goalPos);
      }
      i := i + 1;
    }
    return Some(total);
  }

  /** Where a tile's goal distance is zero, the goal holds that tile in the
      same cell, and that cell is the tile's last goal position. */
  lemma {:induction false} SumZero(s: State, g: State, size: nat, blank: int, i: nat)
    requires i <= |s| && (size > 0 || i == |s|)
    requires SumFrom(s, g, size, blank, i) == Some(0)
    ensures forall j :: i <= j < |s| && s[j] != blank ==> LastIndexOf(g, s[j]) == Some(j)
    decreases |s| - i
  {
    if i < |s| {
      SumZero(s, g, size, blank, i + 1);
      if s[i] != blank {
        var p := LastIndexOf(g, s[i]).value;
        CellEq(size, i, p);
      }
    }
  }

  /** A goal with no repeated tile is at distance zero from itself. */
  lemma {:induction false} SumSelf(g: State, size: nat, blank: int, i: nat)
    requires i <= |g| && (size > 0 || i == |g|)
    requires forall a, b :: 0 <= a < b < |g| ==> g[a] != g[b]
    ensures SumFrom(g, g, size, blank, i) == Some(0)
    decreases |g| - i
  {
    if i < |g| {
      SumSelf(g, size, blank, i + 1);
      if g[i] != blank {
        assert g[i] in g;
        var p := LastIndexOf(g, g[i]).value;
        assert g[p] == g[i];
      }
    }
  }

  /** `manhattan_distance(g, g) == 0` for a square goal without repeated tiles. */
  lemma {:induction false} ManhattanSelf(g: State)
    requires SquareLen(|g|)
    requires forall a, b :: 0 <= a < b < |g| ==> g[a] != g[b]
    ensures Manhattan(g, g) == Some(0)
  {
    SumSelf(g, ISqrt(|g|), |g|, 0);
  }

  /** On a permutation of a goal without repeated tiles, the distance is zero
      exactly at the goal. */
  lemma {:induction false} ManhattanZeroIff(s: State, g: State)
    requires SquareLen(|g|) && |s| == |g| && multiset(s) == multiset(g)
    requires forall a, b :: 0 <= a < b < |g| ==> g[a] != g[b]
    ensures Manhattan(s, g) == Some(0) <==> s == g
  {
    if s == g {
      ManhattanSelf(g);
    }
    if Manhattan(s, g) == Some(0) {
      SumZero(s, g, ISqrt(|s|), |s|, 0);
      PlacedIsGoal(s, g);
    }
  }

  /** A permutation of a goal without repeated tiles that has every
      non-blank tile at its goal cell is the goal. */
  lemma PlacedIsGoal(s: State, g: State)
    requires |s| == |g| && multiset(s) == multiset(g)
    requires forall a, b :: 0 <= a < b < |g| ==> g[a] != g[b]
    requires forall j :: 0 <= j < |s| && s[j] != |s| ==> LastIndexOf(g, s[j]) == Some(j)
    ensures s == g
  {
    forall j | 0 <= j < |s| ensures g[j] == s[j] {
      assert g[j] in multiset(s);
      var k :| 0 <= k < |s| && s[k] == g[j];
      if s[k] != |s| {
        assert LastIndexOf(g, s[k]) == Some(k);
      }
    }
  }

  /** Tiles the 3x3 `heuristic` needs to find in the goal: every non-9 value
      among the first nine cells. */
  predicate Heuristic3Defined(s: State, goal: State) {
    |s| >= 9 && forall j :: 0 <= j < 9 && s[j] != 9 ==> s[j] in goal
  }

  function Heuristic3From(s: State, goal: State, i: nat): (r: nat)
    requires Heuristic3Defined(s, goal) && i <= 9
    decreases 9 - i
  {
    if i == 9 then 0
    else if s[i] == 9 then Heuristic3From(s, goal, i + 1)
    else CellDist(3, i, IndexOf(goal, s[i]).value) + Heuristic3From(s, goal, i + 1)
  }

  /** The nested `heuristic` of the 3x3 beam search: cells 0..8, tile 9
      skipped, each tile's goal cell found by `goal.index` (first position). */
  method Heuristic3(s: State, goal: State) returns (distance: nat)
    requires Heuristic3Defined(s, goal)
    ensures distance == Heuristic3From(s, goal, 0)
  {
    distance := 0;
    var i := 0;
    while i < 9
      invariant 0 <= i <= 9
      invariant distance + Heuristic3From(s, goal, i) == Heuristic3From(s, goal, 0)
    {
      if s[i] != 9 {
        var goalIndex := IndexOf(goal, s[i]).value;
        distance := distance + CellDist(3, i, goalIndex);
      }
      i := i + 1;
    }
  }

  lemma {:induction false} Heuristic3Sum(s: State, goal: State, i: nat)
    requires |s| == 9 && |goal| == 9 && Heuristic3Defined(s, goal) && i <= 9
    requires forall a, b :: 0 <= a < b < |goal| ==> goal[a] != goal[b]
    ensures SumFrom(s, goal, 3, 9, i) == Some(Heuristic3From(s, goal, i))
    decreases 9 - i
  {
    if i < 9 {
      Heuristic3Sum(s, goal, i + 1);
      Heuristic3Step(s, goal, i);
    }
  }

  /** One cell of the sum: both add the same distance for a tile. */
  lemma Heuristic3Step(s: State, goal: State, i: nat)
    requires |s| == 9 && Heuristic3Defined(s, goal) && i < 9
    requires forall a, b :: 0 <= a < b < |goal| ==> goal[a] != goal[b]
    requires SumFrom(s, goal, 3, 9, i + 1) == Some(Heuristic3From(s, goal, i + 1))
    ensures SumFrom(s, goal, 3, 9, i) == Some(Heuristic3From(s, goal, i))
  {
    if s[i] != 9 {
      FirstIsLast(goal, s[i]);
      SumStep(s, goal, 3, 9, i);
    }
  }

  /** One non-blank cell of the Manhattan sum adds its tile's distance to the
      tile's goal cell. */
  lemma SumStep(s: State, g: State, size: nat, blank: int, i: nat)
    requires i < |s| && size > 0 && s[i] != blank && s[i] in g
    ensures SumFrom(s, g, size, blank, i) ==
      Plus(CellDist(size, i, LastIndexOf(g, s[i]).value), SumFrom(s, g, size, blank, i + 1))
  {
  }

  /** On 3x3 inputs whose goal repeats no tile, the fixed-size heuristic is the
      shared Manhattan distance. */
  lemma {:induction false} Heuristic3IsManhattan(s: State, goal: State)
    requires |s| == 9 && |goal| == 9 && Heuristic3Defined(s, goal)
    requires forall a, b :: 0 <= a < b < |goal| ==> goal[a] != goal[b]
    ensures Manhattan(s, goal) == Some(Heuristic3From(s, goal, 0))
  {
    ISqrtOfSquare(3);
    Heuristic3Sum(s, goal, 0);
  }
}

=== FILE: hill_climbing.dfy ===
/** Hill climbing with restarts over single and double moves
    (`hill_climbing_ANDOR.py`). Each attempt walks from its starting state to
    a best strictly better unvisited neighbour; when there is none it counts
    a stuck iteration and takes a random unvisited neighbour instead, and it
    gives up after five stuck iterations in a row. Random draws are
    nondeterministic picks, and the coin deciding where a restart begins is
    an oracle parameter. */
module HillClimbing {
  import opened Grid
  import opened Order
  import opened Moves
  import opened Heuristic
  import opened Paths
  import opened Solvability

  /** Consecutive stuck iterations that end an attempt. */
  const StuckLimit: nat := 5

  /** The loop collecting `candidates`: the unvisited neighbours scoring
      strictly below the current score, with their scores. */
  method Better(goal: State, ns: seq<State>, visited: set<State>, currentScore: Option<nat>)
    returns (cs: seq<(State, nat)>)
    ensures forall c :: c in cs ==>
      c.0 in ns && c.0 !in visited && Manhattan(c.0, goal) == Some(c.1) && Below(Some(c.1), currentScore)
    ensures forall t :: t in ns && t !in visited && Below(Manhattan(t, goal), currentScore) ==>
      (t, Manhattan(t, goal).value) in cs
  {
    cs := [];
    for i := 0 to |ns|
      invariant forall c :: c in cs ==>
        c.0 in ns && c.0 !in visited && Manhattan(c.0, goal) == Some(c.1) && Below(Some(c.1), currentScore)
      invariant forall t :: t in ns[..i] && t !in visited && Below(Manhattan(t, goal), currentScore) ==>
        (t, Manhattan(t, goal).value) in cs
    {
      var t := ns[i];
      if t !in visited {
        var score := ManhattanDistance(t, goal);
        if Below(score, currentScore) {
          cs := cs + [(t, score.value)];
        }
      }
    }
  }

  /** `[n for n in neighbors if n not in local_visited]`. */
  method Unvisited(ns: seq<State>, visited: set<State>) returns (us: seq<State>)
    ensures forall t :: t in us <==> t in ns && t !in visited
  {
    us := [];
    for i := 0 to |ns|
      invariant forall t :: t in us <==> t in ns[..i] && t !in visited
    {
      if ns[i] !in visited {
        us := us + [ns[i]];
      }
    }
  }

  /** `sorted(candidates, key=lambda x: x[1])[0]`: the sort is stable, so
      this is the first candidate of least score. */
  method Least(cs: seq<(State, nat)>) returns (k: nat)
    requires |cs| > 0
    ensures k < |cs| && forall c :: c in cs ==> cs[k].1 <= c.1
    ensures forall j :: 0 <= j < k ==> cs[k].1 < cs[j].1
  {
    k := 0;
    for i := 1 to |cs|
      invariant k < i && forall j :: 0 <= j < i ==> cs[k].1 <= cs[j].1
      invariant forall j :: 0 <= j < k ==> cs[k].1 < cs[j].1
    {
      if cs[i].1 < cs[k].1 {
        k := i;
      }
    }
  }

  /** With the candidates complete, the least of them scores no more than any
      unvisited neighbour. */
  lemma LeastIsBest(goal: State, current: State, ns: seq<State>, visited: set<State>,
                    currentScore: Option<nat>, cs: seq<(State, nat)>, pick: (State, nat))
    requires forall t :: Step(current, t) ==> t in ns
    requires forall t :: t in ns && t !in visited && Below(Manhattan(t, goal), currentScore) ==>
      (t, Manhattan(t, goal).value) in cs
    requires forall c :: c in cs ==> pick.1 <= c.1
    requires Below(Some(pick.1), currentScore)
    ensures forall t :: Step(current, t) && t !in visited ==> !Below(Manhattan(t, goal), Some(pick.1))
  {
    forall t | Step(current, t) && t !in visited ensures !Below(Manhattan(t, goal), Some(pick.1)) {
      if Below(Manhattan(t, goal), currentScore) {
        assert (t, Manhattan(t, goal).value) in cs;
      }
    }
  }

  /** The escape move taken when no neighbour improves: any unvisited
      neighbour (`random.choice`), or None when there is none. */
  method Escape(goal: State, current: State, ns: seq<State>, visited: set<State>)
    returns (next: Option<State>, nextScore: Option<nat>)
    requires forall t :: t in ns <==> Step(current, t)
    ensures next.Some? ==>
      Step(current, next.value) && next.value !in visited && nextScore == Manhattan(next.value, goal)
    ensures next.None? ==> forall t :: Step(current, t) ==> t in visited
  {
    var us := Unvisited(ns, visited);
    if |us| == 0 {
      return None, None;
    }
    var k :| 0 <= k < |us|;
    assert us[k] in us;
    next := Some(us[k]);
    nextScore := ManhattanDistance(us[k], goal);
  }

  /** The choice of move in one iteration. With a strictly better unvisited
      neighbour, one of least score among them is taken and the stuck count
      resets; that score is then least among all unvisited neighbours.
      Otherwise the stuck count grows and, below the limit, any unvisited
      neighbour is taken. None means the attempt ends. */
  method ChooseMove(goal: State, current: State, currentScore: Option<nat>, visited: set<State>, stuck: nat)
    returns (next: Option<State>, nextScore: Option<nat>, stuck': nat)
    ensures next.Some? ==>
      Step(current, next.value) && next.value !in visited && nextScore == Manhattan(next.value, goal) &&
      stuck' < StuckLimit
    ensures stuck' == 0 ==>
      next.Some? && Below(nextScore, currentScore) &&
      forall t :: Step(current, t) && t !in visited ==> !Below(Manhattan(t, goal), nextScore)
    ensures stuck' != 0 ==>
      stuck' == stuck + 1 &&
      forall t :: Step(current, t) && t !in visited ==> !Below(Manhattan(t, goal), currentScore)
    ensures next.None? ==> stuck' >= StuckLimit || forall t :: Step(current, t) ==> t in visited
  {
    var ns := NeighborStates(current);
    var cs := Better(goal, ns, visited, currentScore);
    if |cs| > 0 {
      var k := Least(cs);
      assert cs[k] in cs;
      LeastIsBest(goal, current, ns, visited, currentScore, cs, cs[k]);
      return Some(cs[k].0), Some(cs[k].1), 0;
    }
    stuck' := stuck + 1;
    assert forall t :: Step(current, t) && t !in visited ==> !Below(Manhattan(t, goal), currentScore);
    if stuck' >= StuckLimit {
      return None, None, stuck';
    }
    next, nextScore := Escape(goal, current, ns, visited);
  }

  /** The best state so far: reached from start along some path, with its
      score. */
  ghost predicate Best(start: State, goal: State, bestState: State, bestScore: Option<nat>, bestLead: seq<State>) {
    PathFromTo(bestLead, start, bestState) && bestScore == Manhattan(bestState, goal)
  }

  /** The trail of an attempt so far, from `from` to current. */
  ghost predicate Trail(from: State, goal: State, path: seq<State>, visited: set<State>, current: State,
                        currentScore: Option<nat>)
  {
    Walk(path, from) && path[|path| - 1] == current && currentScore == Manhattan(current, goal) &&
    forall s :: s in visited <==> s in path
  }

  /** Taking the chosen move extends the trail and the path from start. */
  lemma Advance(start: State, from: State, goal: State, path: seq<State>, visited: set<State>,
                current: State, currentScore: Option<nat>, lead: seq<State>, next: State,
                nextScore: Option<nat>)
    requires Trail(from, goal, path, visited, current, currentScore) && PathFromTo(lead, start, current)
    requires Step(current, next) && next !in visited && nextScore == Manhattan(next, goal)
    ensures Trail(from, goal, path + [next], visited + {next}, next, nextScore)
    ensures PathFromTo(lead + [next], start, next)
  {
    ExtendWalk(path, from, next);
    ExtendPath(lead, start, current, next);
  }

  /** The move rule of hill climbing, for a move from `from` to `to` with
      the states in `seen` already on the trail: when some neighbour not
      seen scores strictly below `from`, the move goes to a strictly better
      neighbour of least score among those not seen; otherwise (an escape)
      none of them scored strictly below `from`. */
  ghost predicate ClimbMove(goal: State, from: State, seen: seq<State>, to: State) {
    (Below(Manhattan(to, goal), Manhattan(from, goal)) &&
     forall t :: Step(from, t) && t !in seen ==> !Below(Manhattan(t, goal), Manhattan(to, goal))) ||
    (forall t :: Step(from, t) && t !in seen ==> !Below(Manhattan(t, goal), Manhattan(from, goal)))
  }

  /** Every move of the trail follows the rule. */
  ghost predicate Climbing(p: seq<State>, goal: State) {
    forall i :: 0 <= i < |p| - 1 ==> ClimbMove(goal, p[i], p[..i + 1], p[i + 1])
  }

  /** A move chosen by the rule keeps the trail climbing. */
  lemma ClimbingExtend(p: seq<State>, goal: State, visited: set<State>, next: State)
    requires |p| > 0 && Climbing(p, goal) && forall s :: s in visited <==> s in p
    requires (Below(Manhattan(next, goal), Manhattan(p[|p| - 1], goal)) &&
              forall t :: Step(p[|p| - 1], t) && t !in visited ==> !Below(Manhattan(t, goal), Manhattan(next, goal))) ||
             (forall t :: Step(p[|p| - 1], t) && t !in visited ==> !Below(Manhattan(t, goal), Manhattan(p[|p| - 1], goal)))
    ensures Climbing(p + [next], goal)
  {
    var q := p + [next];
    forall i | 0 <= i < |q| - 1 ensures ClimbMove(goal, q[i], q[..i + 1], q[i + 1]) {
      assert q[..i + 1] == p[..i + 1];
      if i < |p| - 1 {
        assert q[i] == p[i] && q[i + 1] == p[i + 1];
      } else {
        assert p[..i + 1] == p;
      }
    }
  }

  /** The best state after an attempt's moves: no state the trail moved to
      scores strictly below it, and it is either the best from before the
      attempt or one of those states, with its score. */
  ghost predicate Tracked(goal: State, path: seq<State>, bestState: State, bestScore: Option<nat>,
                          bestState': State, bestScore': Option<nat>)
  {
    (forall k :: 1 <= k < |path| ==> !Below(Manhattan(path[k], goal), bestScore')) &&
    ((bestState' == bestState && bestScore' == bestScore) ||
     exists k :: 1 <= k < |path| && bestState' == path[k] && bestScore' == Manhattan(path[k], goal))
  }

  /** `if current_score < best_score_overall` after a move keeps `Tracked`. */
  lemma TrackedExtend(goal: State, path: seq<State>, bestState: State, bestScore: Option<nat>,
                      b0: State, s0: Option<nat>, next: State, b1: State, s1: Option<nat>)
    requires |path| > 0 && Tracked(goal, path, bestState, bestScore, b0, s0)
    requires Below(Manhattan(next, goal), s0) ==> b1 == next && s1 == Manhattan(next, goal)
    requires !Below(Manhattan(next, goal), s0) ==> b1 == b0 && s1 == s0
    ensures Tracked(goal, path + [next], bestState, bestScore, b1, s1)
  {
    var q := path + [next];
    forall k | 1 <= k < |q| ensures !Below(Manhattan(q[k], goal), s1) {
      if k < |path| {
        assert q[k] == path[k];
      }
    }
    if Below(Manhattan(next, goal), s0) {
      assert q[|path|] == next;
    } else if b0 != bestState || s0 != bestScore {
      var k :| 1 <= k < |path| && b0 == path[k] && s0 == Manhattan(path[k], goal);
      assert q[k] == path[k];
    }
  }

  /** One attempt (the inner `while`): the trail starts at `from`, never
      repeats a state, follows the move rule, and has at most
      `max_iterations + 1` states; reaching the goal ends it with `reached`.
      The best state afterwards is the best of the old one and the states
      the trail moved to. */
  method Attempt(start: State, goal: State, from: State, maxIterations: int, bestState: State,
                 bestScore: Option<nat>, ghost lead: seq<State>, ghost bestLead: seq<State>)
    returns (reached: bool, path: seq<State>, current: State, currentScore: Option<nat>,
             bestState': State, bestScore': Option<nat>, ghost bestLead': seq<State>)
    requires PathFromTo(lead, start, from) && Best(start, goal, bestState, bestScore, bestLead)
    ensures Walk(path, from) && path[|path| - 1] == current && currentScore == Manhattan(current, goal)
    ensures |path| <= Cap(maxIterations)
    ensures reached ==> current == goal
    ensures current == goal && !reached ==> |path| == 1
    ensures from == goal ==> !reached && |path| == 1 && current == from
    ensures Climbing(path, goal)
    ensures |path| == 1 ==> bestState' == bestState && bestScore' == bestScore
    ensures Best(start, goal, bestState', bestScore', bestLead') && !Below(bestScore, bestScore')
    ensures Tracked(goal, path, bestState, bestScore, bestState', bestScore')
  {
    var visited: set<State> := {from};
    var iterations: nat := 0;
    var stuck: nat := 0;
    ghost var curLead := lead;
    current := from;
    currentScore := ManhattanDistance(from, goal);
    path := [from];
    reached := false;
    bestState', bestScore', bestLead' := bestState, bestScore, bestLead;
    while current != goal && iterations < maxIterations
      invariant Trail(from, goal, path, visited, current, currentScore) && PathFromTo(curLead, start, current)
      invariant |path| == iterations + 1 && iterations <= (if maxIterations < 0 then 0 else maxIterations)
      invariant stuck < StuckLimit
      invariant Climbing(path, goal)
      invariant Best(start, goal, bestState', bestScore', bestLead') && !Below(bestScore, bestScore')
      invariant Tracked(goal, path, bestState, bestScore, bestState', bestScore')
      invariant current == goal ==> |path| == 1
      invariant from == goal ==> |path| == 1
      decreases maxIterations - iterations
    {
      iterations := iterations + 1;
      var next, nextScore;
      next, nextScore, stuck := ChooseMove(goal, current, currentScore, visited, stuck);
      if next.None? {
        break;
      }
      ClimbingExtend(path, goal, visited, next.value);
      Advance(start, from, goal, path, visited, current, currentScore, curLead, next.value, nextScore);
      ghost var b0, s0 := bestState', bestScore';
      current, currentScore := next.value, nextScore;
      if Below(currentScore, bestScore') {
        bestState', bestScore', bestLead' := current, currentScore, curLead + [current];
      }
      TrackedExtend(goal, path, bestState, bestScore, b0, s0, current, bestState', bestScore');
      path := path + [current];
      visited := visited + {current};
      curLead := curLead + [current];
      if current == goal {
        reached := true;
        return;
      }
    }
  }

  /** Where an attempt trail from start may begin, the pieces of a restart
      round. */
  ghost predicate Kept(start: State, goal: State, maxIterations: int, startScore: Option<nat>,
                       bestState: State, bestScore: Option<nat>, bestLead: seq<State>,
                       overall: seq<State>, overallLead: seq<State>)
  {
    startScore == Manhattan(start, goal) && Best(start, goal, bestState, bestScore, bestLead) &&
    (overall == [] ==> bestState == start && bestScore == startScore) &&
    (start == goal ==> overall == [] && bestState == start) &&
    (overall != [] ==>
      Walk(overall, overall[0]) && PathFromTo(overallLead, start, overall[0]) && |overall| <= Cap(maxIterations))
  }

  /** One pass of the restart loop: the attempt starts at start, or at the
      best state so far when the coin says so and that state scores below
      start; `trail` is the attempt's path. A trail that reaches the goal is
      returned; one that ends elsewhere replaces `overall_path` when that is
      still empty or ends on a higher score. */
  method Round(start: State, goal: State, maxIterations: int, startScore: Option<nat>, restart: int,
               coin: nat -> bool, bestState: State, bestScore: Option<nat>, ghost bestLead: seq<State>,
               overall: seq<State>, ghost overallLead: seq<State>)
    returns (found: Option<seq<State>>, trail: seq<State>, ghost foundLead: seq<State>, bestState': State,
             bestScore': Option<nat>, ghost bestLead': seq<State>, overall': seq<State>,
             ghost overallLead': seq<State>)
    requires Kept(start, goal, maxIterations, startScore, bestState, bestScore, bestLead, overall, overallLead)
    ensures |trail| > 0
    ensures trail[0] == if restart > 0 && coin(restart) && Below(bestScore, startScore) then bestState else start
    ensures found.Some? ==> found.value == trail && trail[|trail| - 1] == goal
    ensures found.Some? ==>
      |found.value| > 0 && Walk(found.value, found.value[0]) && found.value[|found.value| - 1] == goal &&
      |found.value| <= Cap(maxIterations) && PathFromTo(foundLead, start, found.value[0]) && start != goal
    ensures found.None? ==>
      overall' == if trail[|trail| - 1] != goal &&
                     (overall == [] || Below(Manhattan(trail[|trail| - 1], goal), Manhattan(overall[|overall| - 1], goal)))
                  then trail else overall
    ensures found.None? ==>
      Kept(start, goal, maxIterations, startScore, bestState', bestScore', bestLead', overall', overallLead')
  {
    var from := start;
    ghost var fromLead := [start];
    if restart > 0 && coin(restart) && Below(bestScore, startScore) {
      from := bestState;
      fromLead := bestLead;
    }
    var reached, current, currentScore;
    reached, trail, current, currentScore, bestState', bestScore', bestLead' :=
      Attempt(start, goal, from, maxIterations, bestState, bestScore, fromLead, bestLead);
    foundLead := fromLead;
    overall', overallLead' := overall, overallLead;
    if reached {
      found := Some(trail);
      return;
    }
    found := None;
    if current != goal {
      var lastScore := if overall == [] then None else Manhattan(overall[|overall| - 1], goal);
      if overall == [] || Below(currentScore, lastScore) {
        overall', overallLead' := trail, fromLead;
      }
    }
  }

  /** `solve(start_state, goal_state, max_iterations, max_restarts)`. An
      unsolvable pair gives None. Otherwise a result is the trail of the
      attempt that reached the goal, which begins at a state reached from
      start (start itself or the best state so far), or `[start]` alone when
      the start already scores zero and no attempt left a trail. */
  method Solve(start: State, goal: State, maxIterations: int, maxRestarts: int, coin: nat -> bool)
    returns (result: Option<seq<State>>, ghost lead: seq<State>)
    ensures !SolvablePair(start, goal) ==> result.None?
    ensures SolvablePair(start, goal) && start == goal && Manhattan(start, goal) == Some(0) ==>
      result == Some([start])
    ensures result.Some? ==>
      (|result.value| > 0 && Walk(result.value, result.value[0]) && result.value[|result.value| - 1] == goal &&
       |result.value| <= Cap(maxIterations) && PathFromTo(lead, start, result.value[0])) ||
      (result.value == [start] && Manhattan(start, goal) == Some(0))
  {
    lead := [start];
    var solvable := IsSolvablePair(start, goal);
    if !solvable {
      return None, lead;
    }
    var startScore := ManhattanDistance(start, goal);
    var bestState, bestScore := start, startScore;
    ghost var bestLead := [start];
    var overall: seq<State> := [];
    ghost var overallLead: seq<State> := [];
    var restart := 0;
    while restart < maxRestarts
      invariant Kept(start, goal, maxIterations, startScore, bestState, bestScore, bestLead, overall, overallLead)
      decreases maxRestarts - restart
    {
      var found, trail;
      found, trail, lead, bestState, bestScore, bestLead, overall, overallLead :=
        Round(start, goal, maxIterations, startScore, restart, coin, bestState, bestScore, bestLead,
              overall, overallLead);
      if found.Some? {
        return found, lead;
      }
      restart := restart + 1;
    }
    if bestScore == Some(0) && overall != [] && overall[|overall| - 1] == goal {
      return Some(overall), overallLead;
    } else if bestScore == Some(0) && overall == [] {
      return Some([start]), [start];
    }
    return None, [start];
  }
}

=== FILE: moves.dfy ===
/** The successor generators of the searchers. Every double-move searcher carries
    its own copy of `get_neighbors_with_costs`: a slide of the blank (cost 1)
    followed, from each slid position, by a second slide that does not move the
    blank back where it started (cost 2). The copies differ only in the container
    they return, so the generator is written once here and each container is a
    view of it. */
module Moves {
  import opened Grid
  import opened Order

  /** Cell of the blank, whose value is the number of cells: None when the list is
      not a square board or holds no blank (the `return []` cases). */
  function BlankIndex(s: State): (r: Option<nat>)
    ensures r.None? <==> !SquareLen(|s|) || |s| !in s
    ensures r.Some? ==> SquareLen(|s|) && ISqrt(|s|) > 0
    ensures r.Some? ==> r.value < |s| && s[r.value] == |s| && |s| !in s[..r.value]
  {
    var size := ISqrt(|s|);
    if size * size != |s| then None else IndexOf(s, size * size)
  }

  /** The blank occurs in one cell only. */
  predicate BlankUnique(s: State) {
    forall i, j :: 0 <= i < |s| && 0 <= j < |s| && s[i] == |s| && s[j] == |s| ==> i == j
  }

  /** t is s with the blank slid one cell. */
  ghost predicate SingleMove(s: State, t: State) {
    match BlankIndex(s)
    case None => false
    case Some(b) => exists j: nat {:trigger Swap(s, b, j)} :: Adjacent(ISqrt(|s|), b, j) && t == Swap(s, b, j)
  }

  /** t is s with the blank slid twice without returning to its starting cell. */
  ghost predicate DoubleMove(s: State, t: State) {
    match BlankIndex(s)
    case None => false
    case Some(b) =>
      exists j: nat, k: nat {:trigger Swap(Swap(s, b, j), j, k)} :: Adjacent(ISqrt(|s|), b, j) && Adjacent(ISqrt(|s|), j, k) && k != b &&
        t == Swap(Swap(s, b, j), j, k)
  }

  /** One edge of the search graph, of either kind. */
  ghost predicate Step(s: State, t: State) {
    SingleMove(s, t) || DoubleMove(s, t)
  }

  /** A first slide: the resulting list and the blank's new cell. */
  type Leg = (State, nat)

  /** The first slides of the blank at cell b, one per direction of ds that
      stays on the board, in the order of ds. */
  function FirstLegs(s: State, size: nat, b: nat, ds: seq<Dir>): (r: seq<Leg>)
    requires size > 0 && |s| == size * size && b < |s|
    ensures |r| <= |ds|
    ensures forall k :: 0 <= k < |r| ==>
      r[k].1 < |s| && Adjacent(size, b, r[k].1) && r[k].0 == Swap(s, b, r[k].1)
    decreases |ds|
  {
    if ds == [] then []
    else match Target(size, b, ds[0])
      case None => FirstLegs(s, size, b, ds[1..])
      case Some(j) =>
        TargetIsAdjacent(size, b, ds[0]);
        [(Swap(s, b, j), j)] + FirstLegs(s, size, b, ds[1..])
  }

  /** t is leg's list with its blank slid once more, to a cell other than `origin`. */
  ghost predicate SlideOnFrom(size: nat, origin: nat, leg: Leg, t: State)
    requires leg.1 < |leg.0|
  {
    exists k: nat {:trigger Swap(leg.0, leg.1, k)} :: Adjacent(size, leg.1, k) && k < |leg.0| && k != origin && t == Swap(leg.0, leg.1, k)
  }

  /** The second slides from one first leg, skipping the one that returns the
      blank to `origin`. */
  function SecondLegsFrom(size: nat, origin: nat, leg: Leg, ds: seq<Dir>): (r: seq<State>)
    requires size > 0 && |leg.0| == size * size && leg.1 < |leg.0|
    ensures |r| <= |ds|
    ensures forall m :: 0 <= m < |r| ==> SlideOnFrom(size, origin, leg, r[m])
    decreases |ds|
  {
    if ds == [] then []
    else
      var rest := SecondLegsFrom(size, origin, leg, ds[1..]);
      match Target(size, leg.1, ds[0])
      case None => rest
      case Some(k) =>
        if k == origin then rest
        else
          TargetIsAdjacent(size, leg.1, ds[0]);
          var t := Swap(leg.0, leg.1, k);
          assert SlideOnFrom(size, origin, leg, t);
          [t] + rest
  }

  predicate LegsFit(size: nat, legs: seq<Leg>) {
    forall m :: 0 <= m < |legs| ==> |legs[m].0| == size * size && legs[m].1 < |legs[m].0|
  }

  /** All second slides, first leg by first leg. */
  function SecondLegs(size: nat, origin: nat, legs: seq<Leg>): (r: seq<State>)
    requires size > 0 && LegsFit(size, legs)
    ensures |r| <= 4 * |legs|
    decreases |legs|
  {
    if legs == [] then []
    else SecondLegsFrom(size, origin, legs[0], AndOrOrder) + SecondLegs(size, origin, legs[1..])
  }

  function States(legs: seq<Leg>): (r: seq<State>)
    ensures |r| == |legs| && forall m :: 0 <= m < |r| ==> r[m] == legs[m].0
  {
    seq(|legs|, m requires 0 <= m < |legs| => legs[m].0)
  }

  function Tag(ts: seq<State>, cost: nat): (r: seq<(State, nat)>)
    ensures |r| == |ts| && forall m :: 0 <= m < |r| ==> r[m] == (ts[m], cost)
  {
    seq(|ts|, m requires 0 <= m < |ts| => (ts[m], cost))
  }

  /** `get_neighbors_with_costs`: the single slides tagged with cost 1, in the
      order up, down, left, right, followed by the double slides tagged with
      cost 2; empty for a list that is not a square board or has no blank. */
  function NeighborsWithCosts(s: State): (r: seq<(State, nat)>)
    ensures BlankIndex(s).None? ==> r == []
  {
    var size := ISqrt(|s|);
    if size * size != |s| then []
    else match IndexOf(s, size * size)
      case None => []
      case Some(b) =>
        var legs := FirstLegs(s, size, b, AndOrOrder);
        Tag(States(legs), 1) + Tag(SecondLegs(size, b, legs), 2)
  }

  /** The single-slide part of the generator, which every searcher lists first. */
  function Singles(s: State): (r: seq<State>)
    requires BlankIndex(s).Some?
    ensures |r| <= 4
  {
    States(FirstLegs(s, ISqrt(|s|), BlankIndex(s).value, AndOrOrder))
  }

  /** The generator's output on a board with a blank: singles, then doubles. */
  lemma NeighborsShape(s: State)
    requires BlankIndex(s).Some?
    ensures var legs := FirstLegs(s, ISqrt(|s|), BlankIndex(s).value, AndOrOrder);
      NeighborsWithCosts(s) == Tag(States(legs), 1) + Tag(SecondLegs(ISqrt(|s|), BlankIndex(s).value, legs), 2)
  {
  }

  lemma OnesSound(s: State, p: (State, nat))
    requires p in NeighborsWithCosts(s) && p.1 != 2
    ensures p.1 == 1 && SingleMove(s, p.0)
  {
    var size := ISqrt(|s|);
    var b := BlankIndex(s).value;
    var legs := FirstLegs(s, size, b, AndOrOrder);
    var ones := Tag(States(legs), 1);
    NeighborsShape(s);
    assert p in ones;
    var i :| 0 <= i < |ones| && ones[i] == p;
    assert p.0 == Swap(s, b, legs[i].1) && Adjacent(size, b, legs[i].1);
  }

  /** Every second slide built from first slides of s is a double move of s. */
  lemma SecondLegsSound(s: State, b: nat, legs: seq<Leg>, t: State)
    requires BlankIndex(s) == Some(b)
    requires forall m :: 0 <= m < |legs| ==>
      legs[m].1 < |s| && Adjacent(ISqrt(|s|), b, legs[m].1) && legs[m].0 == Swap(s, b, legs[m].1)
    requires LegsFit(ISqrt(|s|), legs) && t in SecondLegs(ISqrt(|s|), b, legs)
    ensures DoubleMove(s, t)
    decreases |legs|
  {
    var size := ISqrt(|s|);
    if t in SecondLegsFrom(size, b, legs[0], AndOrOrder) {
      SlideIsDouble(s, b, legs[0], t);
    } else {
      SecondLegsSound(s, b, legs[1..], t);
    }
  }

  lemma SlideIsDouble(s: State, b: nat, leg: Leg, t: State)
    requires BlankIndex(s) == Some(b)
    requires leg.1 < |s| && Adjacent(ISqrt(|s|), b, leg.1) && leg.0 == Swap(s, b, leg.1)
    requires t in SecondLegsFrom(ISqrt(|s|), b, leg, AndOrOrder)
    ensures DoubleMove(s, t)
  {
    var r := SecondLegsFrom(ISqrt(|s|), b, leg, AndOrOrder);
    var i :| 0 <= i < |r| && r[i] == t;
    assert SlideOnFrom(ISqrt(|s|), b, leg, t);
    var k: nat :| Adjacent(ISqrt(|s|), leg.1, k) && k < |leg.0| && k != b && t == Swap(leg.0, leg.1, k);
    DoubleWitness(s, t, b, leg.1, k);
  }

  lemma DoubleWitness(s: State, t: State, b: nat, j: nat, k: nat)
    requires BlankIndex(s) == Some(b)
    requires Adjacent(ISqrt(|s|), b, j) && Adjacent(ISqrt(|s|), j, k) && k != b
    requires j < |s| && k < |s| && t == Swap(Swap(s, b, j), j, k)
    ensures DoubleMove(s, t)
  {
  }

  lemma TwosSound(s: State, p: (State, nat))
    requires p in NeighborsWithCosts(s) && p.1 == 2
    ensures DoubleMove(s, p.0)
  {
    var size := ISqrt(|s|);
    var b := BlankIndex(s).value;
    var legs := FirstLegs(s, size, b, AndOrOrder);
    var seconds := SecondLegs(size, b, legs);
    var twos := Tag(seconds, 2);
    NeighborsShape(s);
    assert p in twos;
    var i :| 0 <= i < |twos| && twos[i] == p;
    assert p.0 == seconds[i];
    SecondLegsSound(s, b, legs, p.0);
  }

  /** A slide only rearranges the tiles. */
  lemma {:induction false} StepPermutes(s: State, t: State)
    requires Step(s, t)
    ensures multiset(t) == multiset(s) && |t| == |s|
  {
    var b := BlankIndex(s).value;
    var size := ISqrt(|s|);
    if SingleMove(s, t) {
      var j: nat :| Adjacent(size, b, j) && t == Swap(s, b, j);
    } else {
      var j: nat, k: nat :| Adjacent(size, b, j) && Adjacent(size, j, k) && k != b &&
        t == Swap(Swap(s, b, j), j, k);
    }
  }

  /** Soundness: every generated neighbour with cost 1 is one slide away,
      every one with cost 2 is two slides away, and no other cost occurs. */
  lemma {:induction false} NeighborsSound(s: State, p: (State, nat))
    requires p in NeighborsWithCosts(s)
    ensures p.1 == 1 || p.1 == 2
    ensures p.1 == 1 ==> SingleMove(s, p.0)
    ensures p.1 == 2 ==> DoubleMove(s, p.0)
    ensures multiset(p.0) == multiset(s) && |p.0| == |s|
  {
    if p.1 == 2 {
      TwosSound(s, p);
    } else {
      OnesSound(s, p);
    }
    StepPermutes(s, p.0);
  }

  lemma FirstLegsHas(s: State, size: nat, b: nat, ds: seq<Dir>, d: Dir, j: nat)
    requires size > 0 && |s| == size * size && b < |s|
    requires d in ds && Target(size, b, d) == Some(j)
    ensures (Swap(s, b, j), j) in FirstLegs(s, size, b, ds)
    decreases |ds|
  {
    if ds[0] != d {
      FirstLegsHas(s, size, b, ds[1..], d, j);
    }
  }

  lemma SecondLegsFromHas(size: nat, origin: nat, leg: Leg, ds: seq<Dir>, d: Dir, k: nat)
    requires size > 0 && |leg.0| == size * size && leg.1 < |leg.0|
    requires d in ds && Target(size, leg.1, d) == Some(k) && k != origin
    ensures Swap(leg.0, leg.1, k) in SecondLegsFrom(size, origin, leg, ds)
    decreases |ds|
  {
    if ds[0] != d {
      SecondLegsFromHas(size, origin, leg, ds[1..], d, k);
    }
  }

  lemma SecondLegsHas(size: nat, origin: nat, legs: seq<Leg>, leg: Leg, k: nat)
    requires size > 0 && LegsFit(size, legs)
    requires leg in legs && Adjacent(size, leg.1, k) && k != origin
    ensures Swap(leg.0, leg.1, k) in SecondLegs(size, origin, legs)
    decreases |legs|
  {
    if legs[0] == leg {
      var d := AdjacentIsTarget(size, leg.1, k);
      EveryDirection(d);
      SecondLegsFromHas(size, origin, leg, AndOrOrder, d, k);
    } else {
      SecondLegsHas(size, origin, legs[1..], leg, k);
    }
  }

  /** Completeness, single slides: each is generated with cost 1. */
  lemma {:induction false} SingleComplete(s: State, t: State)
    requires SingleMove(s, t)
    ensures (t, 1) in NeighborsWithCosts(s)
  {
    var size := ISqrt(|s|);
    var b := BlankIndex(s).value;
    var legs := FirstLegs(s, size, b, AndOrOrder);
    var ones := Tag(States(legs), 1);
    assert NeighborsWithCosts(s) == ones + Tag(SecondLegs(size, b, legs), 2);
    var j: nat :| Adjacent(size, b, j) && t == Swap(s, b, j);
    var d := AdjacentIsTarget(size, b, j);
    EveryDirection(d);
    FirstLegsHas(s, size, b, AndOrOrder, d, j);
    var i :| 0 <= i < |legs| && legs[i] == (t, j);
    assert ones[i] == (t, 1);
  }

  /** Completeness, double slides: each is generated with cost 2. */
  lemma {:induction false} DoubleComplete(s: State, t: State)
    requires DoubleMove(s, t)
    ensures (t, 2) in NeighborsWithCosts(s)
  {
    var size := ISqrt(|s|);
    var b := BlankIndex(s).value;
    var legs := FirstLegs(s, size, b, AndOrOrder);
    var seconds := SecondLegs(size, b, legs);
    var twos := Tag(seconds, 2);
    assert NeighborsWithCosts(s) == Tag(States(legs), 1) + twos;
    var j: nat, k: nat :| Adjacent(size, b, j) && Adjacent(size, j, k) && k != b &&
      t == Swap(Swap(s, b, j), j, k);
    var d := AdjacentIsTarget(size, b, j);
    EveryDirection(d);
    FirstLegsHas(s, size, b, AndOrOrder, d, j);
    SecondLegsHas(size, b, legs, (Swap(s, b, j), j), k);
    var i :| 0 <= i < |seconds| && seconds[i] == t;
    assert twos[i] == (t, 2);
  }

  /** No state is its own neighbour when the blank occurs once. */
  lemma {:induction false} NoSelfNeighbor(s: State)
    requires BlankUnique(s)
    ensures !Step(s, s)
  {
    match BlankIndex(s)
    case None =>
    case Some(b) =>
      var size := ISqrt(|s|);
      forall j: nat | Adjacent(size, b, j)
        ensures s != Swap(s, b, j)
      {
        assert j != b;
        assert Swap(s, b, j)[j] == |s| != s[j];
      }
      forall j: nat, k: nat | Adjacent(size, b, j) && Adjacent(size, j, k) && k != b
        ensures s != Swap(Swap(s, b, j), j, k)
      {
        assert j != b;
        assert Swap(Swap(s, b, j), j, k)[k] == |s| != s[k];
      }
  }

  /** On a board of side at least 2 every cell has a vertical and a horizontal
      neighbour. */
  lemma TwoDirections(size: nat, b: nat) returns (dv: Dir, dh: Dir)
    requires size >= 2 && b < size * size
    ensures Target(size, b, dv).Some? && Target(size, b, dh).Some?
    ensures Target(size, b, dv) != Target(size, b, dh)
  {
    RowBound(size, b);
    dv := if Row(size, b) == 0 then Down else Up;
    dh := if Col(size, b) == 0 then Right else Left;
  }

  /** With all four directions tried, a board of side at least 2 yields at least
      two first slides. */
  lemma {:induction false} FirstLegsAtLeastTwo(s: State, size: nat, b: nat, ds: seq<Dir>)
    requires size >= 2 && |s| == size * size && b < |s|
    requires Up in ds && Down in ds && Left in ds && Right in ds
    ensures |FirstLegs(s, size, b, ds)| >= 2
  {
    var dv, dh := TwoDirections(size, b);
    var v := Target(size, b, dv).value;
    var h := Target(size, b, dh).value;
    FirstLegsHas(s, size, b, ds, dv, v);
    FirstLegsHas(s, size, b, ds, dh, h);
    var legs := FirstLegs(s, size, b, ds);
    var iv :| 0 <= iv < |legs| && legs[iv] == (Swap(s, b, v), v);
    var ih :| 0 <= ih < |legs| && legs[ih] == (Swap(s, b, h), h);
    assert iv != ih;
  }

  /** A board of side at least 2 offers between two and four single slides. */
  lemma {:induction false} SinglesCount(s: State)
    requires BlankIndex(s).Some? && ISqrt(|s|) >= 2
    ensures 2 <= |Singles(s)| <= 4
  {
    FirstLegsAtLeastTwo(s, ISqrt(|s|), BlankIndex(s).value, AndOrOrder);
  }

  /** Directions in the order the 3x3 beam search tries them:
      (0, 1), (0, -1), (1, 0), (-1, 0). */
  const BeamOrder: seq<Dir> := [Right, Left, Down, Up]

  function Slides3(s: State, e: nat, ds: seq<Dir>): (r: seq<State>)
    requires e < |s| && 9 <= |s|
    ensures |r| <= |ds|
    decreases |ds|
  {
    if ds == [] then []
    else match Target(3, e, ds[0])
      case None => Slides3(s, e, ds[1..])
      case Some(j) => [Swap(s, e, j)] + Slides3(s, e, ds[1..])
  }

  /** `get_neighbors` of the 3x3 beam search: the blank is the value 9 at its
      first occurrence, and the board side is fixed at 3. */
  function Neighbors3(s: State): (r: seq<State>)
    requires 9 in s && |s| >= 9
    ensures |r| <= 4
  {
    Slides3(s, IndexOf(s, 9).value, BeamOrder)
  }

  /** Both direction orders list all four directions. */
  lemma EveryDirection(d: Dir)
    ensures d in AndOrOrder && d in BeamOrder
  {
    match d
    case Up =>
    case Down =>
    case Left =>
    case Right =>
  }

  lemma {:induction false} Slides3IsFirstLegs(s: State, e: nat, ds: seq<Dir>)
    requires |s| == 9 && e < 9
    ensures Slides3(s, e, ds) == States(FirstLegs(s, 3, e, ds))
    decreases |ds|
  {
    if ds != [] {
      Slides3IsFirstLegs(s, e, ds[1..]);
      var rest := FirstLegs(s, 3, e, ds[1..]);
      match Target(3, e, ds[0])
      case None =>
        assert FirstLegs(s, 3, e, ds) == rest;
      case Some(j) =>
        var leg := (Swap(s, e, j), j);
        assert FirstLegs(s, 3, e, ds) == [leg] + rest;
        assert Slides3(s, e, ds) == [leg.0] + States(rest);
        assert States([leg] + rest) == [leg.0] + States(rest);
    }
  }

  /** On nine cells the blank is the value 9 and the side is 3. */
  lemma Blank9(s: State)
    requires |s| == 9
    ensures ISqrt(|s|) == 3 && BlankIndex(s) == IndexOf(s, 9)
  {
    ISqrtOfSquare(3);
  }

  /** On a 3x3 board the fixed-size generator yields exactly the single slides,
      between two and four of them. */
  lemma {:induction false} Neighbors3AreSingles(s: State, t: State)
    requires |s| == 9 && 9 in s
    ensures t in Neighbors3(s) <==> SingleMove(s, t)
    ensures 2 <= |Neighbors3(s)| <= 4
  {
    Blank9(s);
    var b := IndexOf(s, 9).value;
    Slides3IsFirstLegs(s, b, BeamOrder);
    FirstLegsAtLeastTwo(s, 3, b, BeamOrder);
    if t in Neighbors3(s) {
      Neighbors3Sound(s, b, t);
    }
    if SingleMove(s, t) {
      Neighbors3Complete(s, b, t);
    }
  }

  lemma Neighbors3Sound(s: State, b: nat, t: State)
    requires |s| == 9 && ISqrt(|s|) == 3 && BlankIndex(s) == Some(b)
    requires t in States(FirstLegs(s, 3, b, BeamOrder))
    ensures SingleMove(s, t)
  {
    var legs := FirstLegs(s, 3, b, BeamOrder);
    var i :| 0 <= i < |legs| && legs[i].0 == t;
    assert Adjacent(3, b, legs[i].1) && t == Swap(s, b, legs[i].1);
  }

  lemma Neighbors3Complete(s: State, b: nat, t: State)
    requires |s| == 9 && ISqrt(|s|) == 3 && BlankIndex(s) == Some(b)
    requires SingleMove(s, t)
    ensures t in States(FirstLegs(s, 3, b, BeamOrder))
  {
    var legs := FirstLegs(s, 3, b, BeamOrder);
    var j: nat :| Adjacent(3, b, j) && t == Swap(s, b, j);
    var d := AdjacentIsTarget(3, b, j);
    EveryDirection(d);
    FirstLegsHas(s, 3, b, BeamOrder, d, j);
    var i :| 0 <= i < |legs| && legs[i] == (t, j);
    assert States(legs)[i] == t;
  }

  /** The set of neighbour states (the set-returning copies of the generator). */
  function NeighborSet(s: State): (r: set<State>)
    ensures forall t :: t in r ==> multiset(t) == multiset(s)
  {
    var ns := NeighborsWithCosts(s);
    assert forall p | p in ns :: multiset(p.0) == multiset(s) by {
      forall p | p in ns ensures multiset(p.0) == multiset(s) {
        NeighborsSound(s, p);
      }
    }
    set p | p in ns :: p.0
  }

  /** The set view holds exactly the one- and two-slide successors. */
  lemma {:induction false} NeighborSetIsStep(s: State, t: State)
    ensures t in NeighborSet(s) <==> Step(s, t)
  {
    if SingleMove(s, t) {
      SingleComplete(s, t);
    }
    if DoubleMove(s, t) {
      DoubleComplete(s, t);
    }
    if t in NeighborSet(s) {
      var p :| p in NeighborsWithCosts(s) && p.0 == t;
      NeighborsSound(s, p);
    }
  }

  /** A state is among the states of a pair list exactly when some pair
      carries it. */
  lemma StatesIn(ns: seq<(State, nat)>, t: State)
    ensures t in States(ns) <==> exists p :: p in ns && p.0 == t
  {
    var r := States(ns);
    if t in r {
      var m :| 0 <= m < |r| && r[m] == t;
      assert ns[m] in ns;
    }
    if exists p :: p in ns && p.0 == t {
      var p :| p in ns && p.0 == t;
      var m :| 0 <= m < |ns| && ns[m] == p;
      assert r[m] == t;
    }
  }

  /** The list of neighbour states with duplicates kept, in generation order
      (the beam search copy). */
  function NeighborList(s: State): (r: seq<State>)
    ensures |r| == |NeighborsWithCosts(s)|
    ensures forall t :: t in r <==> t in NeighborSet(s)
  {
    var ns := NeighborsWithCosts(s);
    assert forall t :: t in States(ns) <==> t in NeighborSet(s) by {
      forall t ensures t in States(ns) <==> t in NeighborSet(s) {
        StatesIn(ns, t);
      }
    }
    States(ns)
  }

  /** Every state of the list with duplicates is a one- or two-slide
      successor. */
  lemma NeighborListIsStep(s: State)
    ensures forall t :: t in NeighborList(s) <==> Step(s, t)
  {
    forall t ensures t in NeighborList(s) <==> Step(s, t) {
      NeighborSetIsStep(s, t);
    }
  }

  /** First cost attached to t in a generated list, the one a dictionary that
      ignores later duplicates keeps. */
  function FirstCost(ns: seq<(State, nat)>, t: State): (r: Option<nat>)
    ensures r.None? <==> forall m :: 0 <= m < |ns| ==> ns[m].0 != t
    ensures r.Some? ==> (t, r.value) in ns
  {
    if ns == [] then None
    else if ns[0].0 == t then Some(ns[0].1)
    else
      var rest := FirstCost(ns[1..], t);
      assert forall m :: 1 <= m < |ns| ==> ns[m] == ns[1..][m - 1];
      rest
  }

  /** The generated list with every state already in `seen`, or already kept,
      dropped: what filtering through an `added_states` set leaves. */
  function DedupFrom(ns: seq<(State, nat)>, seen: set<State>): (r: seq<(State, nat)>)
    ensures |r| <= |ns|
    decreases |ns|
  {
    if ns == [] then []
    else if ns[0].0 in seen then DedupFrom(ns[1..], seen)
    else [ns[0]] + DedupFrom(ns[1..], seen + {ns[0].0})
  }

  /** Filtering keeps only unseen states of the list. */
  lemma {:induction false} DedupIn(ns: seq<(State, nat)>, seen: set<State>)
    ensures forall p :: p in DedupFrom(ns, seen) ==> p in ns && p.0 !in seen
    decreases |ns|
  {
    if ns != [] {
      if ns[0].0 in seen {
        DedupIn(ns[1..], seen);
      } else {
        DedupIn(ns[1..], seen + {ns[0].0});
      }
    }
  }

  /** No state occurs twice among the pairs. */
  predicate DistinctStates(r: seq<(State, nat)>) {
    forall m, n :: 0 <= m < n < |r| ==> r[m].0 != r[n].0
  }

  /** Filtering keeps each state at most once. */
  lemma {:induction false} DedupDistinct(ns: seq<(State, nat)>, seen: set<State>)
    ensures DistinctStates(DedupFrom(ns, seen))
    decreases |ns|
  {
    if ns != [] {
      if ns[0].0 in seen {
        DedupDistinct(ns[1..], seen);
        assert DedupFrom(ns, seen) == DedupFrom(ns[1..], seen);
      } else {
        var seen' := seen + {ns[0].0};
        DedupDistinct(ns[1..], seen');
        DedupIn(ns[1..], seen');
        var rest := DedupFrom(ns[1..], seen');
        assert DedupFrom(ns, seen) == [ns[0]] + rest;
        ConsDistinct(ns[0], rest);
      }
    }
  }

  /** A pair whose state the rest lacks can go in front. */
  lemma ConsDistinct(x: (State, nat), rest: seq<(State, nat)>)
    requires DistinctStates(rest) && forall p :: p in rest ==> p.0 != x.0
    ensures DistinctStates([x] + rest)
  {
    var r := [x] + rest;
    forall m, n | 0 <= m < n < |r| ensures r[m].0 != r[n].0 {
      assert r[n] == rest[n - 1] && rest[n - 1] in rest;
      if m > 0 {
        assert r[m] == rest[m - 1];
      }
    }
  }

  /** Filtering keeps each state with the first cost the list gives it. */
  lemma {:induction false} DedupFirst(ns: seq<(State, nat)>, seen: set<State>)
    ensures forall p :: p in DedupFrom(ns, seen) ==> FirstCost(ns, p.0) == Some(p.1)
    decreases |ns|
  {
    if ns != [] {
      if ns[0].0 in seen {
        DedupFirst(ns[1..], seen);
        DedupIn(ns[1..], seen);
        forall p | p in DedupFrom(ns, seen) ensures FirstCost(ns, p.0) == Some(p.1) {
          assert p.0 != ns[0].0;
        }
      } else {
        var seen' := seen + {ns[0].0};
        DedupFirst(ns[1..], seen');
        DedupIn(ns[1..], seen');
        var rest := DedupFrom(ns[1..], seen');
        assert DedupFrom(ns, seen) == [ns[0]] + rest;
        forall p | p in rest ensures FirstCost(ns, p.0) == Some(p.1) {
          assert p.0 != ns[0].0;
        }
      }
    }
  }

  /** Filtering keeps only unseen states, each once, each with its first cost. */
  lemma DedupSound(ns: seq<(State, nat)>, seen: set<State>)
    ensures var r := DedupFrom(ns, seen);
      (forall p :: p in r ==> p in ns && p.0 !in seen) &&
      (forall m, n :: 0 <= m < n < |r| ==> r[m].0 != r[n].0) &&
      (forall p :: p in r ==> FirstCost(ns, p.0) == Some(p.1))
  {
    DedupIn(ns, seen);
    DedupDistinct(ns, seen);
    DedupFirst(ns, seen);
  }

  /** Filtering loses no state that was not seen before. */
  lemma {:induction false} DedupComplete(ns: seq<(State, nat)>, seen: set<State>, m: nat)
    requires m < |ns| && ns[m].0 !in seen
    ensures exists p :: p in DedupFrom(ns, seen) && p.0 == ns[m].0
    decreases |ns|
  {
    if m > 0 {
      if ns[0].0 in seen {
        DedupComplete(ns[1..], seen, m - 1);
      } else if ns[0].0 != ns[m].0 {
        DedupComplete(ns[1..], seen + {ns[0].0}, m - 1);
      } else {
        assert ns[0] in DedupFrom(ns, seen);
      }
    } else {
      assert ns[0] in DedupFrom(ns, seen);
    }
  }

  /** The `added_states` filter: keeps the first entry of every state. */
  method Dedup(ns: seq<(State, nat)>) returns (r: seq<(State, nat)>)
    ensures r == DedupFrom(ns, {})
  {
    var added: set<State> := {};
    r := [];
    var i := 0;
    while i < |ns|
      invariant 0 <= i <= |ns|
      invariant r + DedupFrom(ns[i..], added) == DedupFrom(ns, {})
    {
      var p := ns[i];
      assert ns[i..][1..] == ns[i + 1..];
      if p.0 !in added {
        added := added + {p.0};
        r := r + [p];
      }
      i := i + 1;
    }
  }

  /** The deduplicating copy (uniform-cost search): each neighbour state once,
      with the cost of its first generation, in generation order. */
  method DedupNeighborsWithCosts(s: State) returns (r: seq<(State, nat)>)
    ensures r == DedupFrom(NeighborsWithCosts(s), {})
    ensures forall p :: p in r ==> 1 <= p.1 <= 2 && Step(s, p.0)
  {
    r := Dedup(NeighborsWithCosts(s));
    DedupSound(NeighborsWithCosts(s), {});
    AllNeighborsSound(s);
  }

  /** The deduplicated list keeps exactly the neighbour states, once each, each
      with its first cost. */
  lemma {:induction false} DedupNeighbors(s: State)
    ensures var r := DedupFrom(NeighborsWithCosts(s), {});
      (forall m, n :: 0 <= m < n < |r| ==> r[m].0 != r[n].0) &&
      (forall t :: t in NeighborSet(s) <==> exists c :: (t, c) in r) &&
      (forall p :: p in r ==> FirstCost(NeighborsWithCosts(s), p.0) == Some(p.1))
  {
    var ns := NeighborsWithCosts(s);
    var r := DedupFrom(ns, {});
    DedupSound(ns, {});
    forall t | t in NeighborSet(s) ensures exists c :: (t, c) in r {
      var p :| p in ns && p.0 == t;
      var m :| 0 <= m < |ns| && ns[m] == p;
      DedupComplete(ns, {}, m);
      var q :| q in r && q.0 == t;
      assert (t, q.1) in r;
    }
    forall t | (exists c :: (t, c) in r) ensures t in NeighborSet(s) {
      var c :| (t, c) in r;
      assert (t, c) in ns;
    }
  }

  /** Every generated pair is a move of cost 1 or 2 to a rearrangement. */
  lemma AllNeighborsSound(s: State)
    ensures forall p :: p in NeighborsWithCosts(s) ==>
      1 <= p.1 <= 2 && Step(s, p.0) && |p.0| == |s| && multiset(p.0) == multiset(s)
  {
    forall p | p in NeighborsWithCosts(s)
      ensures 1 <= p.1 <= 2 && Step(s, p.0) && |p.0| == |s| && multiset(p.0) == multiset(s)
    {
      NeighborsSound(s, p);
    }
  }

  /** The set-based copy (breadth- and depth-first search): the neighbour set
      returned as a list, each state once, in the set's iteration order. */
  method NeighborStates(s: State) returns (r: seq<State>)
    ensures forall t :: t in r <==> Step(s, t)
    ensures forall i, j :: 0 <= i < j < |r| ==> r[i] != r[j]
  {
    r := ListOf(NeighborSet(s));
    forall t ensures t in r <==> Step(s, t) {
      NeighborSetIsStep(s, t);
    }
  }
}

=== FILE: order.dfy ===
/** Python's ordering of tuples, and the sorting and `heapq.nsmallest` built
    on it. Tuples compare element by element; the first difference decides
    and a proper prefix is smaller. */
module Order {

  /** `a <= b` for tuples of integers. */
  predicate SeqLeq(a: seq<int>, b: seq<int>)
    decreases |a|
  {
    |a| == 0 || (|b| > 0 && (a[0] < b[0] || (a[0] == b[0] && SeqLeq(a[1..], b[1..]))))
  }

  lemma {:induction false} SeqLeqTotal(a: seq<int>, b: seq<int>)
    ensures SeqLeq(a, b) || SeqLeq(b, a)
    decreases |a|
  {
    if |a| > 0 && |b| > 0 && a[0] == b[0] {
      SeqLeqTotal(a[1..], b[1..]);
    }
  }

  lemma {:induction false} SeqLeqTrans(a: seq<int>, b: seq<int>, c: seq<int>)
    requires SeqLeq(a, b) && SeqLeq(b, c)
    ensures SeqLeq(a, c)
    decreases |a|
  {
    if |a| > 0 && a[0] == b[0] && b[0] == c[0] {
      SeqLeqTrans(a[1..], b[1..], c[1..]);
    }
  }

  lemma {:induction false} SeqLeqAntisym(a: seq<int>, b: seq<int>)
    requires SeqLeq(a, b) && SeqLeq(b, a)
    ensures a == b
    decreases |a|
  {
    if |a| > 0 {
      SeqLeqAntisym(a[1..], b[1..]);
      assert a == [a[0]] + a[1..] && b == [b[0]] + b[1..];
    }
  }

  /** `a <= b` for lists of integer tuples, such as search paths. */
  predicate PathLeq(a: seq<seq<int>>, b: seq<seq<int>>)
    decreases |a|
  {
    |a| == 0 ||
    (|b| > 0 && ((a[0] != b[0] && SeqLeq(a[0], b[0])) || (a[0] == b[0] && PathLeq(a[1..], b[1..]))))
  }

  lemma {:induction false} PathLeqTotal(a: seq<seq<int>>, b: seq<seq<int>>)
    ensures PathLeq(a, b) || PathLeq(b, a)
    decreases |a|
  {
    if |a| > 0 && |b| > 0 {
      if a[0] == b[0] {
        PathLeqTotal(a[1..], b[1..]);
      } else {
        SeqLeqTotal(a[0], b[0]);
      }
    }
  }

  lemma {:induction false} PathLeqTrans(a: seq<seq<int>>, b: seq<seq<int>>, c: seq<seq<int>>)
    requires PathLeq(a, b) && PathLeq(b, c)
    ensures PathLeq(a, c)
    decreases |a|
  {
    if |a| > 0 {
      if a[0] == b[0] && b[0] == c[0] {
        PathLeqTrans(a[1..], b[1..], c[1..]);
      } else if a[0] != b[0] && b[0] != c[0] {
        SeqLeqTrans(a[0], b[0], c[0]);
        if a[0] == c[0] {
          SeqLeqAntisym(a[0], b[0]);
        }
      }
    }
  }

  lemma {:induction false} PathLeqAntisym(a: seq<seq<int>>, b: seq<seq<int>>)
    requires PathLeq(a, b) && PathLeq(b, a)
    ensures a == b
    decreases |a|
  {
    if |a| > 0 {
      if a[0] == b[0] {
        PathLeqAntisym(a[1..], b[1..]);
        assert a == [a[0]] + a[1..] && b == [b[0]] + b[1..];
      } else {
        SeqLeqAntisym(a[0], b[0]);
      }
    }
  }

  /** A beam entry `(h, state, path)`. */
  type Entry = (int, seq<int>, seq<seq<int>>)

  /** The states carried by a list of beam entries. */
  ghost function EntryStates(es: seq<Entry>): set<seq<int>> {
    set e | e in es :: e.1
  }

  /** Appending an entry adds its state. */
  lemma EntryStatesSnoc(es: seq<Entry>, x: Entry)
    ensures EntryStates(es + [x]) == EntryStates(es) + {x.1}
  {
    assert forall e :: e in es + [x] <==> e in es || e == x;
  }

  /** `x <= y` for beam entries. */
  predicate EntryLeq(x: Entry, y: Entry) {
    x.0 < y.0 ||
    (x.0 == y.0 && ((x.1 != y.1 && SeqLeq(x.1, y.1)) || (x.1 == y.1 && PathLeq(x.2, y.2))))
  }

  lemma EntryLeqTotal(x: Entry, y: Entry)
    ensures EntryLeq(x, y) || EntryLeq(y, x)
  {
    SeqLeqTotal(x.1, y.1);
    PathLeqTotal(x.2, y.2);
  }

  lemma EntryLeqTrans(x: Entry, y: Entry, z: Entry)
    requires EntryLeq(x, y) && EntryLeq(y, z)
    ensures EntryLeq(x, z)
  {
    if x.0 == y.0 == z.0 {
      if x.1 != y.1 && y.1 != z.1 {
        SeqLeqTrans(x.1, y.1, z.1);
        if x.1 == z.1 {
          SeqLeqAntisym(x.1, y.1);
        }
      } else if x.1 == y.1 == z.1 {
        PathLeqTrans(x.2, y.2, z.2);
      }
    }
  }

  lemma EntryLeqAntisym(x: Entry, y: Entry)
    requires EntryLeq(x, y) && EntryLeq(y, x)
    ensures x == y
  {
    if x.1 == y.1 {
      PathLeqAntisym(x.2, y.2);
    } else {
      SeqLeqAntisym(x.1, y.1);
    }
  }

  /** A comparison that is a total order. */
  ghost predicate TotalOrder<T(!new)>(leq: (T, T) -> bool) {
    (forall x, y :: leq(x, y) || leq(y, x)) &&
    (forall x, y, z :: leq(x, y) && leq(y, z) ==> leq(x, z)) &&
    (forall x, y :: leq(x, y) && leq(y, x) ==> x == y)
  }

  lemma SeqOrder()
    ensures TotalOrder(SeqLeq)
  {
    forall x, y ensures SeqLeq(x, y) || SeqLeq(y, x) {
      SeqLeqTotal(x, y);
    }
    forall x, y, z | SeqLeq(x, y) && SeqLeq(y, z) ensures SeqLeq(x, z) {
      SeqLeqTrans(x, y, z);
    }
    forall x, y | SeqLeq(x, y) && SeqLeq(y, x) ensures x == y {
      SeqLeqAntisym(x, y);
    }
  }

  lemma EntryOrder()
    ensures TotalOrder(EntryLeq)
  {
    forall x, y ensures EntryLeq(x, y) || EntryLeq(y, x) {
      EntryLeqTotal(x, y);
    }
    forall x, y, z | EntryLeq(x, y) && EntryLeq(y, z) ensures EntryLeq(x, z) {
      EntryLeqTrans(x, y, z);
    }
    forall x, y | EntryLeq(x, y) && EntryLeq(y, x) ensures x == y {
      EntryLeqAntisym(x, y);
    }
  }

  predicate SortedBy<T>(s: seq<T>, leq: (T, T) -> bool) {
    forall i, j :: 0 <= i < j < |s| ==> leq(s[i], s[j])
  }

  /** Places x before the first element it does not exceed. */
  function Insert<T>(x: T, s: seq<T>, leq: (T, T) -> bool): (r: seq<T>)
    ensures |r| == |s| + 1 && multiset(r) == multiset(s) + multiset{x}
    decreases |s|
  {
    if s == [] then [x]
    else if leq(x, s[0]) then [x] + s
    else
      assert s == [s[0]] + s[1..];
      [s[0]] + Insert(x, s[1..], leq)
  }

  lemma {:induction false} InsertSorted<T(!new)>(x: T, s: seq<T>, leq: (T, T) -> bool)
    requires TotalOrder(leq) && SortedBy(s, leq)
    ensures SortedBy(Insert(x, s, leq), leq)
    decreases |s|
  {
    if s != [] && !leq(x, s[0]) {
      InsertSorted(x, s[1..], leq);
      var r := Insert(x, s, leq);
      var rest := Insert(x, s[1..], leq);
      assert r == [s[0]] + rest;
      forall j | 0 < j < |r| ensures leq(s[0], r[j]) {
        assert r[j] in multiset(rest);
        assert r[j] in multiset(s[1..]) + multiset{x};
        if r[j] != x {
          var k :| 0 <= k < |s[1..]| && s[1..][k] == r[j];
          assert s[k + 1] == r[j];
        }
      }
    }
  }

  /** `sorted(s)` under a total order. */
  function SortBy<T>(s: seq<T>, leq: (T, T) -> bool): (r: seq<T>)
    ensures |r| == |s| && multiset(r) == multiset(s)
    decreases |s|
  {
    if s == [] then []
    else
      assert s == [s[0]] + s[1..];
      Insert(s[0], SortBy(s[1..], leq), leq)
  }

  lemma {:induction false} SortBySorted<T(!new)>(s: seq<T>, leq: (T, T) -> bool)
    requires TotalOrder(leq)
    ensures SortedBy(SortBy(s, leq), leq)
    decreases |s|
  {
    if s != [] {
      SortBySorted(s[1..], leq);
      InsertSorted(s[0], SortBy(s[1..], leq), leq);
    }
  }

  function Min(a: nat, b: nat): nat {
    if a <= b then a else b
  }

  /** `heapq.nsmallest(k, s)`: the first k of the sorted list. */
  function Smallest<T>(k: nat, s: seq<T>, leq: (T, T) -> bool): (r: seq<T>)
    ensures |r| == Min(k, |s|)
  {
    SortBy(s, leq)[..Min(k, |s|)]
  }

  /** The kept entries are drawn from the candidates, are sorted, and none
      exceeds a candidate that was dropped. */
  lemma {:induction false} SmallestKeepsLeast<T(!new)>(k: nat, s: seq<T>, leq: (T, T) -> bool)
    requires TotalOrder(leq)
    ensures var r := Smallest(k, s, leq);
      multiset(r) <= multiset(s) && SortedBy(r, leq) &&
      forall x, y :: x in r && y in multiset(s) - multiset(r) ==> leq(x, y)
  {
    SortBySorted(s, leq);
    PrefixKeepsLeast(s, SortBy(s, leq), Min(k, |s|), leq);
  }

  /** A prefix of a sorted permutation of s keeps the least elements of s. */
  lemma PrefixKeepsLeast<T>(s: seq<T>, sorted: seq<T>, m: nat, leq: (T, T) -> bool)
    requires multiset(sorted) == multiset(s) && SortedBy(sorted, leq) && m <= |sorted|
    ensures multiset(sorted[..m]) <= multiset(s) && SortedBy(sorted[..m], leq)
    ensures forall x, y :: x in sorted[..m] && y in multiset(s) - multiset(sorted[..m]) ==> leq(x, y)
  {
    var r := sorted[..m];
    assert sorted == r + sorted[m..];
    assert multiset(sorted) == multiset(r) + multiset(sorted[m..]);
    assert multiset(s) - multiset(r) == multiset(sorted[m..]);
    SortedHeadTail(sorted, m, leq);
  }

  /** In a sorted list, no element of a prefix exceeds one after it. */
  lemma SortedHeadTail<T>(sorted: seq<T>, m: nat, leq: (T, T) -> bool)
    requires SortedBy(sorted, leq) && m <= |sorted|
    ensures forall x, y :: x in sorted[..m] && y in multiset(sorted[m..]) ==> leq(x, y)
  {
    forall x, y | x in sorted[..m] && y in multiset(sorted[m..]) ensures leq(x, y) {
      var i :| 0 <= i < m && sorted[..m][i] == x;
      var j :| 0 <= j < |sorted[m..]| && sorted[m..][j] == y;
      assert sorted[i] == x && sorted[m + j] == y;
    }
  }

  /** `heapq.nsmallest(n, entries)`: nothing for n below one, otherwise the
      least n entries in order. The kept entries are drawn from the input,
      are sorted, and none exceeds an entry that was dropped. */
  function NSmallest(n: int, entries: seq<Entry>): (r: seq<Entry>)
    ensures |r| == Min(if n < 0 then 0 else n, |entries|)
    ensures multiset(r) <= multiset(entries) && forall e :: e in r ==> e in entries
    ensures SortedBy(r, EntryLeq)
    ensures forall x, y :: x in r && y in multiset(entries) - multiset(r) ==> EntryLeq(x, y)
  {
    var k := if n < 0 then 0 else n;
    EntryOrder();
    SmallestKeepsLeast(k, entries, EntryLeq);
    var r := Smallest(k, entries, EntryLeq);
    assert forall e :: e in r ==> e in entries by {
      forall e | e in r ensures e in entries {
        assert e in multiset(r);
      }
    }
    r
  }

  /** A non-empty priority queue holds an entry of least key: the one
      `heappop` may return. */
  lemma {:induction false} MinBy<T>(q: multiset<T>, key: T -> int) returns (e: T)
    requires |q| > 0
    ensures e in q && forall x :: x in q ==> key(e) <= key(x)
    decreases |q|
  {
    var x :| x in q;
    var rest := q - multiset{x};
    if |rest| == 0 {
      e := x;
      assert q == multiset{x};
    } else {
      var m := MinBy(rest, key);
      e := if key(x) < key(m) then x else m;
      forall y | y in q ensures key(e) <= key(y) {
        if y != x {
          assert y in rest;
        }
      }
    }
  }

  /** `list(S)`: the members of a set, each once, in an unspecified order. */
  method ListOf<T>(S: set<T>) returns (r: seq<T>)
    ensures forall x :: x in r <==> x in S
    ensures forall i, j :: 0 <= i < j < |r| ==> r[i] != r[j]
  {
    var left := S;
    r := [];
    while left != {}
      invariant left <= S
      invariant forall x :: x in r <==> x in S && x !in left
      invariant forall i, j :: 0 <= i < j < |r| ==> r[i] != r[j]
      decreases |left|
    {
      var x :| x in left;
      r := r + [x];
      left := left - {x};
    }
  }
}

=== FILE: paths.dfy ===
/** Solution paths and the parent maps they are read back from. */
module Paths {
  import opened Grid
  import opened Moves
  import opened StateSpace

  /** Successive states are one- or two-slide neighbours. */
  ghost predicate Linked(p: seq<State>) {
    forall i :: 0 <= i < |p| - 1 ==> Step(p[i], p[i + 1])
  }

  /** The elements of a sequence, as a set. */
  ghost function Elems<T>(s: seq<T>): set<T> {
    set x | x in s
  }

  /** Appending an element adds it to the set. */
  lemma ElemsSnoc<T>(s: seq<T>, x: T)
    ensures Elems(s + [x]) == Elems(s) + {x}
  {
    assert forall y :: y in s + [x] <==> y in s || y == x;
  }

  /** Concatenation unites the element sets. */
  lemma ElemsAppend<T>(a: seq<T>, b: seq<T>)
    ensures Elems(a + b) == Elems(a) + Elems(b)
  {
    assert forall y :: y in a + b <==> y in a || y in b;
  }

  /** A loop over `ns` has marked the first i of them: they are all marked,
      and every newly marked element is one of them. */
  ghost predicate Marked<T>(ns: seq<T>, i: nat, visited: set<T>, visited': set<T>) {
    i <= |ns| && visited <= visited' &&
    (forall j :: 0 <= j < i ==> ns[j] in visited') &&
    (forall t :: t in visited' && t !in visited ==> exists j :: 0 <= j < i && ns[j] == t)
  }

  lemma MarkedStep<T>(ns: seq<T>, i: nat, visited: set<T>, visited': set<T>)
    requires i < |ns| && Marked(ns, i, visited, visited')
    ensures Marked(ns, i + 1, visited, visited' + {ns[i]})
  {
  }

  /** Once the loop is over, exactly the elements of ns were marked. */
  lemma MarkedAll<T>(ns: seq<T>, visited: set<T>, visited': set<T>)
    requires Marked(ns, |ns|, visited, visited')
    ensures visited' == visited + Elems(ns)
  {
    forall t | t in visited' && t !in visited ensures t in Elems(ns) {
      var j :| 0 <= j < |ns| && ns[j] == t;
    }
  }

  /** No element (a state on a path, a belief in a queue) appears twice. */
  predicate NoRepeats<T(==)>(p: seq<T>) {
    forall i, j :: 0 <= i < j < |p| ==> p[i] != p[j]
  }

  /** A solution: a linked path from start to goal. */
  ghost predicate PathFromTo(p: seq<State>, start: State, goal: State) {
    |p| > 0 && p[0] == start && p[|p| - 1] == goal && Linked(p)
  }

  /** `parent.get(s)`. */
  function Get(parent: map<State, Option<State>>, s: State): (r: Option<State>)
    ensures r.Some? ==> s in parent && parent[s] == r
    ensures r.None? ==> s !in parent || parent[s].None?
  {
    if s in parent then parent[s] else None
  }

  /** A rank that strictly drops from each recorded state to its recorded
      parent, so following parents ends. */
  ghost predicate Ranked(parent: map<State, Option<State>>, rank: map<State, nat>) {
    forall s :: s in parent ==>
      s in rank &&
      (parent[s].Some? && parent[s].value in parent ==>
         parent[s].value in rank && rank[parent[s].value] < rank[s])
  }

  /** The parent map of a search tree rooted at start: start has no parent,
      every other recorded state has a recorded parent one step before it. */
  ghost predicate ParentTree(parent: map<State, Option<State>>, start: State) {
    start in parent && parent[start].None? &&
    forall s :: s in parent && s != start ==>
      parent[s].Some? && parent[s].value in parent && Step(parent[s].value, s)
  }

  function Reverse(s: seq<State>): (r: seq<State>)
    ensures |r| == |s| && forall i :: 0 <= i < |s| ==> r[i] == s[|s| - 1 - i]
  {
    if s == [] then [] else Reverse(s[1..]) + [s[0]]
  }

  function ChainMeasure(parent: map<State, Option<State>>, rank: map<State, nat>, current: Option<State>): nat
    requires Ranked(parent, rank)
  {
    if current.None? then 0
    else if current.value in parent then rank[current.value] + 2
    else 1
  }

  /** `reconstruct_path`: follow parents from `state` until none is recorded,
      then reverse. The result ends at `state`, begins at a state without a
      parent, and each state's recorded parent is its predecessor. */
  method ReconstructPath(state: State, parent: map<State, Option<State>>, ghost rank: map<State, nat>)
    returns (path: seq<State>)
    requires Ranked(parent, rank)
    ensures |path| > 0 && path[|path| - 1] == state
    ensures Get(parent, path[0]).None?
    ensures forall i :: 0 < i < |path| ==> Get(parent, path[i]) == Some(path[i - 1])
    ensures NoRepeats(path)
  {
    var back: seq<State> := [];
    var current: Option<State> := Some(state);
    while current.Some?
      invariant back == [] ==> current == Some(state)
      invariant back != [] ==> back[0] == state && current == Get(parent, back[|back| - 1])
      invariant forall k :: 0 <= k < |back| - 1 ==> Get(parent, back[k]) == Some(back[k + 1])
      invariant NoRepeats(back)
      invariant current.Some? && current.value in parent ==>
        forall k :: 0 <= k < |back| ==> back[k] in rank && rank[back[k]] > rank[current.value]
      invariant current.Some? ==> forall k :: 0 <= k < |back| ==> back[k] in parent
      decreases ChainMeasure(parent, rank, current)
    {
      back := back + [current.value];
      current := Get(parent, current.value);
    }
    path := Reverse(back);
  }

  /** Read back from a search tree, a path to a recorded state is a linked
      path from the root. */
  lemma {:induction false} PathInTree(parent: map<State, Option<State>>, start: State, path: seq<State>)
    requires ParentTree(parent, start)
    requires |path| > 0 && path[|path| - 1] in parent
    requires Get(parent, path[0]).None?
    requires forall i :: 0 < i < |path| ==> Get(parent, path[i]) == Some(path[i - 1])
    ensures path[0] == start && Linked(path)
  {
    if |path| > 1 {
      assert path[0] == parent[path[1]].value;
    }
  }

  /** Every recorded state is a rearrangement of start. */
  ghost predicate AllPermute(start: State, parent: map<State, Option<State>>) {
    forall s :: s in parent ==> multiset(s) == multiset(start)
  }

  /** Every recorded state but start hangs one move below a closed state. */
  ghost predicate Hung(start: State, parent: map<State, Option<State>>, closed: set<State>) {
    forall s :: s in parent && s != start ==>
      parent[s].Some? && parent[s].value in closed && Step(parent[s].value, s)
  }

  /** Timestamps below the clock that drop from child to parent. */
  ghost predicate Stamped(parent: map<State, Option<State>>, rank: map<State, nat>, clock: nat) {
    (forall s :: s in parent ==> s in rank && rank[s] < clock) &&
    (forall s :: s in parent && parent[s].Some? ==>
       parent[s].value in rank && rank[parent[s].value] < rank[s])
  }

  /** The bookkeeping shared by the tree searches: start is the root; every
      recorded state is a rearrangement of start and every other one hangs
      below a state of `closed` (one whose parent entry no longer changes)
      one move before it; and a ghost timestamp drops from child to parent. */
  ghost predicate SearchTree(start: State, parent: map<State, Option<State>>, closed: set<State>,
                             rank: map<State, nat>, clock: nat)
  {
    start in parent && parent[start].None? && closed <= parent.Keys &&
    AllPermute(start, parent) && Hung(start, parent, closed) && Stamped(parent, rank, clock)
  }

  lemma TreeFacts(start: State, parent: map<State, Option<State>>, closed: set<State>,
                  rank: map<State, nat>, clock: nat)
    requires SearchTree(start, parent, closed, rank, clock)
    ensures ParentTree(parent, start) && Ranked(parent, rank)
  {
  }

  lemma GraftPermute(start: State, parent: map<State, Option<State>>, current: State, t: State)
    requires AllPermute(start, parent) && current in parent && Step(current, t)
    ensures AllPermute(start, parent[t := Some(current)])
  {
    StepPermutes(current, t);
  }

  lemma GraftHung(start: State, parent: map<State, Option<State>>, closed: set<State>, current: State, t: State)
    requires Hung(start, parent, closed) && current in closed && Step(current, t)
    ensures Hung(start, parent[t := Some(current)], closed)
  {
  }

  lemma GraftStamped(parent: map<State, Option<State>>, closed: set<State>, rank: map<State, nat>,
                     clock: nat, current: State, t: State)
    requires Stamped(parent, rank, clock) && current in parent && current != t
    requires forall s :: s in parent && parent[s].Some? ==> parent[s].value != t
    ensures Stamped(parent[t := Some(current)], rank[t := clock], clock + 1)
  {
  }

  /** Recording `parent[t] = current` for a state t that is neither the root
      nor closed keeps the tree, t getting a fresh timestamp. */
  lemma {:induction false} Graft(start: State, parent: map<State, Option<State>>, closed: set<State>,
                                 rank: map<State, nat>, clock: nat, current: State, t: State)
    requires SearchTree(start, parent, closed, rank, clock)
    requires current in closed && Step(current, t) && t != start && t !in closed
    ensures SearchTree(start, parent[t := Some(current)], closed, rank[t := clock], clock + 1)
  {
    GraftPermute(start, parent, current, t);
    GraftHung(start, parent, closed, current, t);
    forall s | s in parent && parent[s].Some? ensures parent[s].value != t {
      if s != start {
        assert parent[s].value in closed;
      }
    }
    GraftStamped(parent, closed, rank, clock, current, t);
  }

  /** Every state recorded in the tree lies in the finite space of start. */
  lemma TreeInUniverse(start: State, parent: map<State, Option<State>>)
    requires AllPermute(start, parent)
    ensures parent.Keys <= Universe(start)
  {
    forall s | s in parent ensures s in Universe(start) {
      PermutationInUniverse(start, s);
    }
  }

  /** Closing a recorded state keeps the tree. */
  lemma Close(start: State, parent: map<State, Option<State>>, closed: set<State>,
              rank: map<State, nat>, clock: nat, current: State)
    requires SearchTree(start, parent, closed, rank, clock) && current in parent
    ensures SearchTree(start, parent, closed + {current}, rank, clock)
  {
  }

  /** The most states a trail of at most `max_iterations` moves holds: one
      more than `max_iterations`, or one when that is not positive. */
  function Cap(maxIterations: int): (r: nat)
    ensures r >= 1 && r >= maxIterations + 1
  {
    (if maxIterations < 0 then 0 else maxIterations) + 1
  }

  /** A local-search trail: from `from`, through successive neighbours,
      never repeating a state. */
  ghost predicate Walk(p: seq<State>, from: State) {
    |p| > 0 && p[0] == from && Linked(p) && NoRepeats(p)
  }

  /** Stepping to a state not yet on a trail extends it. */
  lemma ExtendWalk(p: seq<State>, from: State, next: State)
    requires Walk(p, from) && Step(p[|p| - 1], next) && next !in p
    ensures Walk(p + [next], from)
  {
    var q := p + [next];
    forall i | 0 <= i < |q| - 1 ensures Step(q[i], q[i + 1]) {
      if i < |p| - 1 {
        assert q[i] == p[i] && q[i + 1] == p[i + 1];
      }
    }
  }

  /** Stepping on from the end of a path gives a path to the new state. */
  lemma ExtendPath(p: seq<State>, start: State, s: State, next: State)
    requires PathFromTo(p, start, s) && Step(s, next)
    ensures PathFromTo(p + [next], start, next)
  {
    var q := p + [next];
    forall i | 0 <= i < |q| - 1 ensures Step(q[i], q[i + 1]) {
      if i < |p| - 1 {
        assert q[i] == p[i] && q[i + 1] == p[i + 1];
      }
    }
  }

  /** The path read back from a search tree to a recorded state is a solution
      without repeats. */
  method TracePath(start: State, goal: State, parent: map<State, Option<State>>,
                   ghost closed: set<State>, ghost rank: map<State, nat>, ghost clock: nat)
    returns (path: seq<State>)
    requires SearchTree(start, parent, closed, rank, clock) && goal in parent
    ensures PathFromTo(path, start, goal) && NoRepeats(path)
  {
    TreeFacts(start, parent, closed, rank, clock);
    path := ReconstructPath(goal, parent, rank);
    PathInTree(parent, start, path);
  }
  /** From cost map g and parent map to g' and parent' while expanding
      `current`: costs only drop, closed states keep their cost, a parent
      changes only with the cost, and a state whose cost was set or lowered
      got `current` as its parent in the same step. */
  ghost predicate Lowered(g: map<State, nat>, parent: map<State, Option<State>>,
                          g': map<State, nat>, parent': map<State, Option<State>>,
                          closed: set<State>, current: State)
    requires g.Keys == parent.Keys && g'.Keys == parent'.Keys
  {
    (forall s :: s in g ==> s in g' && g'[s] <= g[s]) &&
    (forall s :: s in closed && s in g ==> g'[s] == g[s]) &&
    (forall s :: s in g && g'[s] == g[s] ==> parent'[s] == parent[s]) &&
    (forall s :: s in g' && (s !in g || g'[s] < g[s]) ==> parent'[s] == Some(current))
  }

  lemma LoweredTrans(g0: map<State, nat>, p0: map<State, Option<State>>,
                     g1: map<State, nat>, p1: map<State, Option<State>>,
                     g2: map<State, nat>, p2: map<State, Option<State>>,
                     closed: set<State>, current: State)
    requires g0.Keys == p0.Keys && g1.Keys == p1.Keys && g2.Keys == p2.Keys
    requires Lowered(g0, p0, g1, p1, closed, current) && Lowered(g1, p1, g2, p2, closed, current)
    ensures Lowered(g0, p0, g2, p2, closed, current)
  {
  }

  lemma LoweredRefl(g: map<State, nat>, parent: map<State, Option<State>>, closed: set<State>, current: State)
    requires g.Keys == parent.Keys
    ensures Lowered(g, parent, g, parent, closed, current)
  {
  }

  lemma LoweredByRecord(g: map<State, nat>, parent: map<State, Option<State>>, closed: set<State>,
                        current: State, next: State, newG: nat)
    requires g.Keys == parent.Keys && next !in closed && (next !in g || newG < g[next])
    ensures Lowered(g, parent, g[next := newG], parent[next := Some(current)], closed, current)
  {
  }

  /** The cost map has an entry for exactly the states `parent` has, and start
      costs 0. */
  ghost predicate Costed(start: State, parent: map<State, Option<State>>, g: map<State, nat>) {
    g.Keys == parent.Keys && start in g && g[start] == 0
  }

}

=== FILE: solvability.dfy ===
/** Inversion counting and the inversion-parity solvability test of the 3x3
    puzzle (`is_solvable` in the hill-climbing files, `get_inversions` in
    `blind.py`). The blank is the tile 9 and is left out of the count. */
module Solvability {
  import opened Grid

  /** `[x for x in state if x != 9]`. */
  function Without9(s: State): (r: seq<int>)
    ensures forall x :: x in r <==> x in s && x != 9
    ensures multiset(r) == multiset(s)[9 := 0]
    ensures |r| <= |s|
  {
    if s == [] then []
    else
      assert s == [s[0]] + s[1..];
      if s[0] == 9 then Without9(s[1..]) else [s[0]] + Without9(s[1..])
  }

  /** Dropping the 9s distributes over concatenation. */
  lemma {:induction false} WithoutConcat(a: State, b: State)
    ensures Without9(a + b) == Without9(a) + Without9(b)
    decreases |a|
  {
    if a == [] {
      assert a + b == b;
    } else {
      assert (a + b)[0] == a[0] && (a + b)[1..] == a[1..] + b;
      WithoutConcat(a[1..], b);
    }
  }

  /** A list without 9s is left as it is. */
  lemma {:induction false} WithoutNone(a: State)
    requires 9 !in a
    ensures Without9(a) == a
    decreases |a|
  {
    if a != [] {
      assert a[1..] == a[1..];
      assert 9 !in a[1..] by {
        forall k | 0 <= k < |a[1..]| ensures a[1..][k] != 9 {
          assert a[1..][k] == a[k + 1];
        }
      }
      WithoutNone(a[1..]);
    }
  }

  /** Dropping the one 9 of a list that holds it at k alone. */
  lemma WithoutAt(s: State, k: nat)
    requires k < |s| && s[k] == 9 && 9 !in s[..k] && 9 !in s[k + 1..]
    ensures Without9(s) == s[..k] + s[k + 1..]
  {
    assert s == s[..k] + s[k..];
    WithoutConcat(s[..k], s[k..]);
    WithoutNone(s[..k]);
    assert s[k..][0] == 9 && s[k..][1..] == s[k + 1..];
    WithoutNone(s[k + 1..]);
  }

  /** The number of k with i < k < j and a[i] > a[k]: what the inner loop
      adds for row i once it has reached j. */
  function Later(a: seq<int>, i: nat, j: nat): nat
    requires i < |a| && j <= |a|
  {
    if j <= i + 1 then 0
    else Later(a, i, j - 1) + (if a[i] > a[j - 1] then 1 else 0)
  }

  /** The inversions whose first index is below i. */
  function InvUpTo(a: seq<int>, i: nat): nat
    requires i <= |a|
  {
    if i == 0 then 0 else InvUpTo(a, i - 1) + Later(a, i - 1, |a|)
  }

  /** The number of pairs i < j with a[i] > a[j]. */
  function Inversions(a: seq<int>): nat {
    InvUpTo(a, |a|)
  }

  /** The nested counting loop of `get_inversions` / `is_solvable`. */
  method CountInversions(a: seq<int>) returns (inversions: nat)
    ensures inversions == Inversions(a)
  {
    inversions := 0;
    for i := 0 to |a|
      invariant inversions == InvUpTo(a, i)
    {
      for j := i + 1 to |a|
        invariant inversions == InvUpTo(a, i) + Later(a, i, j)
      {
        if a[i] > a[j] {
          inversions := inversions + 1;
        }
      }
    }
  }

  lemma {:induction false} LaterZero(a: seq<int>, i: nat, j: nat)
    requires i < |a| && j <= |a|
    ensures Later(a, i, j) == 0 <==> forall k :: i < k < j ==> a[i] <= a[k]
    decreases j
  {
    if j > i + 1 {
      LaterZero(a, i, j - 1);
    }
  }

  lemma {:induction false} InvUpToZero(a: seq<int>, i: nat)
    requires i <= |a|
    ensures InvUpTo(a, i) == 0 <==> forall m, k :: 0 <= m < i && m < k < |a| ==> a[m] <= a[k]
    decreases i
  {
    if i > 0 {
      InvUpToZero(a, i - 1);
      LaterZero(a, i - 1, |a|);
    }
  }

  /** A sequence has no inversion exactly when it is in non-decreasing
      order. */
  lemma InversionsZeroIff(a: seq<int>)
    ensures Inversions(a) == 0 <==> forall m, k :: 0 <= m < k < |a| ==> a[m] <= a[k]
  {
    InvUpToZero(a, |a|);
  }

  /** `is_solvable(state, goal_state)` of the hill-climbing files: both have
      exactly eight tiles other than 9, and their inversion counts have the
      same parity. */
  predicate SolvablePair(state: State, goal: State) {
    |Without9(state)| == 8 && |Without9(goal)| == 8 &&
    Inversions(Without9(state)) % 2 == Inversions(Without9(goal)) % 2
  }

  method IsSolvablePair(state: State, goal: State) returns (b: bool)
    ensures b <==> SolvablePair(state, goal)
  {
    var stateList := Without9(state);
    var goalList := Without9(goal);
    if |stateList| != 8 || |goalList| != 8 {
      return false;
    }
    var inversions := CountInversions(stateList);
    var goalInversions := CountInversions(goalList);
    b := inversions % 2 == goalInversions % 2;
  }
}

=== FILE: state_space.dfy ===
/** The finite space every search runs in. A slide only rearranges tiles, so
    every state a search meets is a rearrangement of its start: a sequence of
    the same length over the start's values. There are finitely many such
    sequences, which bounds every visited set. */
module StateSpace {
  import opened Grid

  /** All sequences of length n whose entries come from the alphabet. */
  ghost function Words(alphabet: set<int>, n: nat): set<State>
  {
    if n == 0 then {[]}
    else set w, x | w in Words(alphabet, n - 1) && x in alphabet :: w + [x]
  }

  lemma {:induction false} InWords(alphabet: set<int>, w: State)
    requires forall i :: 0 <= i < |w| ==> w[i] in alphabet
    ensures w in Words(alphabet, |w|)
    decreases |w|
  {
    if |w| > 0 {
      var front := w[..|w| - 1];
      InWords(alphabet, front);
      var last := w[|w| - 1];
      assert front in Words(alphabet, |w| - 1) && last in alphabet;
      assert w == front + [last];
    }
  }

  /** The values occurring in a state. */
  ghost function Values(s: State): set<int>
  {
    set x | x in s
  }

  /** The rearrangements of the start's values, of the start's length. */
  ghost function Universe(start: State): set<State>
  {
    Words(Values(start), |start|)
  }

  /** Every rearrangement of the start lies in its universe. */
  lemma {:induction false} PermutationInUniverse(start: State, t: State)
    requires multiset(t) == multiset(start)
    ensures t in Universe(start)
  {
    assert |t| == |multiset(t)| == |multiset(start)| == |start|;
    forall i | 0 <= i < |t| ensures t[i] in Values(start) {
      assert t[i] in multiset(t);
    }
    InWords(Values(start), t);
  }

  /** Marking one more state of a universe as visited shrinks what is left. */
  lemma Shrink(u: set<State>, visited: set<State>, t: State)
    requires t in u && t !in visited
    ensures |u - (visited + {t})| < |u - visited|
  {
    assert u - visited == (u - (visited + {t})) + {t};
  }

  /** Visiting more states of a universe leaves fewer unvisited. */
  lemma Fewer(u: set<State>, a: set<State>, b: set<State>)
    requires a < b && b <= u
    ensures |u - b| < |u - a|
  {
    var x :| x in b && x !in a;
    var d := (b - a) * u;
    assert x in d;
    assert u - a == (u - b) + d;
    assert (u - b) * d == {};
  }

  /** Visiting more states never leaves more unvisited. */
  lemma NoMore(u: set<State>, a: set<State>, b: set<State>)
    requires a <= b
    ensures |u - b| <= |u - a|
  {
    var d := (b - a) * u;
    assert u - a == (u - b) + d;
    assert (u - b) * d == {};
  }
}

=== FILE: steepest_hill.dfy ===
/** Steepest-ascent hill climbing with restarts over single and double moves
    (`steepest_hill_ANDOR.py`). Each attempt moves to an unvisited neighbour
    of least score among those strictly better than the current state, and
    stops at the first state with no such neighbour. Restarts, the coin that
    picks where they begin and the final answer follow hill climbing. */
module SteepestHill {
  import opened Grid
  import opened Moves
  import opened Heuristic
  import opened Paths
  import opened Solvability
  import opened HillClimbing

  /** Scores fall strictly along the trail. */
  ghost predicate Descending(p: seq<State>, goal: State) {
    forall i :: 0 <= i < |p| - 1 ==> Below(Manhattan(p[i + 1], goal), Manhattan(p[i], goal))
  }

  /** Every move of the trail goes to a neighbour whose score is least among
      the neighbours not yet on the trail, and strictly below the score it
      leaves. */
  ghost predicate Steepest(p: seq<State>, goal: State) {
    Descending(p, goal) &&
    forall i :: 0 <= i < |p| - 1 ==>
      forall t :: Step(p[i], t) && t !in p[..i + 1] ==> !Below(Manhattan(t, goal), Manhattan(p[i + 1], goal))
  }

  /** A trail whose scores fall strictly, from a state of finite score h, has
      at most h + 1 states. */
  lemma {:induction false} DescentBound(p: seq<State>, goal: State)
    requires |p| > 0 && Descending(p, goal) && Manhattan(p[0], goal).Some?
    ensures Manhattan(p[|p| - 1], goal).Some?
    ensures Manhattan(p[|p| - 1], goal).value + |p| - 1 <= Manhattan(p[0], goal).value
    ensures |p| <= Manhattan(p[0], goal).value + 1
    decreases |p|
  {
    if |p| > 1 {
      var q := p[..|p| - 1];
      forall i | 0 <= i < |q| - 1 ensures Below(Manhattan(q[i + 1], goal), Manhattan(q[i], goal)) {
        assert q[i] == p[i] && q[i + 1] == p[i + 1];
      }
      DescentBound(q, goal);
      assert q[|q| - 1] == p[|p| - 2];
    }
  }

  /** The bound of `DescentBound` for a trail from `from`, when `from` has a
      finite score. */
  lemma Bounded(p: seq<State>, goal: State, from: State)
    requires |p| > 0 && p[0] == from && Descending(p, goal)
    ensures Manhattan(from, goal).Some? ==> |p| <= Manhattan(from, goal).value + 1
  {
    if Manhattan(from, goal).Some? {
      DescentBound(p, goal);
    }
  }

  /** Moving to a steepest neighbour keeps the trail steepest. */
  lemma SteepestExtend(p: seq<State>, goal: State, visited: set<State>, next: State)
    requires |p| > 0 && Steepest(p, goal) && forall s :: s in visited <==> s in p
    requires Below(Manhattan(next, goal), Manhattan(p[|p| - 1], goal))
    requires forall t :: Step(p[|p| - 1], t) && t !in visited ==> !Below(Manhattan(t, goal), Manhattan(next, goal))
    ensures Steepest(p + [next], goal)
  {
    var q := p + [next];
    forall i | 0 <= i < |q| - 1
      ensures Below(Manhattan(q[i + 1], goal), Manhattan(q[i], goal))
      ensures forall t :: Step(q[i], t) && t !in q[..i + 1] ==> !Below(Manhattan(t, goal), Manhattan(q[i + 1], goal))
    {
      assert q[..i + 1] == p[..i + 1];
      if i < |p| - 1 {
        assert q[i] == p[i] && q[i + 1] == p[i + 1];
      } else {
        assert p[..i + 1] == p;
      }
    }
  }

  /** The choice of move in one iteration: among the strictly better
      unvisited neighbours, the first of least score after the stable sort;
      None when there is no strictly better unvisited neighbour. */
  method SteepestMove(goal: State, current: State, currentScore: Option<nat>, visited: set<State>)
    returns (next: Option<State>, nextScore: Option<nat>)
    ensures next.Some? ==>
      Step(current, next.value) && next.value !in visited && nextScore == Manhattan(next.value, goal) &&
      Below(nextScore, currentScore) &&
      forall t :: Step(current, t) && t !in visited ==> !Below(Manhattan(t, goal), nextScore)
    ensures next.None? ==>
      forall t :: Step(current, t) && t !in visited ==> !Below(Manhattan(t, goal), currentScore)
  {
    var ns := NeighborStates(current);
    var cs := Better(goal, ns, visited, currentScore);
    if |cs| == 0 {
      assert forall t :: Step(current, t) && t !in visited ==> !Below(Manhattan(t, goal), currentScore);
      return None, None;
    }
    var k := Least(cs);
    assert cs[k] in cs;
    LeastIsBest(goal, current, ns, visited, currentScore, cs, cs[k]);
    next, nextScore := Some(cs[k].0), Some(cs[k].1);
  }

  /** One attempt: a steepest trail from `from`, without repeats and with at
      most `max_iterations + 1` states, and at most h + 1 when `from` scores h. When it stops short of the goal with
      iterations to spare, no unvisited neighbour of its last state scores
      strictly lower. The best state afterwards is the best of the old one
      and the states the trail moved to. */
  method Climb(start: State, goal: State, from: State, maxIterations: int, bestState: State,
               bestScore: Option<nat>, ghost lead: seq<State>, ghost bestLead: seq<State>)
    returns (reached: bool, path: seq<State>, current: State, currentScore: Option<nat>,
             bestState': State, bestScore': Option<nat>, ghost bestLead': seq<State>)
    requires PathFromTo(lead, start, from) && Best(start, goal, bestState, bestScore, bestLead)
    ensures Walk(path, from) && path[|path| - 1] == current && currentScore == Manhattan(current, goal)
    ensures Steepest(path, goal) && |path| <= Cap(maxIterations)
    ensures Manhattan(from, goal).Some? ==> |path| <= Manhattan(from, goal).value + 1
    ensures reached ==> current == goal
    ensures current == goal && !reached ==> |path| == 1
    ensures from == goal ==> !reached && |path| == 1 && current == from
    ensures current != goal && |path| <= maxIterations ==>
      forall t :: Step(current, t) && t !in path ==> !Below(Manhattan(t, goal), currentScore)
    ensures |path| == 1 ==> bestState' == bestState && bestScore' == bestScore
    ensures Best(start, goal, bestState', bestScore', bestLead') && !Below(bestScore, bestScore')
    ensures Tracked(goal, path, bestState, bestScore, bestState', bestScore')
  {
    var visited: set<State> := {from};
    var iterations: nat := 0;
    ghost var curLead := lead;
    current := from;
    currentScore := ManhattanDistance(from, goal);
    path := [from];
    reached := false;
    bestState', bestScore', bestLead' := bestState, bestScore, bestLead;
    while current != goal && iterations < maxIterations
      invariant Trail(from, goal, path, visited, current, currentScore) && PathFromTo(curLead, start, current)
      invariant Steepest(path, goal)
      invariant |path| == iterations + 1 && iterations <= (if maxIterations < 0 then 0 else maxIterations)
      invariant Best(start, goal, bestState', bestScore', bestLead') && !Below(bestScore, bestScore')
      invariant Tracked(goal, path, bestState, bestScore, bestState', bestScore')
      invariant current == goal ==> |path| == 1
      invariant from == goal ==> |path| == 1
      decreases maxIterations - iterations
    {
      iterations := iterations + 1;
      var next, nextScore := SteepestMove(goal, current, currentScore, visited);
      if next.None? {
        Bounded(path, goal, from);
        return;
      }
      SteepestExtend(path, goal, visited, next.value);
      Advance(start, from, goal, path, visited, current, currentScore, curLead, next.value, nextScore);
      ghost var b0, s0 := bestState', bestScore';
      current, currentScore := next.value, nextScore;
      if Below(currentScore, bestScore') {
        bestState', bestScore', bestLead' := current, currentScore, curLead + [current];
      }
      TrackedExtend(goal, path, bestState, bestScore, b0, s0, current, bestState', bestScore');
      path := path + [current];
      visited := visited + {current};
      curLead := curLead + [current];
      if current == goal {
        reached := true;
        Bounded(path, goal, from);
        return;
      }
    }
    Bounded(path, goal, from);
  }

  /** The restart loop's state, with the kept trail steepest. */
  ghost predicate SteepKept(start: State, goal: State, maxIterations: int, startScore: Option<nat>,
                            bestState: State, bestScore: Option<nat>, bestLead: seq<State>,
                            overall: seq<State>, overallLead: seq<State>)
  {
    Kept(start, goal, maxIterations, startScore, bestState, bestScore, bestLead, overall, overallLead) &&
    Steepest(overall, goal)
  }

  /** One pass of the restart loop, as in hill climbing but with a steepest
      attempt: it starts at start, or at the best state so far when the coin
      says so and that state scores below start; `trail` is the attempt's
      path, returned when it reaches the goal and otherwise kept as
      `overall_path` when that is still empty or ends on a higher score. */
  method Round(start: State, goal: State, maxIterations: int, startScore: Option<nat>, restart: int,
               coin: nat -> bool, bestState: State, bestScore: Option<nat>, ghost bestLead: seq<State>,
               overall: seq<State>, ghost overallLead: seq<State>)
    returns (found: Option<seq<State>>, trail: seq<State>, ghost foundLead: seq<State>, bestState': State,
             bestScore': Option<nat>, ghost bestLead': seq<State>, overall': seq<State>,
             ghost overallLead': seq<State>)
    requires SteepKept(start, goal, maxIterations, startScore, bestState, bestScore, bestLead, overall, overallLead)
    ensures |trail| > 0
    ensures trail[0] == if restart > 0 && coin(restart) && Below(bestScore, startScore) then bestState else start
    ensures found.Some? ==> found.value == trail && trail[|trail| - 1] == goal
    ensures found.Some? ==>
      |found.value| > 0 && Walk(found.value, found.value[0]) && found.value[|found.value| - 1] == goal &&
      Steepest(found.value, goal) && |found.value| <= Cap(maxIterations) &&
      PathFromTo(foundLead, start, found.value[0]) && start != goal
    ensures found.None? ==>
      overall' == if trail[|trail| - 1] != goal &&
                     (overall == [] || Below(Manhattan(trail[|trail| - 1], goal), Manhattan(overall[|overall| - 1], goal)))
                  then trail else overall
    ensures found.None? ==>
      SteepKept(start, goal, maxIterations, startScore, bestState', bestScore', bestLead', overall', overallLead')
  {
    var from := start;
    ghost var fromLead := [start];
    if restart > 0 && coin(restart) && Below(bestScore, startScore) {
      from := bestState;
      fromLead := bestLead;
    }
    var reached, current, currentScore;
    reached, trail, current, currentScore, bestState', bestScore', bestLead' :=
      Climb(start, goal, from, maxIterations, bestState, bestScore, fromLead, bestLead);
    foundLead := fromLead;
    overall', overallLead' := overall, overallLead;
    if reached {
      found := Some(trail);
      return;
    }
    found := None;
    if current != goal {
      var lastScore := if overall == [] then None else Manhattan(overall[|overall| - 1], goal);
      if overall == [] || Below(currentScore, lastScore) {
        overall', overallLead' := trail, fromLead;
      }
    }
  }

  /** `solve(start_state, goal_state, max_iterations, max_restarts)`: None for
      an unsolvable pair; a result is a steepest trail ending at the goal
      that begins at a state reached from start, or `[start]` alone when the
      start already scores zero and no attempt left a trail. */
  method Solve(start: State, goal: State, maxIterations: int, maxRestarts: int, coin: nat -> bool)
    returns (result: Option<seq<State>>, ghost lead: seq<State>)
    ensures !SolvablePair(start, goal) ==> result.None?
    ensures SolvablePair(start, goal) && start == goal && Manhattan(start, goal) == Some(0) ==>
      result == Some([start])
    ensures result.Some? ==>
      (|result.value| > 0 && Walk(result.value, result.value[0]) && result.value[|result.value| - 1] == goal &&
       Steepest(result.value, goal) && |result.value| <= Cap(maxIterations) &&
       PathFromTo(lead, start, result.value[0])) ||
      (result.value == [start] && Manhattan(start, goal) == Some(0))
  {
    lead := [start];
    var solvable := IsSolvablePair(start, goal);
    if !solvable {
      return None, lead;
    }
    var startScore := ManhattanDistance(start, goal);
    var bestState, bestScore := start, startScore;
    ghost var bestLead := [start];
    var overall: seq<State> := [];
    ghost var overallLead: seq<State> := [];
    var restart := 0;
    while restart < maxRestarts
      invariant SteepKept(start, goal, maxIterations, startScore, bestState, bestScore, bestLead, overall, overallLead)
      decreases maxRestarts - restart
    {
      var found, trail;
      found, trail, lead, bestState, bestScore, bestLead, overall, overallLead :=
        Round(start, goal, maxIterations, startScore, restart, coin, bestState, bestScore, bestLead,
              overall, overallLead);
      if found.Some? {
        return found, lead;
      }
      restart := restart + 1;
    }
    if bestScore == Some(0) && overall != [] && overall[|overall| - 1] == goal {
      return Some(overall), overallLead;
    } else if bestScore == Some(0) && overall == [] {
      return Some([start]), [start];
    }
    return None, [start];
  }
}

=== FILE: stochastic_hill.dfy ===
/** Stochastic hill climbing with restarts over single and double moves
    (`stochastic_hill_ANDOR.py`). Each iteration moves to a random strictly
    better unvisited neighbour; when there is none it counts a stuck
    iteration, gives up once more than ten stuck iterations come in a row,
    and otherwise takes a random unvisited neighbour. Random draws are
    nondeterministic picks; the restart coin is an oracle parameter. */
module StochasticHill {
  import opened Grid
  import opened Moves
  import opened Heuristic
  import opened Paths
  import opened Solvability
  import opened HillClimbing

  /** An attempt ends when the stuck count exceeds this. */
  const StuckMax: nat := 10

  /** The choice of move in one iteration: with a strictly better unvisited
      neighbour, any of them, and the stuck count resets; otherwise the stuck
      count grows and, unless it exceeds the bound, any unvisited neighbour
      is taken. None means the attempt ends. */
  method StochasticMove(goal: State, current: State, currentScore: Option<nat>, visited: set<State>,
                        stuck: nat)
    returns (next: Option<State>, nextScore: Option<nat>, stuck': nat)
    ensures next.Some? ==>
      Step(current, next.value) && next.value !in visited && nextScore == Manhattan(next.value, goal) &&
      stuck' <= StuckMax
    ensures stuck' == 0 ==> next.Some? && Below(nextScore, currentScore)
    ensures stuck' != 0 ==>
      stuck' == stuck + 1 &&
      forall t :: Step(current, t) && t !in visited ==> !Below(Manhattan(t, goal), currentScore)
    ensures next.None? ==> stuck' > StuckMax || forall t :: Step(current, t) ==> t in visited
  {
    var ns := NeighborStates(current);
    var cs := Better(goal, ns, visited, currentScore);
    if |cs| > 0 {
      var k :| 0 <= k < |cs|;
      assert cs[k] in cs;
      return Some(cs[k].0), Some(cs[k].1), 0;
    }
    stuck' := stuck + 1;
    assert forall t :: Step(current, t) && t !in visited ==> !Below(Manhattan(t, goal), currentScore);
    if stuck' > StuckMax {
      return None, None, stuck';
    }
    next, nextScore := Escape(goal, current, ns, visited);
  }

  /** The move rule of stochastic hill climbing, for a move from `from` to
      `to` with the states in `seen` already on the trail: the move goes to a
      strictly better state, unless (an escape) no neighbour not seen scored
      strictly below `from`. */
  ghost predicate WanderMove(goal: State, from: State, seen: seq<State>, to: State) {
    Below(Manhattan(to, goal), Manhattan(from, goal)) ||
    forall t :: Step(from, t) && t !in seen ==> !Below(Manhattan(t, goal), Manhattan(from, goal))
  }

  /** Every move of the trail follows the rule. */
  ghost predicate Wandering(p: seq<State>, goal: State) {
    forall i :: 0 <= i < |p| - 1 ==> WanderMove(goal, p[i], p[..i + 1], p[i + 1])
  }

  /** A move chosen by the rule keeps the trail wandering by it. */
  lemma WanderingExtend(p: seq<State>, goal: State, visited: set<State>, next: State)
    requires |p| > 0 && Wandering(p, goal) && forall s :: s in visited <==> s in p
    requires Below(Manhattan(next, goal), Manhattan(p[|p| - 1], goal)) ||
             forall t :: Step(p[|p| - 1], t) && t !in visited ==> !Below(Manhattan(t, goal), Manhattan(p[|p| - 1], goal))
    ensures Wandering(p + [next], goal)
  {
    var q := p + [next];
    forall i | 0 <= i < |q| - 1 ensures WanderMove(goal, q[i], q[..i + 1], q[i + 1]) {
      assert q[..i + 1] == p[..i + 1];
      if i < |p| - 1 {
        assert q[i] == p[i] && q[i + 1] == p[i + 1];
      } else {
        assert p[..i + 1] == p;
      }
    }
  }

  /** One attempt: the trail starts at `from`, never repeats a state, follows
      the move rule and has at most `max_iterations + 1` states; reaching the
      goal ends it with `reached`. The best state afterwards is the best of
      the old one and the states the trail moved to. */
  method Wander(start: State, goal: State, from: State, maxIterations: int, bestState: State,
                bestScore: Option<nat>, ghost lead: seq<State>, ghost bestLead: seq<State>)
    returns (reached: bool, path: seq<State>, current: State, currentScore: Option<nat>,
             bestState': State, bestScore': Option<nat>, ghost bestLead': seq<State>)
    requires PathFromTo(lead, start, from) && Best(start, goal, bestState, bestScore, bestLead)
    ensures Walk(path, from) && path[|path| - 1] == current && currentScore == Manhattan(current, goal)
    ensures |path| <= Cap(maxIterations)
    ensures reached ==> current == goal
    ensures current == goal && !reached ==> |path| == 1
    ensures from == goal ==> !reached && |path| == 1 && current == from
    ensures Wandering(path, goal)
    ensures |path| == 1 ==> bestState' == bestState && bestScore' == bestScore
    ensures Best(start, goal, bestState', bestScore', bestLead') && !Below(bestScore, bestScore')
    ensures Tracked(goal, path, bestState, bestScore, bestState', bestScore')
  {
    var visited: set<State> := {from};
    var iterations: nat := 0;
    var stuck: nat := 0;
    ghost var curLead := lead;
    current := from;
    currentScore := ManhattanDistance(from, goal);
    path := [from];
    reached := false;
    bestState', bestScore', bestLead' := bestState, bestScore, bestLead;
    while current != goal && iterations < maxIterations
      invariant Trail(from, goal, path, visited, current, currentScore) && PathFromTo(curLead, start, current)
      invariant |path| == iterations + 1 && iterations <= (if maxIterations < 0 then 0 else maxIterations)
      invariant stuck <= StuckMax
      invariant Wandering(path, goal)
      invariant Best(start, goal, bestState', bestScore', bestLead') && !Below(bestScore, bestScore')
      invariant Tracked(goal, path, bestState, bestScore, bestState', bestScore')
      invariant current == goal ==> |path| == 1
      invariant from == goal ==> |path| == 1
      decreases maxIterations - iterations
    {
      iterations := iterations + 1;
      var next, nextScore;
      next, nextScore, stuck := StochasticMove(goal, current, currentScore, visited, stuck);
      if next.None? {
        break;
      }
      WanderingExtend(path, goal, visited, next.value);
      Advance(start, from, goal, path, visited, current, currentScore, curLead, next.value, nextScore);
      ghost var b0, s0 := bestState', bestScore';
      current, currentScore := next.value, nextScore;
      if Below(currentScore, bestScore') {
        bestState', bestScore', bestLead' := current, currentScore, curLead + [current];
      }
      TrackedExtend(goal, path, bestState, bestScore, b0, s0, current, bestState', bestScore');
      path := path + [current];
      visited := visited + {current};
      curLead := curLead + [current];
      if current == goal {
        reached := true;
        return;
      }
    }
  }

  /** One pass of the restart loop, as in hill climbing but with a
      stochastic attempt: it starts at start, or at the best state so far
      when the coin says so and that state scores below start; `trail` is the
      attempt's path, returned when it reaches the goal and otherwise kept as
      `overall_path` when that is still empty or ends on a higher score. */
  method Round(start: State, goal: State, maxIterations: int, startScore: Option<nat>, restart: int,
               coin: nat -> bool, bestState: State, bestScore: Option<nat>, ghost bestLead: seq<State>,
               overall: seq<State>, ghost overallLead: seq<State>)
    returns (found: Option<seq<State>>, trail: seq<State>, ghost foundLead: seq<State>, bestState': State,
             bestScore': Option<nat>, ghost bestLead': seq<State>, overall': seq<State>,
             ghost overallLead': seq<State>)
    requires Kept(start, goal, maxIterations, startScore, bestState, bestScore, bestLead, overall, overallLead)
    ensures |trail| > 0
    ensures trail[0] == if restart > 0 && coin(restart) && Below(bestScore, startScore) then bestState else start
    ensures found.Some? ==> found.value == trail && trail[|trail| - 1] == goal
    ensures found.Some? ==>
      |found.value| > 0 && Walk(found.value, found.value[0]) && found.value[|found.value| - 1] == goal &&
      |found.value| <= Cap(maxIterations) && PathFromTo(foundLead, start, found.value[0]) && start != goal
    ensures found.None? ==>
      overall' == if trail[|trail| - 1] != goal &&
                     (overall == [] || Below(Manhattan(trail[|trail| - 1], goal), Manhattan(overall[|overall| - 1], goal)))
                  then trail else overall
    ensures found.None? ==>
      Kept(start, goal, maxIterations, startScore, bestState', bestScore', bestLead', overall', overallLead')
  {
    var from := start;
    ghost var fromLead := [start];
    if restart > 0 && coin(restart) && Below(bestScore, startScore) {
      from := bestState;
      fromLead := bestLead;
    }
    var reached, current, currentScore;
    reached, trail, current, currentScore, bestState', bestScore', bestLead' :=
      Wander(start, goal, from, maxIterations, bestState, bestScore, fromLead, bestLead);
    foundLead := fromLead;
    overall', overallLead' := overall, overallLead;
    if reached {
      found := Some(trail);
      return;
    }
    found := None;
    if current != goal {
      var lastScore := if overall == [] then None else Manhattan(overall[|overall| - 1], goal);
      if overall == [] || Below(currentScore, lastScore) {
        overall', overallLead' := trail, fromLead;
      }
    }
  }

  /** `solve(start_state, goal_state, max_iterations, max_restarts)`: None for
      an unsolvable pair; a result is a trail ending at the goal that begins
      at a state reached from start, or `[start]` alone when the start
      already scores zero and no attempt left a trail. */
  method Solve(start: State, goal: State, maxIterations: int, maxRestarts: int, coin: nat -> bool)
    returns (result: Option<seq<State>>, ghost lead: seq<State>)
    ensures !SolvablePair(start, goal) ==> result.None?
    ensures SolvablePair(start, goal) && start == goal && Manhattan(start, goal) == Some(0) ==>
      result == Some([start])
    ensures result.Some? ==>
      (|result.value| > 0 && Walk(result.value, result.value[0]) && result.value[|result.value| - 1] == goal &&
       |result.value| <= Cap(maxIterations) && PathFromTo(lead, start, result.value[0])) ||
      (result.value == [start] && Manhattan(start, goal) == Some(0))
  {
    lead := [start];
    var solvable := IsSolvablePair(start, goal);
    if !solvable {
      return None, lead;
    }
    var startScore := ManhattanDistance(start, goal);
    var bestState, bestScore := start, startScore;
    ghost var bestLead := [start];
    var overall: seq<State> := [];
    ghost var overallLead: seq<State> := [];
    var restart := 0;
    while restart < maxRestarts
      invariant Kept(start, goal, maxIterations, startScore, bestState, bestScore, bestLead, overall, overallLead)
      decreases maxRestarts - restart
    {
      var found, trail;
      found, trail, lead, bestState, bestScore, bestLead, overall, overallLead :=
        Round(start, goal, maxIterations, startScore, restart, coin, bestState, bestScore, bestLead,
              overall, overallLead);
      if found.Some? {
        return found, lead;
      }
      restart := restart + 1;
    }
    if bestScore == Some(0) && overall != [] && overall[|overall| - 1] == goal {
      return Some(overall), overallLead;
    } else if bestScore == Some(0) && overall == [] {
      return Some([start]), [start];
    }
    return None, [start];
  }
}

=== FILE: ucs.dfy ===
/** Uniform-cost search over single (cost 1) and double (cost 2) moves
    (`ucs_ANDOR.py`). There is no closed set: an entry popped at a cost above
    the best recorded one is stale and skipped. The heap becomes a multiset of
    (cost, state) entries and a pop takes any entry of least cost. Ghost state
    records which states were expanded and the cost of the last expansion;
    since pops never decrease in cost, an expanded state is never improved
    and so never expanded twice. */
module UniformCost {
  import opened Grid
  import opened Order
  import opened Moves
  import opened StateSpace
  import opened Paths

  /** A heap entry (cost, state). */
  type Item = (nat, State)

  /** Every queued state has a recorded cost no greater than the entry's, and
      no entry is cheaper than the last expansion. */
  ghost predicate Queued(pq: multiset<Item>, costs: map<State, nat>, last: nat) {
    forall e :: e in pq ==> e.1 in costs && costs[e.1] <= e.0 && last <= e.0
  }

  /** Expanded states cost at most the last expansion, and their remaining
      entries are stale. */
  ghost predicate Settled(pq: multiset<Item>, costs: map<State, nat>, expanded: set<State>, last: nat) {
    (forall s :: s in expanded ==> s in costs && costs[s] <= last) &&
    (forall e :: e in pq && e.1 in expanded ==> costs[e.1] < e.0)
  }

  /** The entry carrying a state's recorded cost is queued once. */
  ghost predicate Single(pq: multiset<Item>, costs: map<State, nat>) {
    forall e :: e in pq && e.1 in costs && e.0 == costs[e.1] ==> pq[e] == 1
  }

  ghost predicate Books(start: State, parent: map<State, Option<State>>, costs: map<State, nat>,
                        expanded: set<State>, pq: multiset<Item>, last: nat,
                        rank: map<State, nat>, clock: nat)
  {
    SearchTree(start, parent, expanded, rank, clock) && Costed(start, parent, costs) &&
    Queued(pq, costs, last) && Settled(pq, costs, expanded, last) && Single(pq, costs)
  }

  /** Pushing (newCost, next) after lowering next's cost to newCost. */
  lemma PushKeeps(pq: multiset<Item>, costs: map<State, nat>, expanded: set<State>, last: nat,
                  next: State, newCost: nat)
    requires Queued(pq, costs, last) && Settled(pq, costs, expanded, last) && Single(pq, costs)
    requires next !in costs || newCost < costs[next]
    requires last < newCost && next !in expanded
    ensures var pq', costs' := pq + multiset{(newCost, next)}, costs[next := newCost];
      Queued(pq', costs', last) && Settled(pq', costs', expanded, last) && Single(pq', costs')
  {
    var pq', costs' := pq + multiset{(newCost, next)}, costs[next := newCost];
    assert pq[(newCost, next)] == 0;
    forall e | e in pq' && e.1 in costs' && e.0 == costs'[e.1] ensures pq'[e] == 1 {
      if e.1 != next {
        assert e in pq;
      }
    }
  }

  /** Removing an entry keeps the queue facts. */
  lemma DropKeeps(pq: multiset<Item>, costs: map<State, nat>, expanded: set<State>, last: nat, e: Item)
    requires Queued(pq, costs, last) && Settled(pq, costs, expanded, last) && Single(pq, costs)
    ensures var pq' := pq - multiset{e};
      Queued(pq', costs, last) && Settled(pq', costs, expanded, last) && Single(pq', costs)
  {
  }

  /** Popping a least entry that carries its state's recorded cost: the state
      was not expanded before, and after expanding it at that cost the queue
      facts hold with it as the last expansion. */
  lemma SettleKeeps(pq: multiset<Item>, costs: map<State, nat>, expanded: set<State>, last: nat, e: Item)
    requires Queued(pq, costs, last) && Settled(pq, costs, expanded, last) && Single(pq, costs)
    requires e in pq && (forall x :: x in pq ==> e.0 <= x.0) && e.0 == costs[e.1]
    ensures e.1 !in expanded
    ensures var pq', expanded' := pq - multiset{e}, expanded + {e.1};
      Queued(pq', costs, e.0) && Settled(pq', costs, expanded', e.0) && Single(pq', costs)
  {
    var pq' := pq - multiset{e};
    forall x | x in pq' && x.1 == e.1 ensures costs[x.1] < x.0 {
      assert x in pq;
    }
  }

  /** Recording a cheaper route to next (through an expanded state) and
      pushing it keeps the bookkeeping. */
  lemma RecordKeeps(start: State, parent: map<State, Option<State>>, costs: map<State, nat>,
                    expanded: set<State>, pq: multiset<Item>, last: nat, rank: map<State, nat>, clock: nat,
                    current: State, next: State, newCost: nat)
    requires Books(start, parent, costs, expanded, pq, last, rank, clock)
    requires current in expanded && Step(current, next) && last < newCost
    requires next !in costs || newCost < costs[next]
    ensures Books(start, parent[next := Some(current)], costs[next := newCost], expanded,
                  pq + multiset{(newCost, next)}, last, rank[next := clock], clock + 1)
  {
    Graft(start, parent, expanded, rank, clock, current, next);
    PushKeeps(pq, costs, expanded, last, next, newCost);
  }

  /** Skipping a stale entry, or expanding a current one, keeps the
      bookkeeping; an expanded state is never expanded again. */
  lemma PopKeeps(start: State, parent: map<State, Option<State>>, costs: map<State, nat>,
                 expanded: set<State>, pq: multiset<Item>, last: nat, rank: map<State, nat>, clock: nat,
                 e: Item)
    requires Books(start, parent, costs, expanded, pq, last, rank, clock)
    requires e in pq && (forall x :: x in pq ==> e.0 <= x.0)
    ensures e.1 in costs
    ensures e.0 > costs[e.1] ==> Books(start, parent, costs, expanded, pq - multiset{e}, last, rank, clock)
    ensures e.0 <= costs[e.1] ==>
      e.1 !in expanded &&
      Books(start, parent, costs, expanded + {e.1}, pq - multiset{e}, e.0, rank, clock)
  {
    if e.0 > costs[e.1] {
      DropKeeps(pq, costs, expanded, last, e);
    } else {
      SettleKeeps(pq, costs, expanded, last, e);
      Close(start, parent, expanded, rank, clock, e.1);
    }
  }

  /** One pass of the neighbour loop, for a neighbour next reached at cost
      newCost = currentCost + moveCost: a cost below the recorded one (or a
      first cost) rewrites cost and parent together and pushes the
      neighbour; otherwise nothing changes. */
  method RelaxOne(start: State, current: State, currentCost: nat, next: State, newCost: nat,
                  parent: map<State, Option<State>>, costs: map<State, nat>, ghost expanded: set<State>,
                  pq: multiset<Item>, ghost rank: map<State, nat>, ghost clock: nat)
    returns (parent': map<State, Option<State>>, costs': map<State, nat>, pq': multiset<Item>,
             ghost rank': map<State, nat>, ghost clock': nat)
    requires Books(start, parent, costs, expanded, pq, currentCost, rank, clock)
    requires current in expanded && currentCost < newCost && Step(current, next)
    ensures Books(start, parent', costs', expanded, pq', currentCost, rank', clock')
    ensures Lowered(costs, parent, costs', parent', expanded, current)
    ensures next !in costs || newCost < costs[next] ==>
      costs' == costs[next := newCost] && parent' == parent[next := Some(current)] &&
      pq' == pq + multiset{(newCost, next)}
    ensures next in costs && costs[next] <= newCost ==> costs' == costs && parent' == parent && pq' == pq
  {
    if next !in costs || newCost < costs[next] {
      LoweredByRecord(costs, parent, expanded, current, next, newCost);
      RecordKeeps(start, parent, costs, expanded, pq, currentCost, rank, clock, current, next, newCost);
      costs', parent' := costs[next := newCost], parent[next := Some(current)];
      pq' := pq + multiset{(newCost, next)};
      rank', clock' := rank[next := clock], clock + 1;
    } else {
      parent', costs', pq', rank', clock' := parent, costs, pq, rank, clock;
      LoweredRefl(costs, parent, expanded, current);
    }
  }

  /** The neighbour loop of `solve`. */
  method Relax(start: State, current: State, currentCost: nat, ns: seq<(State, nat)>,
               parent: map<State, Option<State>>, costs: map<State, nat>, ghost expanded: set<State>,
               pq: multiset<Item>, ghost rank: map<State, nat>, ghost clock: nat)
    returns (parent': map<State, Option<State>>, costs': map<State, nat>, pq': multiset<Item>,
             ghost rank': map<State, nat>, ghost clock': nat)
    requires Books(start, parent, costs, expanded, pq, currentCost, rank, clock) && current in expanded
    requires forall p :: p in ns ==> 1 <= p.1 && Step(current, p.0)
    ensures Books(start, parent', costs', expanded, pq', currentCost, rank', clock') && pq <= pq'
    ensures Lowered(costs, parent, costs', parent', expanded, current)
    ensures Relaxed(currentCost, ns, costs, costs', pq')
  {
    parent', costs', pq', rank', clock' := parent, costs, pq, rank, clock;
    LoweredRefl(costs, parent, expanded, current);
    for i := 0 to |ns|
      invariant Books(start, parent', costs', expanded, pq', currentCost, rank', clock') && pq <= pq'
      invariant Lowered(costs, parent, costs', parent', expanded, current)
      invariant Relaxed(currentCost, ns[..i], costs, costs', pq')
    {
      assert ns[i] in ns;
      ghost var c0, p0, pq0 := costs', parent', pq';
      var newCost := currentCost + ns[i].1;
      parent', costs', pq', rank', clock' :=
        RelaxOne(start, current, currentCost, ns[i].0, newCost, parent', costs', expanded, pq', rank', clock');
      LoweredTrans(costs, parent, c0, p0, costs', parent', expanded, current);
      RelaxedNext(currentCost, ns, i, costs, c0, pq0, newCost, costs', pq');
    }
    assert ns[..|ns|] == ns;
  }

  /** After relaxing the pairs `done` from a state of cost currentCost: every
      neighbour among them costs at most the route through that state, and
      every state whose cost dropped below its old one (or got a first cost)
      was reached by one of those pairs at exactly that cost and is queued
      with it. */
  ghost predicate Relaxed(currentCost: nat, done: seq<(State, nat)>, costs: map<State, nat>,
                          costs': map<State, nat>, pq': multiset<Item>)
  {
    (forall p :: p in done ==> p.0 in costs' && costs'[p.0] <= currentCost + p.1) &&
    (forall t :: t in costs' && (t !in costs || costs'[t] < costs[t]) ==>
       (exists p :: p in done && p.0 == t && costs'[t] == currentCost + p.1) && (costs'[t], t) in pq')
  }

  /** Relaxing one more pair keeps `Relaxed`. */
  lemma RelaxedStep(currentCost: nat, done: seq<(State, nat)>, costs: map<State, nat>,
                    c0: map<State, nat>, pq0: multiset<Item>, p: (State, nat), newCost: nat,
                    c1: map<State, nat>, pq1: multiset<Item>)
    requires Relaxed(currentCost, done, costs, c0, pq0) && newCost == currentCost + p.1
    requires p.0 !in c0 || newCost < c0[p.0] ==> c1 == c0[p.0 := newCost] && pq1 == pq0 + multiset{(newCost, p.0)}
    requires p.0 in c0 && c0[p.0] <= newCost ==> c1 == c0 && pq1 == pq0
    ensures Relaxed(currentCost, done + [p], costs, c1, pq1)
  {
    forall q | q in done + [p] ensures q.0 in c1 && c1[q.0] <= currentCost + q.1 {
      if q != p {
        assert q in done;
      }
    }
    forall t | t in c1 && (t !in costs || c1[t] < costs[t])
      ensures (exists q :: q in done + [p] && q.0 == t && c1[t] == currentCost + q.1) && (c1[t], t) in pq1
    {
      if (p.0 !in c0 || newCost < c0[p.0]) && t == p.0 {
        assert p in done + [p];
      } else {
        var q :| q in done && q.0 == t && c0[t] == currentCost + q.1;
        assert q in done + [p];
      }
    }
  }

  /** `RelaxedStep` for the pass over ns[i]. */
  lemma RelaxedNext(currentCost: nat, ns: seq<(State, nat)>, i: nat, costs: map<State, nat>,
                    c0: map<State, nat>, pq0: multiset<Item>, newCost: nat,
                    c1: map<State, nat>, pq1: multiset<Item>)
    requires i < |ns| && Relaxed(currentCost, ns[..i], costs, c0, pq0) && newCost == currentCost + ns[i].1
    requires ns[i].0 !in c0 || newCost < c0[ns[i].0] ==>
      c1 == c0[ns[i].0 := newCost] && pq1 == pq0 + multiset{(newCost, ns[i].0)}
    requires ns[i].0 in c0 && c0[ns[i].0] <= newCost ==> c1 == c0 && pq1 == pq0
    ensures Relaxed(currentCost, ns[..i + 1], costs, c1, pq1)
  {
    assert ns[..i + 1] == ns[..i] + [ns[i]];
    RelaxedStep(currentCost, ns[..i], costs, c0, pq0, ns[i], newCost, c1, pq1);
  }

  /** One iteration of the main loop: pop a least entry; skip it if stale;
      otherwise expand its state, unless it is the goal. Each iteration
      either expands a new state or shrinks the heap. */
  method Iterate(start: State, goal: State, parent: map<State, Option<State>>, costs: map<State, nat>,
                 ghost expanded: set<State>, pq: multiset<Item>, ghost last: nat,
                 ghost rank: map<State, nat>, ghost clock: nat)
    returns (found: bool, entry: Item, parent': map<State, Option<State>>, costs': map<State, nat>,
             ghost expanded': set<State>, pq': multiset<Item>, ghost last': nat,
             ghost rank': map<State, nat>, ghost clock': nat)
    requires Books(start, parent, costs, expanded, pq, last, rank, clock) && |pq| > 0
    requires expanded <= Universe(start)
    ensures Books(start, parent', costs', expanded', pq', last', rank', clock')
    ensures entry in pq && (forall x :: x in pq ==> entry.0 <= x.0) && entry.1 in costs
    ensures entry.0 > costs[entry.1] ==>
      !found && expanded' == expanded && parent' == parent && costs' == costs && pq' == pq - multiset{entry}
    ensures entry.0 <= costs[entry.1] ==>
      Popped(goal, entry, parent, costs, expanded, pq, found, parent', costs', expanded', pq')
    ensures found ==> goal in parent'
    ensures found <==> goal in expanded' - expanded
    ensures expanded' <= Universe(start)
    ensures |Universe(start) - expanded'| < |Universe(start) - expanded| ||
            (expanded' == expanded && |pq'| < |pq|)
  {
    ghost var least := MinBy(pq, (x: Item) => x.0);
    entry :| entry in pq && forall x :: x in pq ==> entry.0 <= x.0;
    PopKeeps(start, parent, costs, expanded, pq, last, rank, clock, entry);
    found, parent', costs', expanded', pq', last', rank', clock' :=
      false, parent, costs, expanded, pq - multiset{entry}, last, rank, clock;
    if entry.0 > costs[entry.1] {
      return;
    }
    found, parent', costs', expanded', pq', last', rank', clock' :=
      Settle(start, goal, parent, costs, expanded, pq, rank, clock, entry);
  }

  /** The effect of popping an entry that is not stale: its state is
      expanded at the entry's cost; when it is the goal the search stops with
      nothing else changed; otherwise its neighbours are relaxed from that
      cost, and nothing leaves the heap but the popped entry. */
  ghost predicate Popped(goal: State, entry: Item, parent: map<State, Option<State>>, costs: map<State, nat>,
                         expanded: set<State>, pq: multiset<Item>, found: bool,
                         parent': map<State, Option<State>>, costs': map<State, nat>,
                         expanded': set<State>, pq': multiset<Item>)
  {
    costs.Keys == parent.Keys && costs'.Keys == parent'.Keys &&
    expanded' == expanded + {entry.1} && (found <==> entry.1 == goal) &&
    (found ==> parent' == parent && costs' == costs && pq' == pq - multiset{entry}) &&
    (!found ==>
       pq - multiset{entry} <= pq' && Lowered(costs, parent, costs', parent', expanded', entry.1) &&
       Relaxed(entry.0, DedupFrom(NeighborsWithCosts(entry.1), {}), costs, costs', pq'))
  }

  /** The rest of an iteration once the popped entry is not stale. */
  method Settle(start: State, goal: State, parent: map<State, Option<State>>, costs: map<State, nat>,
                ghost expanded: set<State>, pq: multiset<Item>, ghost rank: map<State, nat>, ghost clock: nat,
                entry: Item)
    returns (found: bool, parent': map<State, Option<State>>, costs': map<State, nat>,
             ghost expanded': set<State>, pq': multiset<Item>, ghost last': nat,
             ghost rank': map<State, nat>, ghost clock': nat)
    requires entry.1 !in expanded && entry in pq && expanded <= Universe(start)
    requires Books(start, parent, costs, expanded + {entry.1}, pq - multiset{entry}, entry.0, rank, clock)
    ensures Books(start, parent', costs', expanded', pq', last', rank', clock')
    ensures Popped(goal, entry, parent, costs, expanded, pq, found, parent', costs', expanded', pq')
    ensures found ==> goal in parent'
    ensures found <==> goal in expanded' - expanded
    ensures expanded' <= Universe(start) && |Universe(start) - expanded'| < |Universe(start) - expanded|
  {
    var currentCost, current := entry.0, entry.1;
    PermutationInUniverse(start, current);
    Fewer(Universe(start), expanded, expanded + {current});
    found, parent', costs', expanded', pq', last', rank', clock' :=
      false, parent, costs, expanded + {current}, pq - multiset{entry}, currentCost, rank, clock;
    if current == goal {
      found := true;
      return;
    }
    var ns := DedupNeighborsWithCosts(current);
    parent', costs', pq', rank', clock' :=
      Relax(start, current, currentCost, ns, parent, costs, expanded', pq', rank, clock);
  }

  /** `solve(start_state, goal_state)`: a found path runs from start to goal
      through successive neighbours; the goal is tested when popped. */
  method Solve(start: State, goal: State) returns (result: Option<seq<State>>)
    ensures result.Some? ==> PathFromTo(result.value, start, goal) && NoRepeats(result.value)
  {
    var pq: multiset<Item> := multiset{(0, start)};
    var costs: map<State, nat> := map[start := 0];
    var parent: map<State, Option<State>> := map[start := None];
    ghost var expanded: set<State> := {};
    ghost var last: nat := 0;
    ghost var rank: map<State, nat> := map[start := 0];
    ghost var clock: nat := 1;
    while |pq| > 0
      invariant Books(start, parent, costs, expanded, pq, last, rank, clock)
      invariant expanded <= Universe(start)
      decreases |Universe(start) - expanded|, |pq|
    {
      var found, entry;
      found, entry, parent, costs, expanded, pq, last, rank, clock :=
        Iterate(start, goal, parent, costs, expanded, pq, last, rank, clock);
      if found {
        var path := TracePath(start, goal, parent, expanded, rank, clock);
        return Some(path);
      }
    }
    return None;
  }
}
